=== FILE: README.md ===
# Çukurova Yemekhane menu: a Dafny model

This project models the core of the Çukurova University dining-hall menu site in Dafny. The model covers:

- the scraper, which turns the university's monthly menu page into a `MenuData` record of days, meals and calories;
- the scrape script, which saves a dated snapshot file per month and prunes old ones;
- the loader, which picks the latest snapshot of a month;
- the favourite-meal e-mail script;
- the IP rate limiter, the like/dislike reactions route and its monthly top-five ranking;
- the like/dislike buttons with their optimistic counters and local storage;
- the daily calorie log route and its client hook;
- the favourites hook;
- the pure parts of the menu page and the calorie-tracking page.

The code is modelled as pure functions over immutable values:

- A directory becomes a listing plus a map from file name to contents.
- A database table becomes a `map`.
- A response from the server becomes a datatype.
- The clock, the HTTP answers and the outcome of sending an e-mail are parameters.
- Strings are `seq<char>`, and JavaScript's `localeCompare` is modelled as code-point lexicographic order (`Order.StrLe`). The two agree on names made of lower-case letters, digits, `-` and `.`, such as the ISO dates and the file names the scraper writes.
- Sorting is a stable insertion sort (`Order.SortBy`). Its contract is what `Array.prototype.sort` promises:
  - the result is a permutation of the input;
  - it is sorted;
  - keys that tie keep their original order.

Modules follow the source files:

| module | models |
|---|---|
| `Core`, `Order` | string scanning helpers (regex matches, `trim`, `split`), digit parsing and formatting, ordering and stable sort |
| `MenuTypes` | `lib/types.ts` |
| `DateUtils`, `Utils` | `lib/date-utils.ts`, `lib/utils.ts` |
| `Scraper` | `lib/scraper.ts` |
| `SnapshotStore` | `scripts/scrape-menu.ts` |
| `MenuLoader` | `lib/menu-loader.ts` |
| `Notifications` | `scripts/send-favorite-notifications.ts` |
| `RateLimiter` | `lib/rate-limiter.ts` |
| `Reactions`, `MonthlyReactions` | `app/api/reactions/route.ts`, `app/api/reactions/monthly/route.ts` |
| `ReactionButtons` | `components/like-dislike-buttons.tsx` |
| `DailyLog`, `DailyLogHook` | `app/api/daily-log/route.ts`, `hooks/use-daily-log.ts` |
| `FavoritesHook` | `hooks/use-favorites.ts` |
| `MenuPage`, `CaloriePage` | `app/menu-page.tsx`, `app/kalori-takibi/page.tsx` |

Where the code and its documentation disagree, the model follows the code:

- A scrape that keeps no day is not an error. It yields month `""` and no days.
- The total calories of a day come from the last red span that either is the first span or mentions "Ana Yemekli".
- A meal's calories are read from the piece between the first and the second `<br>`.
- The snapshot file name the scraper returns (`menu-YYYY-MM-YYYYMMDD.json`) is not the one the script writes (`menu-YYYYMMDD.json`). Both are modelled as written.

## Model

| member | source | states |
|---|---|---|
| DateUtils.GetTodayDate | lib/date-utils.ts:8-14 | for a four-digit year the `YYYY-MM-DD` string has the ISO shape and parses back to the same calendar date |
| DateUtils.GetCurrentMonth | lib/date-utils.ts:19-24 | the month string is the first seven characters of today's date, in `YYYY-MM` shape |
| DateUtils.IsTodayIffParsesToToday | lib/date-utils.ts:29-31 | `isToday(date)` holds exactly when the ISO date string parses to today's calendar date |
| DateUtils.FormatParsesBack | lib/date-utils.ts:8-14 | zero-padded year-month-day formatting of a valid date parses back to that date |
| DateUtils.ParseScrapeDateSpec | lib/date-utils.ts:46-49 | the file-name regex finds nothing exactly when no `menu-YYYY-MM-DDDDDDDD.json` occurrence exists; otherwise it gives the eight digits of the leftmost occurrence |
| DateUtils.ParseScrapeDateExamples | lib/date-utils.ts:46-49 | the month-prefixed file name yields its eight-digit date; the flat `menu-YYYYMMDD.json` name yields nothing |
| Utils.TitleCaseSpec | lib/utils.ts:12-16 | every character is lower-cased, and one that starts a word (first, or after white space) is then upper-cased, by a Turkish case table with the dotted/dotless i mappings |
| Utils.TitleCaseKeepsSpaces | lib/utils.ts:12-16 | under the Turkish case table, title-casing keeps the length and leaves every white-space character where and what it was |
| Utils.TitleCaseIdempotent | lib/utils.ts:12-16 | under the Turkish case table, title-casing an already title-cased string changes nothing |
| Utils.TitleCaseExamples | lib/utils.ts:12-16 | "iYI ıLIK" becomes "İyı Ilık" under the Turkish locale mappings |
| Core.ContainsSpec | lib/scraper.ts:33-34 | `includes` holds exactly when the phrase occurs at some position |
| Core.FindKeyDigitsSpec | lib/scraper.ts:38 | the unanchored `key(\d+)` match finds the leftmost occurrence of the key followed by a digit and returns the whole digit run after it; none when no such occurrence exists |
| Core.ShowNatRoundTrip | lib/scraper.ts:83-85 | `parseInt` of the decimal digits of n gives n back |
| Core.Pad2RoundTrip | lib/date-utils.ts:8-14 | `padStart(2, '0')` of a number below 100 parses back to that number |
| Core.BeforeAfterFirst | lib/scraper.ts:78-80 | splitting `a + sep + b` where `a` has no separator gives `a` before and `b` after |
| Scraper.FindDateSpec | lib/scraper.ts:44-54 | the date regex fails exactly when no `DD.MM.YYYY` occurs in the header text; otherwise the date is the leftmost occurrence rewritten as `YYYY-MM-DD` |
| Scraper.FindDateExample | lib/scraper.ts:44-54 | "03.11.2025 Pazartesi" gives "2025-11-03" |
| Scraper.ParseMealLink | lib/scraper.ts:66-88 | a link is skipped exactly when its href has no `id=` followed by a digit; a kept meal has a non-empty all-digit id |
| Scraper.ParseMealsSpec | lib/scraper.ts:66-88 | every meal comes from one of the links, and every link with an id gives its meal |
| Scraper.ParseMealsInOrder | lib/scraper.ts:66-88 | no link is dropped exactly when every link carries an id, and then the i-th meal is the i-th link's |
| Scraper.MealLinkRoundTrip | lib/scraper.ts:66-88 | the link the site would render for a meal (trimmed name without `<`, `<br>`, calories) parses back to that meal |
| Scraper.TotalCaloriesSpec | lib/scraper.ts:90-103 | the day total is the number in the last span that is the first span or mentions "Ana Yemekli"; 0 when none qualifies |
| Scraper.ParseCard | lib/scraper.ts:29-113 | a card is dropped exactly when it has no positive `ymk` or no date; a kept day carries that ymk, the found ISO date and the header's day name, and `hasData` is the absence of the no-data phrase; with data its meals are the parsed links and its total the "Ana Yemekli" span rule, without data no meals and 0 |
| Scraper.KeptDays | lib/scraper.ts:29-114 | at most one day per card, each well formed with an ISO date and positive ymk |
| Scraper.KeptDaysSpec | lib/scraper.ts:29-114 | a day is kept exactly when some card parses to it, and the first kept day is that of the first card that parses |
| Scraper.DayNameSpec | lib/scraper.ts:56-59 | a header of a date word and a day word gives that day word; a header of the date alone falls back to the subtitle's text before its first comma, trimmed |
| Scraper.ScrapeFullMonth | lib/scraper.ts:116-135 | the days are a stable ymk-sorted permutation of the kept cards; the month is the first kept day's `YYYY-MM` or ""; scrape date and file name come from today |
| Scraper.LegacyFilenameParsesBack | lib/scraper.ts:122-135 | the returned file name is one that `parseScrapeDate` reads back to the compact scrape date |
| SnapshotStore.SnapshotName | scripts/scrape-menu.ts:31-32 | the written name is a `menu-*.json` candidate with no dash after the prefix |
| SnapshotStore.SnapshotNameOfIsoDate | scripts/scrape-menu.ts:31-32 | for an ISO scrape date the name is `menu-YYYYMMDD.json` |
| SnapshotStore.WriteSnapshot | scripts/scrape-menu.ts:36-37 | writing adds or replaces exactly one file in the month's folder (creating the folder) and touches nothing else |
| SnapshotStore.WriteSnapshotIdempotent | scripts/scrape-menu.ts:36-37 | writing the same snapshot twice is the same as writing it once |
| SnapshotStore.Candidates | scripts/scrape-menu.ts:75-76 | the candidates are exactly the `menu-*.json` names of the listing |
| SnapshotStore.NewestFirstSpec | scripts/scrape-menu.ts:81 | the candidates are sorted by descending name, as a permutation |
| SnapshotStore.PruneSpec | scripts/scrape-menu.ts:83-89 | the newest five candidates are kept, the rest deleted, nothing is deleted with five or fewer, and every deleted name sorts at or below every kept one |
| SnapshotStore.Prune | scripts/scrape-menu.ts:70-91 | pruning only removes files, and never a non-candidate |
| SnapshotStore.PruneFolderSpec | scripts/scrape-menu.ts:70-91 | after pruning, a file survives exactly when it is not a candidate or is one of the kept newest five |
| SnapshotStore.SaveAndPrune | scripts/scrape-menu.ts:31-91 | other months are untouched; with month "" the prune step is skipped; afterwards the month folder holds only the new file and older ones |
| SnapshotStore.SaveAndPruneKeepsNewest | scripts/scrape-menu.ts:31-91 | for a non-empty month, a written file survives exactly when it is not a `menu-*.json` candidate or is one of the five newest candidates |
| SnapshotStore.SummaryBounds | scripts/scrape-menu.ts:44-45 | the days-with-data count is at most the day count, and no days with data means no meals |
| MenuLoader.MonthFiles | lib/menu-loader.ts:20-21 | the month's files are exactly the listing's `menu-<month>-*.json` names |
| MenuLoader.GetLatestMenuFile | lib/menu-loader.ts:11-39 | none exactly when the folder is missing or has no file of the month; otherwise a file of the month whose parsed scrape date is maximal |
| MenuLoader.LatestIsFirstMaximum | lib/menu-loader.ts:34-36 | the reduce keeps the first file with the maximal scrape date |
| MenuLoader.LatestMenuFileExample | lib/menu-loader.ts:11-39 | of two month-prefixed snapshots the later scrape date wins in either listing order |
| MenuLoader.LoadMenuData | lib/menu-loader.ts:47-59 | "no menu data" exactly when there is no latest file, naming the asked month; otherwise exactly the contents of the file `getLatestMenuFile` picks |
| Notifications.FindDay | scripts/send-favorite-notifications.ts:130-134 | the first day with the date, or none exactly when no day has it |
| Notifications.NewestName | scripts/send-favorite-notifications.ts:115-124 | the candidate sorting highest, or none exactly when there are no `menu-*.json` files |
| Notifications.FindTodayMenu | scripts/send-favorite-notifications.ts:105-137 | a found menu is today's with data and comes from the newest file of today's month folder; none without folder or files |
| Notifications.FindTodayMenuFound | scripts/send-favorite-notifications.ts:105-137 | when the newest file has today with data, that first entry is returned |
| Notifications.MatchedFavIdsSpec | scripts/send-favorite-notifications.ts:269-271 | an id is matched exactly when it is non-empty, on today's menu and a favourite's meal id |
| Notifications.MatchedMealsSpec | scripts/send-favorite-notifications.ts:279-281 | the matched meals are today's meals whose id was matched, in menu order |
| Notifications.MatchedMealsNonEmpty | scripts/send-favorite-notifications.ts:269-281 | some meal is matched exactly when some favourite matches today's ids |
| Notifications.UserOutcome | scripts/send-favorite-notifications.ts:233-304 | skipped exactly when the user or e-mail is missing or no favourite matches; a sent mail goes to the user's address and lists exactly today's meals whose non-empty id some favourite carries, at least one; a user who is not skipped fails exactly when sending throws |
| Notifications.WithMealId | scripts/send-favorite-notifications.ts:250-261 | the favourites fetched are exactly those with a meal id |
| Notifications.TallyAccounts | scripts/send-favorite-notifications.ts:230-307 | sent, skipped and failed subscribers add up to all subscribers |
| RateLimiter.Cleanup | lib/rate-limiter.ts:13-19 | above 1000 entries every expired entry is dropped and every live one kept; otherwise nothing changes |
| RateLimiter.CheckRateLimit | lib/rate-limiter.ts:8-33 | a new or expired IP opens a 60 s window with 9 left; a live one under 10 is counted; one at 10 is refused with nothing left; other IPs are untouched and counts stay within 1..10 |
| RateLimiter.CleanupKeepsCurrentResult | lib/rate-limiter.ts:13-33 | cleanup never changes the decision for the asking IP and only drops other, expired entries |
| RateLimiter.AtMostTenPerWindow | lib/rate-limiter.ts:8-33 | within one 60 s window an IP is allowed at most ten requests |
| RateLimiter.IsValidDateFormatSpec | lib/rate-limiter.ts:36-46 | a string is accepted exactly when it has `YYYY-MM-DD` shape, a year of at least 100 and names a real Gregorian date |
| RateLimiter.LeapDayExample | lib/rate-limiter.ts:36-46 | 2024-02-29 is accepted |
| RateLimiter.NonLeapDayExample | lib/rate-limiter.ts:36-46 | 2023-02-29 is rejected because `Date` rolls it over to March |
| RateLimiter.SmallYearExample | lib/rate-limiter.ts:36-46 | 0099-01-01 is rejected because `Date` maps two-digit years to 19xx |
| RateLimiter.Roll | lib/rate-limiter.ts:40-41 | `Date`'s day overflow lands on a valid later day, and a day within the month stays put |
| Reactions.ParseAction | app/api/reactions/route.ts:75-80 | only the four action names are accepted, each as itself |
| Reactions.ParseActionName | app/api/reactions/route.ts:75-80 | every action's name parses back to it |
| Reactions.Apply | app/api/reactions/route.ts:91-124 | like/dislike add one to its counter; a removal takes one off, never below zero; the other counter is unchanged |
| Reactions.ApplyUndo | app/api/reactions/route.ts:91-124 | a like followed by its removal, or a dislike followed by its removal, restores the counters |
| Reactions.ApplyAllBounded | app/api/reactions/route.ts:91-124 | after a run of actions each counter is at most its start plus the number of additions |
| Reactions.Post | app/api/reactions/route.ts:43-151 | rate limit first (429 with the reset time), then 400 for a bad date and then a bad action, else the date's counters become the applied ones; the table changes only on success |
| Reactions.Get | app/api/reactions/route.ts:6-39 | 400 exactly for an invalid date; a date with a row reads its stored counters, and a date without one reads as zero counters |
| Reactions.PostThenGet | app/api/reactions/route.ts:6-151 | after a successful POST, a GET of that date returns the POST's counters and other dates read as before |
| MonthlyReactions.Positive | app/api/reactions/monthly/route.ts:36-55 | the rows kept are exactly those with a positive count |
| MonthlyReactions.TopSpec | app/api/reactions/monthly/route.ts:36-55 | at most five rows, all positive, in descending count, and with the rest they make up all positive rows |
| MonthlyReactions.TopLeftOut | app/api/reactions/monthly/route.ts:36-55 | no row left out counts more than the last one shown |
| MonthlyReactions.TopStable | app/api/reactions/monthly/route.ts:36-55 | rows with equal counts are listed in their original order |
| MonthlyReactions.Monthly | app/api/reactions/monthly/route.ts:11-61 | 400 exactly for a month not in `YYYY-MM` shape; otherwise both top-five lists, empty when there are no rows |
| ReactionButtons.Store | components/like-dislike-buttons.tsx:146-151 | the storage key holds the reaction's name, or is removed when there is none; other keys are untouched |
| ReactionButtons.Decide | components/like-dislike-buttons.tsx:103-139 | the click toggles the reaction, and the optimistic counters are exactly what the route computes when it applies the planned actions in order |
| ReactionButtons.Sync | components/like-dislike-buttons.tsx:155-175 | the sync fails exactly when some answer is a 429 or a thrown fetch; otherwise it ends with the counters of the last `ok` answer, or the optimistic ones when no answer was `ok` |
| ReactionButtons.HandleReaction | components/like-dislike-buttons.tsx:94-195 | a click within 300 ms of the last one changes nothing; one while a request is loading only records its time; an accepted click records its time and ends with loading cleared |
| ReactionButtons.ClickSucceeds | components/like-dislike-buttons.tsx:94-179 | an accepted click that survives shows and stores the toggled reaction; its counters are the last `ok` answer's, or the optimistic ones when no answer was `ok` |
| ReactionButtons.ClickFailsReverts | components/like-dislike-buttons.tsx:180-191 | a failed click restores the reaction, both counters and the stored entry |
| ReactionButtons.HandleReactionKeepsStorage | components/like-dislike-buttons.tsx:94-195 | clicks keep local storage in agreement with the reaction shown |
| ReactionButtons.DoubleClickFromNone | components/like-dislike-buttons.tsx:94-195 | two accepted clicks on one button from no reaction leave no reaction and no stored entry |
| ReactionButtons.StoredVote | components/like-dislike-buttons.tsx:70-73 | the stored entry counts only when it is "like" or "dislike" |
| ReactionButtons.LoadInitial | components/like-dislike-buttons.tsx:62-92 | loading resets, reads the stored reaction, and takes the counters only from an `ok` answer |
| ReactionButtons.LoadInitialAgrees | components/like-dislike-buttons.tsx:62-92 | after loading, storage agrees with the reaction exactly when its entry is absent or a valid name |
| DailyLog.FindMeal | app/api/daily-log/route.ts:110-122 | `findIndex`: the first meal with the name, or none exactly when no meal has it |
| DailyLog.Post | app/api/daily-log/route.ts:60-187 | 401/400/409/404 in the route's order leave the table unchanged; success stores and answers the day's new record |
| DailyLog.Get | app/api/daily-log/route.ts:8-56 | signed out gives an empty log; 400 exactly for a signed-in request without a `YYYY-MM-DD` date; otherwise the day's stored total and meals, or an empty log when there is no record |
| DailyLog.PostThenGet | app/api/daily-log/route.ts:8-179 | a GET after a successful POST reads what the POST answered |
| DailyLog.PostKeepsValid | app/api/daily-log/route.ts:60-187 | with non-negative integer calories every POST keeps each record non-empty, duplicate-free and with the total equal to its meals' sum |
| DailyLog.RemoveAnswer | app/api/daily-log/route.ts:120-151 | on a valid ledger a remove drops the one named entry and subtracts its calories, deleting an emptied record |
| DailyLog.AddThenRemove | app/api/daily-log/route.ts:109-151 | with integer calories, adding a new meal and removing it restores the ledger exactly |
| DailyLog.SumRemoveAt | app/api/daily-log/route.ts:129-131 | removing an entry lowers the sum by exactly its calories |
| DailyLogHook.WithoutMeal | hooks/use-daily-log.ts:84-87 | the filter keeps exactly the meals with another name |
| DailyLogHook.FindMeal | hooks/use-daily-log.ts:80-81 | `find` gives the first meal with the name, none exactly when absent |
| DailyLogHook.AddMeal | hooks/use-daily-log.ts:39-74 | signed out does nothing; success appends the meal and adds its calories; failure drops every entry with the name and gives the total back |
| DailyLogHook.AddMealRollback | hooks/use-daily-log.ts:39-74 | a failed add of an unlisted meal restores the state exactly; a successful one lists it |
| DailyLogHook.RemoveMeal | hooks/use-daily-log.ts:76-117 | an unlisted name answers false and changes nothing; success drops the name and takes off its calories, clamped at 0 |
| DailyLogHook.RemoveMealRollback | hooks/use-daily-log.ts:101-113 | a failed remove of a name listed once restores the same meals (moved to the end) and the same total |
| DailyLogHook.AddAgreesWithRoute | hooks/use-daily-log.ts:39-74 | when the hook mirrors the route's record, an accepted add leaves it mirroring the route's answer |
| DailyLogHook.RemoveAgreesWithRoute | hooks/use-daily-log.ts:76-117 | the same for an accepted remove on a valid ledger |
| DailyLogHook.FetchLog | hooks/use-daily-log.ts:18-33 | signed out or without a date nothing changes; an `ok` answer replaces the state, a missing total reading as 0; otherwise nothing changes |
| FavoritesHook.Without | hooks/use-favorites.ts:36-40 | the filter keeps exactly the other names |
| FavoritesHook.ToggleFavorite | hooks/use-favorites.ts:30-71 | signed out does nothing; success flips membership of the name; failure keeps membership as before; other names are unaffected |
| FavoritesHook.ToggleTwice | hooks/use-favorites.ts:30-71 | two accepted toggles give back the same set of favourites |
| FavoritesHook.ToggleRollback | hooks/use-favorites.ts:49-67 | a failed toggle restores an absent name's list exactly, and a once-listed name's list up to moving it to the end |
| FavoritesHook.FetchFavorites | hooks/use-favorites.ts:11-24 | the names of the fetched rows, in order; the list unchanged when signed out or on failure |
| MenuPage.InitialDateIndex | app/menu-page.tsx:22-39 | the first day that is today, else the first after today, else the last day; -1 exactly when there are no days |
| MenuPage.InitialIsFirstNotBefore | app/menu-page.tsx:22-39 | on ascending dates that is the first day on or after today |
| MenuPage.SelectedDateMenus | app/menu-page.tsx:54-64 | no start gives nothing; otherwise exactly the days between the start and the end date (defaulting to the start) |
| MenuPage.BetweenIsSubsequence | app/menu-page.tsx:54-64 | the filtered days keep their order |
| MenuPage.SingleDaySelection | app/menu-page.tsx:54-64 | a one-day range shows exactly that date's days, in order |
| MenuPage.Previous | app/menu-page.tsx:97-102 | a step back only while the previous arrow is enabled |
| MenuPage.Next | app/menu-page.tsx:104-109 | a step forward only while the next arrow is enabled |
| MenuPage.ArrowsStayInRange | app/menu-page.tsx:97-179 | from the initial day, any presses of the arrows stay on an existing day |
| MenuPage.NextThenPrevious | app/menu-page.tsx:97-179 | next then previous returns to the same day |
| CaloriePage.GoalBandPositive | app/kalori-takibi/page.tsx:84-106 | for a positive goal: exceeded iff total ≥ goal, approaching iff 4·total ≥ 3·goal below it, under otherwise |
| CaloriePage.GoalStatusAgrees | app/kalori-takibi/page.tsx:84-106 | colour, label and badge class all follow the same band, and distinct bands show distinct strings |
| CaloriePage.BandNamesDiffer | app/kalori-takibi/page.tsx:84-106 | two different bands never show the same colour, label or badge class |
| CaloriePage.MaxPage | app/kalori-takibi/page.tsx:166-167 | page 0 without logs; otherwise the page whose cards include the last log |
| CaloriePage.CurrentPageLogs | app/kalori-takibi/page.tsx:168-171 | the page shows the consecutive sorted logs from page·size, at most a page's worth |
| CaloriePage.PagesCoverLogs | app/kalori-takibi/page.tsx:166-171 | every log is shown on exactly one page up to the last, and no such page is empty |
| CaloriePage.InitialPageShowsNewest | app/kalori-takibi/page.tsx:139-141 | the initial page shows the newest log |
| CaloriePage.PageChange | app/kalori-takibi/page.tsx:173-183 | next gives `min(p + 1, maxPage)` and previous `max(p - 1, 0)`, each stated as the bound both sides meet; a page in range stays in range |
| CaloriePage.PageChangeInRange | app/kalori-takibi/page.tsx:173-183 | a page change stays within 0..last page |
| CaloriePage.SortedLogs | app/kalori-takibi/page.tsx:160-163 | the logs sorted by date, as a permutation |
| CaloriePage.InitialSelection | app/kalori-takibi/page.tsx:143-146 | today when logged, else the newest date; none exactly without logs |
| CaloriePage.InitialSelectionIsNewest | app/kalori-takibi/page.tsx:139-146 | without a log for today the selected date is the greatest one |
| CaloriePage.SelectedLog | app/kalori-takibi/page.tsx:154-157 | the log with the selected date, none exactly when absent |
| CaloriePage.RemoveOptimistic | app/kalori-takibi/page.tsx:185-195 | the day loses the named meal and its calories, a day left empty disappears, other days are unchanged |
| CaloriePage.RemoveOptimisticAgreesWithRoute | app/kalori-takibi/page.tsx:185-195 | on a valid ledger the optimistic removal gives the record the route stores |
| CaloriePage.Remaining | app/kalori-takibi/page.tsx:233-240 | a positive "Kalan" segment of goal minus total exactly when a non-zero goal is not yet reached |
| CaloriePage.ChartData | app/kalori-takibi/page.tsx:228-246 | one title-cased segment per meal with its calories and a cycling colour, then "Kalan" only below a non-zero goal |
| CaloriePage.ChartFillsGoal | app/kalori-takibi/page.tsx:228-246 | the segments add up to the goal when under it, and to the total otherwise |

## Left out

- Network and parsing libraries are left out: `fetch`, the windows-1254 decoding, cheerio's DOM queries and JSON (de)serialisation. A card is given as its text, header text, links and red spans.
- The database is a map, and each route is atomic. Concurrent requests and SQL errors are not modelled.
- SMTP sending, `buildEmailHtml` and the 200 ms pause are left out. Whether a send throws is a parameter.
- The clock and the Istanbul time zone are left out. Today's date and the current time are parameters.
- React rendering, toasts and `setTimeout` are left out. Each handler is modelled as the state it leaves.
- Floating-point output is left out: the `toFixed` average and the `Math.ceil` in the 429 message.
- `findMenuForDate` is used by a route outside this model. `lib/menu-loader.ts` in this model does not define it.
- The mobile date-range select (`handleMobileDateRangeSelect`) converts through `toISOString` in UTC. The model does not cover it.
- `MenuPage.Previous` and `MenuPage.Next` model the index step only. The handlers also clear the range picker's selection.
- `formatDateLabel`, `formatShortDate`, `toLocaleDateString` and `buildChartConfig` are presentation only.
- The calorie page refetches all logs after a failed remove. The model does not cover this.
- Ordering: `localeCompare` is modelled as code-point order. This agrees with the collation only for names of lower-case letters, digits, `-` and `.`, which is what the scraper writes. A folder holding other `menu-*.json` names, say with upper-case letters or `_`, may be pruned in another order. The default `.sort().reverse()` behind `Notifications.NewestName` compares UTF-16 code units; it is also modelled as code-point order, which differs only for characters outside the Basic Multilingual Plane.
- `SnapshotStore.SaveAndPrune` always writes and then prunes completely. File-system failures are not modelled. In the script, a prune error is swallowed, and an `unlink` that throws mid-loop leaves a partial prune. A failed scrape or write exits through `process.exit(1)` before the `finally`, so nothing is pruned.
- Utils.TitleCaseSpec: `toLocaleLowerCase('tr-TR')` and `toLocaleUpperCase('tr-TR')` are replaced by a fixed table over ASCII and the Turkish alphabet with its circumflex vowels; every other character maps to itself. JavaScript's full mapping differs outside the table: it lower-cases 'É' and upper-cases 'ß' to "SS".
- Utils.TitleCaseKeepsSpaces: holds for the table, not for JavaScript's full mapping, where `toTitleCase("ßa")` is "SSa" and the length grows. Menu names are Turkish, so the table covers them.
- Utils.TitleCaseIdempotent: holds for the table, not for JavaScript's full mapping, where `toTitleCase("SSa")` is "Ssa" although "SSa" is itself a title-cased result.
- DailyLog.PostKeepsValid: calories are integers in the model, while the route accepts any JSON number. The app only sends the scraper's `parseInt` values. With fractional calories floating-point addition breaks "total equals the meals' sum": 0.1 plus 0.2 minus 0.2 is 0.10000000000000003.
- DailyLog.AddThenRemove: holds for integer calories only, for the same reason. With fractional calories the restored total can differ in the last digits.

=== FILE: calorie_page.dfy ===
/**
 The pure parts of the calorie tracking page, app/kalori-takibi/page.tsx:
 the goal status shown next to a day's total, the pages of day cards, the
 day selected first, the optimistic removal of a meal and the segments of
 a day's chart. The goal ratio is computed exactly, with `real` division;
 `localeCompare` on the `YYYY-MM-DD` dates is code-point order. The clock
 (`isToday`) gives the date of today as a parameter.
 */
module CaloriePage {
  import opened Core
  import opened Order
  import opened Utils
  import DailyLog
  import opened DailyLogHook

  datatype DayLog = DayLog(date: string, totalCalories: int, consumedMeals: seq<HookMeal>)

  // ---------------------------------------------------------------- goal status

  datatype Band = NoGoal | Exceeded | Approaching | Under

  /** The band of `totalCalories / goal`: no goal (missing or 0), at least 1, at least 0.75, or below. */
  function GoalBand(total: int, goal: Option<int>): Band {
    if goal.None? || goal.value == 0 then NoGoal
    else
      var ratio := total as real / goal.value as real;
      if ratio >= 1.0 then Exceeded
      else if ratio >= 0.75 then Approaching
      else Under
  }

  /** For a positive goal the bands are plain integer comparisons: at or over the goal, at or over three
      quarters of it, or below. */
  lemma GoalBandPositive(total: int, goal: int)
    requires goal > 0
    ensures GoalBand(total, Some(goal)) == Exceeded <==> total >= goal
    ensures GoalBand(total, Some(goal)) == Approaching <==> 4 * total >= 3 * goal && total < goal
    ensures GoalBand(total, Some(goal)) == Under <==> 4 * total < 3 * goal
  {
    RatioAtLeast(total as real, goal as real, 1.0);
    RatioAtLeast(total as real, goal as real, 0.75);
  }

  lemma RatioAtLeast(t: real, g: real, c: real)
    requires g > 0.0
    ensures t / g >= c <==> t >= c * g
  {
    var q := t / g;
    assert q * g == t;
    if q >= c {
      assert (q - c) * g >= 0.0;
    } else {
      assert (c - q) * g > 0.0;
    }
  }

  /** `getGoalStatusColor` */
  function GoalStatusColor(total: int, goal: Option<int>): string {
    if goal.None? || goal.value == 0 then "hsl(217, 91%, 60%)"
    else
      var ratio := total as real / goal.value as real;
      if ratio >= 1.0 then "hsl(0, 84%, 60%)"
      else if ratio >= 0.75 then "hsl(38, 92%, 50%)"
      else "hsl(142, 71%, 45%)"
  }

  /** `getGoalStatusLabel` */
  function GoalStatusLabel(total: int, goal: Option<int>): string {
    if goal.None? || goal.value == 0 then ""
    else
      var ratio := total as real / goal.value as real;
      if ratio >= 1.0 then "Hedef a\U{015F}\U{0131}ld\U{0131}"
      else if ratio >= 0.75 then "Hedefe yakla\U{015F}\U{0131}yorsunuz"
      else "Hedefin alt\U{0131}nda"
  }

  /** `getGoalStatusBadgeClass` */
  function GoalStatusBadgeClass(total: int, goal: Option<int>): string {
    if goal.None? || goal.value == 0 then "bg-blue-500/10 text-blue-600 dark:text-blue-400"
    else
      var ratio := total as real / goal.value as real;
      if ratio >= 1.0 then "bg-red-500/10 text-red-600 dark:text-red-400"
      else if ratio >= 0.75 then "bg-amber-500/10 text-amber-600 dark:text-amber-400"
      else "bg-emerald-500/10 text-emerald-600 dark:text-emerald-400"
  }

  function BandColor(b: Band): string {
    match b
    case NoGoal => "hsl(217, 91%, 60%)"
    case Exceeded => "hsl(0, 84%, 60%)"
    case Approaching => "hsl(38, 92%, 50%)"
    case Under => "hsl(142, 71%, 45%)"
  }

  function BandLabel(b: Band): string {
    match b
    case NoGoal => ""
    case Exceeded => "Hedef a\U{015F}\U{0131}ld\U{0131}"
    case Approaching => "Hedefe yakla\U{015F}\U{0131}yorsunuz"
    case Under => "Hedefin alt\U{0131}nda"
  }

  function BandBadge(b: Band): string {
    match b
    case NoGoal => "bg-blue-500/10 text-blue-600 dark:text-blue-400"
    case Exceeded => "bg-red-500/10 text-red-600 dark:text-red-400"
    case Approaching => "bg-amber-500/10 text-amber-600 dark:text-amber-400"
    case Under => "bg-emerald-500/10 text-emerald-600 dark:text-emerald-400"
  }

  /** The three status functions tell the same band: each is its band's colour, label or class, and each
      of those names one band only. */
  lemma GoalStatusAgrees(total: int, goal: Option<int>)
    ensures GoalStatusColor(total, goal) == BandColor(GoalBand(total, goal))
    ensures GoalStatusLabel(total, goal) == BandLabel(GoalBand(total, goal))
    ensures GoalStatusBadgeClass(total, goal) == BandBadge(GoalBand(total, goal))
    ensures forall b: Band :: BandColor(b) == GoalStatusColor(total, goal) ==> b == GoalBand(total, goal)
    ensures forall b: Band :: BandBadge(b) == GoalStatusBadgeClass(total, goal) ==> b == GoalBand(total, goal)
    ensures forall b: Band :: BandLabel(b) == GoalStatusLabel(total, goal) ==> b == GoalBand(total, goal)
  {
    var c := GoalBand(total, goal);
    forall b: Band | b != c ensures BandColor(b) != BandColor(c) && BandBadge(b) != BandBadge(c) && BandLabel(b) != BandLabel(c) {
      BandNamesDiffer(b, c);
    }
  }

  /** What tells the bands apart: a character of the colour, and the lengths of the class and the label. */
  function BandMark(b: Band): (r: (char, nat, nat))
    ensures |BandColor(b)| > 5 && BandColor(b)[5] == r.0
    ensures |BandBadge(b)| == r.1
    ensures |BandLabel(b)| == r.2
  {
    match b
    case NoGoal => ('1', 47, 0)
    case Exceeded => (',', 44, 12)
    case Approaching => ('8', 50, 22)
    case Under => ('4', 56, 15)
  }

  lemma BandNamesDiffer(a: Band, b: Band)
    requires a != b
    ensures BandColor(a) != BandColor(b) && BandBadge(a) != BandBadge(b) && BandLabel(a) != BandLabel(b)
  {
    var ma, mb := BandMark(a), BandMark(b);
    assert ma.0 != mb.0 && ma.1 != mb.1 && ma.2 != mb.2;
  }

  // ---------------------------------------------------------------- pages of day cards

  const CardsPerPageDesktop: nat := 5
  const CardsPerPageMobile: nat := 4

  function CardsPerPage(isMobile: bool): nat {
    if isMobile then CardsPerPageMobile else CardsPerPageDesktop
  }

  /** `Math.max(0, Math.ceil(n / cpp) - 1)` */
  function MaxPage(n: nat, cpp: nat): (r: nat)
    requires cpp >= 1
    ensures n == 0 ==> r == 0
    ensures n > 0 ==> r * cpp < n <= r * cpp + cpp
  {
    var pages := (n + cpp - 1) / cpp;
    if pages >= 1 then pages - 1 else 0
  }

  /** `sortedLogs.slice(p * cpp, p * cpp + cpp)`, with `slice`'s clamping at the end. */
  function CurrentPageLogs(sorted: seq<DayLog>, p: nat, cpp: nat): (r: seq<DayLog>)
    ensures |r| <= cpp
    ensures forall k :: 0 <= k < |r| ==> p * cpp + k < |sorted| && r[k] == sorted[p * cpp + k]
    ensures p * cpp + cpp <= |sorted| ==> |r| == cpp
  {
    var lo := if p * cpp < |sorted| then p * cpp else |sorted|;
    var hi := if p * cpp + cpp < |sorted| then p * cpp + cpp else |sorted|;
    sorted[lo..hi]
  }

  /** Whether the card at index `i` of the sorted logs is on page `p`. */
  predicate ShownOn(sorted: seq<DayLog>, p: nat, cpp: nat, i: nat) {
    p * cpp <= i && i - p * cpp < |CurrentPageLogs(sorted, p, cpp)|
  }

  /** Every card is on exactly one page, the page of its index divided by the page size, and that page is
      at most the last one; every page up to the last holds at least one card. */
  lemma PagesCoverLogs(sorted: seq<DayLog>, cpp: nat, i: nat)
    requires cpp >= 1 && i < |sorted|
    ensures i / cpp <= MaxPage(|sorted|, cpp)
    ensures forall p: nat :: ShownOn(sorted, p, cpp, i) <==> p == i / cpp
    ensures forall p: nat :: p <= MaxPage(|sorted|, cpp) ==> CurrentPageLogs(sorted, p, cpp) != []
  {
    var m := MaxPage(|sorted|, cpp);
    var q := i / cpp;
    DivBounds(i, cpp);
    PageAtMostLast(i, cpp, |sorted|);
    forall p: nat ensures ShownOn(sorted, p, cpp, i) <==> p == q {
      ShownOnPage(sorted, p, cpp, i);
    }
    forall p: nat | p <= m ensures CurrentPageLogs(sorted, p, cpp) != [] {
      MulMonotone(p, m, cpp);
    }
  }

  lemma ShownOnPage(sorted: seq<DayLog>, p: nat, cpp: nat, i: nat)
    requires cpp >= 1 && i < |sorted|
    ensures ShownOn(sorted, p, cpp, i) <==> p == i / cpp
  {
    var q := i / cpp;
    var lo, first := p * cpp, q * cpp;
    DivBounds(i, cpp);
    PageLength(sorted, p, cpp);
    if p < q {
      MulMonotone(p + 1, q, cpp);
      MulSucc(p, cpp);
      assert lo + cpp <= first;
    } else if p > q {
      MulMonotone(q + 1, p, cpp);
      MulSucc(q, cpp);
      assert first + cpp <= lo;
    }
  }

  lemma MulSucc(a: nat, c: nat)
    ensures (a + 1) * c == a * c + c
  {
  }

  /** A page holds the page size's worth of cards, or what is left after the earlier pages. */
  lemma PageLength(sorted: seq<DayLog>, p: nat, cpp: nat)
    ensures |CurrentPageLogs(sorted, p, cpp)| ==
      if p * cpp >= |sorted| then 0 else if p * cpp + cpp <= |sorted| then cpp else |sorted| - p * cpp
  {
  }

  lemma DivBounds(i: nat, cpp: nat)
    requires cpp >= 1
    ensures (i / cpp) * cpp <= i < (i / cpp) * cpp + cpp
  {
  }

  lemma MulMonotone(a: nat, b: nat, c: nat)
    requires a <= b
    ensures a * c <= b * c
  {
  }

  lemma PageAtMostLast(i: nat, cpp: nat, n: nat)
    requires cpp >= 1 && i < n
    ensures i / cpp <= MaxPage(n, cpp)
  {
    var m := MaxPage(n, cpp);
    DivBounds(i, cpp);
    if i / cpp > m {
      MulMonotone(m + 1, i / cpp, cpp);
    }
  }

  /** The page the view opens on, the last one, shows the newest card. */
  lemma InitialPageShowsNewest(sorted: seq<DayLog>, cpp: nat)
    requires cpp >= 1 && sorted != []
    ensures sorted[|sorted| - 1] in CurrentPageLogs(sorted, MaxPage(|sorted|, cpp), cpp)
  {
    var m := MaxPage(|sorted|, cpp);
    var page := CurrentPageLogs(sorted, m, cpp);
    assert page[|sorted| - 1 - m * cpp] == sorted[|sorted| - 1];
  }

  /** `handlePageChange`: one page back, stopping at 0, or one page on, stopping at the last page. */
  function PageChange(p: nat, next: bool, maxPage: nat): (r: nat)
    // `Math.min(p + 1, maxPage)`: at most both, and one of them
    ensures next ==> r <= p + 1 && r <= maxPage && (r == p + 1 || r == maxPage)
    // `Math.max(p - 1, 0)`: at least both, and one of them
    ensures !next ==> r + 1 >= p && (r + 1 == p || r == 0)
    ensures p <= maxPage ==> r <= maxPage
  {
    if next then (if p + 1 < maxPage then p + 1 else maxPage)
    else if p >= 1 then p - 1 else 0
  }

  /** Page changes keep a page index that is in range in range. */
  lemma PageChangeInRange(p: nat, next: bool, maxPage: nat)
    requires p <= maxPage
    ensures PageChange(p, next, maxPage) <= maxPage
    ensures next && p < maxPage ==> PageChange(p, next, maxPage) == p + 1
    ensures !next && p > 0 ==> PageChange(p, next, maxPage) == p - 1
  {
  }

  // ---------------------------------------------------------------- the loaded logs

  function DateOf(l: DayLog): string {
    l.date
  }

  /** `[...logs].sort((a, b) => a.date.localeCompare(b.date))` */
  function SortedLogs(logs: seq<DayLog>): (r: seq<DayLog>)
    ensures multiset(r) == multiset(logs)
    ensures SortedBy(r, DateOf, StrLe)
  {
    StrLeIsTotalPreorder();
    SortBySpec(logs, DateOf, StrLe);
    SortBy(logs, DateOf, StrLe)
  }

  /** The day selected after loading: today's log when there is one, else the newest. */
  function InitialSelection(sorted: seq<DayLog>, today: string): (r: Option<string>)
    ensures r.None? <==> sorted == []
    ensures (exists i :: 0 <= i < |sorted| && sorted[i].date == today) ==> r == Some(today)
    ensures (forall i :: 0 <= i < |sorted| ==> sorted[i].date != today) && sorted != [] ==> r == Some(sorted[|sorted| - 1].date)
  {
    if sorted == [] then None
    else if exists i :: 0 <= i < |sorted| && sorted[i].date == today then Some(today)
    else Some(sorted[|sorted| - 1].date)
  }

  /** On logs sorted by date the selection is the latest date that is not after today, when today has a
      log, and the latest date otherwise: in both cases no log has a later date than the one selected,
      unless today has one. */
  lemma InitialSelectionIsNewest(logs: seq<DayLog>, today: string)
    requires logs != []
    ensures var sorted := SortedLogs(logs);
      var r := InitialSelection(sorted, today);
      && r.Some?
      && (exists l :: l in logs && l.date == r.value)
      && ((forall l :: l in logs ==> l.date != today) ==> forall l :: l in logs ==> StrLe(l.date, r.value))
  {
    var sorted := SortedLogs(logs);
    var r := InitialSelection(sorted, today);
    assert forall l :: l in logs <==> l in sorted by {
      forall l ensures l in logs <==> l in sorted {
        assert l in logs <==> l in multiset(logs);
        assert l in sorted <==> l in multiset(sorted);
      }
    }
    if exists i :: 0 <= i < |sorted| && sorted[i].date == today {
      var i :| 0 <= i < |sorted| && sorted[i].date == today;
      assert sorted[i] in logs;
    } else {
      assert sorted[|sorted| - 1] in logs;
      forall l | l in logs ensures StrLe(l.date, r.value) {
        var k :| 0 <= k < |sorted| && sorted[k] == l;
        if k < |sorted| - 1 {
          assert StrLe(DateOf(sorted[k]), DateOf(sorted[|sorted| - 1]));
        } else {
          StrLeReflexive(l.date);
        }
      }
    }
  }

  /** `logs.find(l => l.date === selectedDate)` */
  function SelectedLog(logs: seq<DayLog>, selected: Option<string>): (r: Option<DayLog>)
    ensures r.None? <==> selected.None? || forall l :: l in logs ==> l.date != selected.value
    ensures r.Some? ==> r.value in logs && r.value.date == selected.value
  {
    if selected.None? then None
    else if logs == [] then None
    else if logs[0].date == selected.value then Some(logs[0])
    else SelectedLog(logs[1..], selected)
  }

  // ---------------------------------------------------------------- optimistic removal

  /** One day's log after its meal is removed on the page. */
  function Removed(log: DayLog, name: string, calories: int): DayLog {
    log.(consumedMeals := WithoutMeal(log.consumedMeals, name), totalCalories := Max0(log.totalCalories - calories))
  }

  /** `handleRemoveMeal`'s update: the date's log loses every meal with the name and the calories from its
      total (not below 0), and then every log without meals is dropped. */
  function RemoveOptimistic(logs: seq<DayLog>, date: string, name: string, calories: int): (r: seq<DayLog>)
    ensures forall l :: l in r ==> l.consumedMeals != []
    ensures forall l :: l in r && l.date != date ==> l in logs
    ensures forall l :: l in logs && l.date != date && l.consumedMeals != [] ==> l in r
    ensures forall l :: l in r && l.date == date ==>
      (forall i :: 0 <= i < |l.consumedMeals| ==> l.consumedMeals[i].mealName != name)
      && exists l0 :: l0 in logs && l0.date == date && l == Removed(l0, name, calories)
    ensures forall l0 :: l0 in logs && l0.date == date && WithoutMeal(l0.consumedMeals, name) != [] ==>
      Removed(l0, name, calories) in r
  {
    if logs == [] then []
    else
      var l := if logs[0].date == date then Removed(logs[0], name, calories) else logs[0];
      assert l.date == date ==> forall i :: 0 <= i < |l.consumedMeals| ==> l.consumedMeals[i].mealName != name by {
        if l.date == date {
          forall i | 0 <= i < |l.consumedMeals| ensures l.consumedMeals[i].mealName != name {
            assert l.consumedMeals[i] in l.consumedMeals;
          }
        }
      }
      (if l.consumedMeals != [] then [l] else []) + RemoveOptimistic(logs[1..], date, name, calories)
  }

  /** When the page shows a day's record as the ledger route holds it, and passes the meal's stored calories,
      the optimistic removal gives what the route then holds: the same meals and total, or no log when the
      route deleted the record. */
  lemma RemoveOptimisticAgreesWithRoute(logs: seq<DayLog>, table: DailyLog.LogTable, userId: string, log: DayLog,
                                        name: string, k: nat)
    requires DailyLog.ValidTable(table)
    requires log in logs && forall l :: l in logs && l.date == log.date ==> l == log
    requires Mirrors(HookState(log.totalCalories, log.consumedMeals), DailyLog.Current(table, DailyLog.LogKey(userId, log.date)))
    requires k < |log.consumedMeals| && log.consumedMeals[k].mealName == name
    requires DailyLog.Post(table, userId, DailyLog.LogRequest(log.date, name, Some(0), "remove")).1.Updated?
    ensures var resp := DailyLog.Post(table, userId, DailyLog.LogRequest(log.date, name, Some(0), "remove")).1;
      var r := RemoveOptimistic(logs, log.date, name, log.consumedMeals[k].calories);
      && (resp.consumedMeals == [] ==> forall l :: l in r ==> l.date != log.date)
      && (resp.consumedMeals != [] ==>
            exists l :: l in r && l.date == log.date && l.totalCalories == resp.totalCalories
                        && Stored(l.consumedMeals) == resp.consumedMeals)
  {
    var s := HookState(log.totalCalories, log.consumedMeals);
    var req := DailyLog.LogRequest(log.date, name, Some(0), "remove");
    var cur := DailyLog.Current(table, DailyLog.LogKey(userId, log.date));
    DailyLog.RemoveAnswer(table, userId, req);
    var j := DailyLog.FindMeal(cur.consumedMeals, name).value;
    StoredUnique(log.consumedMeals);
    assert j == k;
    HookRemoveAt(s, name, k);
    StoredRemoveAt(log.consumedMeals, k);
    var after := Removed(log, name, log.consumedMeals[k].calories);
    assert after.consumedMeals == RemoveMeal(s, true, name, true).0.consumedMeals;
    assert Stored(after.consumedMeals) == DailyLog.Post(table, userId, req).1.consumedMeals;
  }

  // ---------------------------------------------------------------- chart segments

  datatype Segment = Segment(name: string, value: int, fill: string)

  /** The meal colours, used in turn. */
  const MealColors: seq<string> := [
    "hsl(210, 70%, 65%)", "hsl(340, 65%, 65%)", "hsl(160, 55%, 55%)", "hsl(40, 80%, 60%)",
    "hsl(270, 55%, 68%)", "hsl(15, 75%, 65%)", "hsl(185, 60%, 55%)", "hsl(55, 70%, 58%)"
  ]

  /** The light grey of what is left of the goal. */
  const RemainingFill: string := "hsl(0, 0%, 90%)"

  /** The segment that shows what is left of the goal, when there is a goal and the day is below it. */
  function Remaining(log: DayLog, goal: Option<int>): (r: seq<Segment>)
    ensures |r| <= 1
    ensures r != [] <==> goal.Some? && goal.value != 0 && log.totalCalories < goal.value
    ensures r != [] ==> r[0] == Segment("Kalan", goal.value - log.totalCalories, RemainingFill) && r[0].value > 0
  {
    if goal.Some? && goal.value != 0 && log.totalCalories < goal.value then
      [Segment("Kalan", goal.value - log.totalCalories, RemainingFill)]
    else []
  }

  /** `buildChartData(log)`: a segment per meal, in order, coloured by position, the colours used in turn, then the remaining
      goal. */
  function ChartData(log: DayLog, goal: Option<int>): (r: seq<Segment>)
    ensures |r| == |log.consumedMeals| + |Remaining(log, goal)|
    ensures forall i :: 0 <= i < |log.consumedMeals| ==>
      r[i] == Segment(TitleCase(log.consumedMeals[i].mealName), log.consumedMeals[i].calories, MealColors[i % |MealColors|])
    ensures r[|log.consumedMeals|..] == Remaining(log, goal)
  {
    seq(|log.consumedMeals|, i requires 0 <= i < |log.consumedMeals| =>
      Segment(TitleCase(log.consumedMeals[i].mealName), log.consumedMeals[i].calories, MealColors[i % |MealColors|]))
    + Remaining(log, goal)
  }

  function SegmentSum(segments: seq<Segment>): int {
    if segments == [] then 0 else segments[0].value + SegmentSum(segments[1..])
  }

  function MealSum(meals: seq<HookMeal>): int {
    if meals == [] then 0 else meals[0].calories + MealSum(meals[1..])
  }

  /** When a day's total is the sum of its meals, the chart adds up to the goal while the day is below a
      positive goal, and to the total otherwise. */
  lemma ChartFillsGoal(log: DayLog, goal: Option<int>)
    requires log.totalCalories == MealSum(log.consumedMeals)
    requires goal.Some? ==> goal.value >= 0
    ensures SegmentSum(ChartData(log, goal)) ==
      if goal.Some? && goal.value > 0 && log.totalCalories < goal.value then goal.value else log.totalCalories
  {
    var r := ChartData(log, goal);
    var n := |log.consumedMeals|;
    assert r == r[..n] + r[n..];
    SegmentSumAppend(r[..n], r[n..]);
    MealSegmentsSum(log.consumedMeals, r[..n]);
    var rest := Remaining(log, goal);
    if rest != [] {
      assert rest[1..] == [];
    }
  }

  lemma {:induction false} SegmentSumAppend(a: seq<Segment>, b: seq<Segment>)
    ensures SegmentSum(a + b) == SegmentSum(a) + SegmentSum(b)
    decreases |a|
  {
    if a == [] {
      assert a + b == b;
    } else {
      assert (a + b)[1..] == a[1..] + b;
      SegmentSumAppend(a[1..], b);
    }
  }

  lemma {:induction false} MealSegmentsSum(meals: seq<HookMeal>, segments: seq<Segment>)
    requires |segments| == |meals|
    requires forall i :: 0 <= i < |meals| ==> segments[i].value == meals[i].calories
    ensures SegmentSum(segments) == MealSum(meals)
    decreases |meals|
  {
    if meals != [] {
      MealSegmentsSum(meals[1..], segments[1..]);
    }
  }
}

=== FILE: core.dfy ===
/**
 Text helpers shared by the whole model: an Option type, the character
 classes the source's regular expressions use (`\d`, `\s`), JavaScript's
 `trim`, whitespace splitting, `parseInt` of a digit run, `String(n)` and
 `padStart(2, '0')`.

 Strings are `seq<char>`; a `char` is one Unicode scalar value.
 */
module Core {

  datatype Option<T> = None | Some(value: T)

  predicate IsDigit(c: char) {
    '0' <= c <= '9'
  }

  predicate AllDigits(s: string) {
    forall i :: 0 <= i < |s| ==> IsDigit(s[i])
  }

  /** The characters JavaScript's `\s` class and `String.prototype.trim` treat as white space. */
  predicate IsSpace(c: char) {
    || c == ' ' || c == '\t' || c == '\n' || c == '\r'
    || c == '\U{000B}' || c == '\U{000C}' || c == '\U{00A0}' || c == '\U{1680}'
    || ('\U{2000}' <= c <= '\U{200A}')
    || c == '\U{2028}' || c == '\U{2029}' || c == '\U{202F}' || c == '\U{205F}'
    || c == '\U{3000}' || c == '\U{FEFF}'
  }

  predicate NoSpace(s: string) {
    forall i :: 0 <= i < |s| ==> !IsSpace(s[i])
  }

  predicate StartsWith(s: string, prefix: string) {
    |prefix| <= |s| && s[..|prefix|] == prefix
  }

  predicate EndsWith(s: string, suffix: string) {
    |suffix| <= |s| && s[|s| - |suffix|..] == suffix
  }

  predicate OccursAt(s: string, part: string, i: nat) {
    i + |part| <= |s| && s[i..i + |part|] == part
  }

  /** Scans for `part` from position `i` on. */
  predicate ContainsFrom(s: string, part: string, i: nat)
    decreases |s| - i
  {
    if i + |part| > |s| then false
    else OccursAt(s, part, i) || ContainsFrom(s, part, i + 1)
  }

  /** `s.includes(part)` */
  predicate Contains(s: string, part: string) {
    ContainsFrom(s, part, 0)
  }

  lemma {:induction false} ContainsFromSpec(s: string, part: string, i: nat)
    ensures ContainsFrom(s, part, i) <==> exists j: nat :: i <= j && OccursAt(s, part, j)
    decreases |s| - i
  {
    if i + |part| > |s| {
      assert forall j: nat :: i <= j ==> !OccursAt(s, part, j);
    } else {
      ContainsFromSpec(s, part, i + 1);
      if !OccursAt(s, part, i) {
        assert forall j: nat :: i <= j && OccursAt(s, part, j) ==> i + 1 <= j;
      }
    }
  }

  /** `Contains` holds exactly when `part` occurs somewhere in `s`. */
  lemma ContainsSpec(s: string, part: string)
    ensures Contains(s, part) <==> exists j: nat :: OccursAt(s, part, j)
  {
    ContainsFromSpec(s, part, 0);
  }

  /** The value of a decimal digit. */
  function DigitValue(c: char): (d: nat)
    requires IsDigit(c)
    ensures d < 10
  {
    (c as int) - ('0' as int)
  }

  function DigitChar(d: nat): (c: char)
    requires d < 10
    ensures IsDigit(c) && DigitValue(c) == d
  {
    (('0' as int) + d) as char
  }

  /** `parseInt` of a non-empty run of decimal digits (no width limit). */
  function DigitsValue(s: string): nat
    requires AllDigits(s)
    decreases |s|
  {
    if s == [] then 0 else DigitsValue(s[..|s| - 1]) * 10 + DigitValue(s[|s| - 1])
  }

  /** The value of two digits. */
  lemma DigitsValueTwo(s: string)
    requires |s| == 2 && AllDigits(s)
    ensures DigitsValue(s) == 10 * DigitValue(s[0]) + DigitValue(s[1])
  {
    assert s[..1][..0] == [];
    assert DigitsValue(s[..1]) == DigitValue(s[0]);
  }

  /** The value of four digits. */
  lemma DigitsValueFour(s: string)
    requires |s| == 4 && AllDigits(s)
    ensures DigitsValue(s) == 1000 * DigitValue(s[0]) + 100 * DigitValue(s[1]) + 10 * DigitValue(s[2]) + DigitValue(s[3])
  {
    DigitsValueTwo(s[..2]);
    assert s[..3][..2] == s[..2];
    assert DigitsValue(s[..3]) == DigitsValue(s[..2]) * 10 + DigitValue(s[2]);
  }

  /** `String(n)` for a natural number: its decimal digits without leading zeros. */
  function ShowNat(n: nat): (r: string)
    ensures 1 <= |r| && AllDigits(r)
    ensures n < 10 <==> |r| == 1
    ensures (n < 100 ==> |r| <= 2) && (n < 1000 ==> |r| <= 3)
    ensures (n >= 10 ==> |r| >= 2) && (n >= 100 ==> |r| >= 3)
    ensures (n >= 1000 ==> |r| >= 4) && (n >= 10000 ==> |r| >= 5)
  {
    if n < 10 then [DigitChar(n)] else ShowNat(n / 10) + [DigitChar(n % 10)]
  }

  /** Reading back the digits `ShowNat` writes gives the number again. */
  lemma {:induction false} ShowNatRoundTrip(n: nat)
    ensures DigitsValue(ShowNat(n)) == n
  {
    if n >= 10 {
      ShowNatRoundTrip(n / 10);
      var s := ShowNat(n);
      assert s[..|s| - 1] == ShowNat(n / 10);
    }
  }

  /** `String(n).padStart(2, '0')` */
  function Pad2(n: nat): (r: string)
    ensures AllDigits(r)
    ensures n < 100 ==> |r| == 2
  {
    if n < 10 then ['0'] + ShowNat(n) else ShowNat(n)
  }

  lemma {:induction false} Pad2RoundTrip(n: nat)
    requires n < 100
    ensures DigitsValue(Pad2(n)) == n
  {
    ShowNatRoundTrip(n);
    if n < 10 {
      var p := Pad2(n);
      assert p[..1] == ['0'];
      assert DigitsValue(p[..1]) == 0 by {
        assert p[..1][..0] == [];
      }
    }
  }

  /** End of the run of digits that starts at `i`. */
  function DigitRunEnd(s: string, i: nat): (j: nat)
    requires i <= |s|
    ensures i <= j <= |s|
    ensures AllDigits(s[i..j])
    ensures j == |s| || !IsDigit(s[j])
    decreases |s| - i
  {
    if i < |s| && IsDigit(s[i]) then DigitRunEnd(s, i + 1) else i
  }

  /** `key` occurs at `i` and is immediately followed by a digit: where `key(\d+)` can match. */
  predicate KeyDigitsAt(s: string, key: string, i: nat) {
    i + |key| < |s| && s[i..i + |key|] == key && IsDigit(s[i + |key|])
  }

  /** The digits captured by the leftmost match of `key(\d+)` at or after `i`. */
  function FindKeyDigits(s: string, key: string, i: nat): (r: Option<string>)
    ensures r.Some? ==> 1 <= |r.value| && AllDigits(r.value)
    decreases |s| - i
  {
    if i + |key| >= |s| then None
    else if KeyDigitsAt(s, key, i) then Some(s[i + |key|..DigitRunEnd(s, i + |key|)])
    else FindKeyDigits(s, key, i + 1)
  }

  /** `FindKeyDigits` is the leftmost match: it fails only when no position matches,
      and it returns the maximal digit run after the first matching position. */
  lemma {:induction false} FindKeyDigitsSpec(s: string, key: string, i: nat)
    ensures FindKeyDigits(s, key, i).None? <==> forall j: nat :: i <= j ==> !KeyDigitsAt(s, key, j)
    ensures FindKeyDigits(s, key, i).Some? ==>
      exists j: nat :: i <= j && KeyDigitsAt(s, key, j)
        && (forall m: nat :: i <= m < j ==> !KeyDigitsAt(s, key, m))
        && FindKeyDigits(s, key, i).value == s[j + |key|..DigitRunEnd(s, j + |key|)]
    decreases |s| - i
  {
    if i + |key| >= |s| {
      assert forall j: nat :: i <= j ==> !KeyDigitsAt(s, key, j);
    } else if KeyDigitsAt(s, key, i) {
    } else {
      FindKeyDigitsSpec(s, key, i + 1);
      assert forall j: nat :: i <= j && KeyDigitsAt(s, key, j) ==> i + 1 <= j;
    }
  }

  /** The first run of digits in `s`, as `/(\d+)/` captures it. */
  function FirstDigits(s: string): Option<string> {
    FindKeyDigits(s, "", 0)
  }

  /** `s.match(/(\d+)/)` parsed with `parseInt`, or `dflt` when there is no digit. */
  function FirstNumberOr(s: string, dflt: nat): nat {
    match FirstDigits(s)
    case Some(d) => DigitsValue(d)
    case None => dflt
  }

  /** Index of the first non-space character at or after `i`. */
  function SkipSpaces(s: string, i: nat): (j: nat)
    requires i <= |s|
    ensures i <= j <= |s|
    ensures forall k :: i <= k < j ==> IsSpace(s[k])
    ensures j < |s| ==> !IsSpace(s[j])
    decreases |s| - i
  {
    if i < |s| && IsSpace(s[i]) then SkipSpaces(s, i + 1) else i
  }

  /** Index of the first space character at or after `i`. */
  function WordEnd(s: string, i: nat): (j: nat)
    requires i <= |s|
    ensures i <= j <= |s|
    ensures NoSpace(s[i..j])
    ensures j < |s| ==> IsSpace(s[j])
    decreases |s| - i
  {
    if i < |s| && !IsSpace(s[i]) then WordEnd(s, i + 1) else i
  }

  /** The maximal runs of non-space characters of `s[i..]`, in order (`split(/\s+/)` without empty pieces). */
  function WordsFrom(s: string, i: nat): (ws: seq<string>)
    requires i <= |s|
    ensures forall k :: 0 <= k < |ws| ==> |ws[k]| >= 1 && NoSpace(ws[k])
    decreases |s| - i
  {
    var j := SkipSpaces(s, i);
    if j == |s| then [] else
      var e := WordEnd(s, j);
      [s[j..e]] + WordsFrom(s, e)
  }

  function Words(s: string): seq<string> {
    WordsFrom(s, 0)
  }

  /** Joins the pieces with one space between neighbours. */
  function JoinSpaced(ws: seq<string>): string {
    if ws == [] then "" else if |ws| == 1 then ws[0] else ws[0] + " " + JoinSpaced(ws[1..])
  }

  /** `s.replace(/\s+/g, ' ').trim()`: every run of white space becomes one space, and none is left at either end. */
  function Collapse(s: string): string {
    JoinSpaced(Words(s))
  }

  /** A single word splits into itself and collapses to itself. */
  lemma OneWord(w: string)
    requires |w| >= 1 && NoSpace(w)
    ensures Words(w) == [w]
    ensures Collapse(w) == w
  {
    assert SkipSpaces(w, 0) == 0;
    assert WordEnd(w, 0) == |w|;
    assert w[0..|w|] == w;
    assert WordsFrom(w, |w|) == [];
  }

  /** Two words joined by one space split back into the two words and are already collapsed. */
  lemma TwoWords(d: string, n: string)
    requires |d| >= 1 && NoSpace(d)
    requires |n| >= 1 && NoSpace(n)
    ensures Words(d + " " + n) == [d, n]
    ensures Collapse(d + " " + n) == d + " " + n
  {
    var s := d + " " + n;
    assert forall k :: 0 <= k < |d| ==> s[k] == d[k];
    assert s[|d|] == ' ';
    assert forall k :: |d| < k < |s| ==> s[k] == n[k - |d| - 1];
    assert SkipSpaces(s, 0) == 0;
    var e := WordEnd(s, 0);
    assert e == |d|;
    assert s[0..e] == d;
    var j := SkipSpaces(s, |d|);
    assert s[|d| + 1] == n[0];
    assert j == |d| + 1;
    var e2 := WordEnd(s, j);
    assert e2 == |s|;
    assert s[j..e2] == n;
    assert WordsFrom(s, e2) == [];
    assert WordsFrom(s, j) == [n];
    assert WordsFrom(s, 0) == [d] + WordsFrom(s, e);
    assert Words(s) == [d, n];
    assert [d, n][1..] == [n];
    assert JoinSpaced([d, n]) == d + " " + JoinSpaced([n]);
  }

  /** The values `f` yields over `s`, in order, skipping the elements it maps to `None`. */
  function Somes<T, U>(f: T -> Option<U>, s: seq<T>): (r: seq<U>)
    ensures |r| <= |s|
  {
    if s == [] then []
    else (match f(s[0]) case Some(u) => [u] case None => []) + Somes(f, s[1..])
  }

  /** A value is kept exactly when some element yields it. */
  lemma {:induction false} SomesMembers<T, U>(f: T -> Option<U>, s: seq<T>)
    ensures forall u :: u in Somes(f, s) <==> exists i :: 0 <= i < |s| && f(s[i]) == Some(u)
  {
    forall u | u in Somes(f, s)
      ensures exists i :: 0 <= i < |s| && f(s[i]) == Some(u)
    {
      var i := SomesSound(f, s, u);
    }
    forall u, i | 0 <= i < |s| && f(s[i]) == Some(u)
      ensures u in Somes(f, s)
    {
      SomesComplete(f, s, i);
    }
  }

  /** Where a kept value comes from. */
  lemma {:induction false} SomesSound<T, U>(f: T -> Option<U>, s: seq<T>, u: U) returns (i: nat)
    requires u in Somes(f, s)
    ensures i < |s| && f(s[i]) == Some(u)
  {
    if f(s[0]) == Some(u) {
      i := 0;
    } else {
      assert u in Somes(f, s[1..]);
      var k := SomesSound(f, s[1..], u);
      i := k + 1;
      assert s[1..][k] == s[i];
    }
  }

  lemma {:induction false} SomesComplete<T, U>(f: T -> Option<U>, s: seq<T>, i: nat)
    requires i < |s| && f(s[i]).Some?
    ensures f(s[i]).value in Somes(f, s)
  {
    if i > 0 {
      assert s[1..][i - 1] == s[i];
      SomesComplete(f, s[1..], i - 1);
    }
  }

  /** When every element yields a value, the kept values follow the elements one for one. */
  lemma {:induction false} SomesAll<T, U>(f: T -> Option<U>, s: seq<T>)
    requires forall i :: 0 <= i < |s| ==> f(s[i]).Some?
    ensures |Somes(f, s)| == |s|
    ensures forall i :: 0 <= i < |s| ==> Somes(f, s)[i] == f(s[i]).value
  {
    if s != [] {
      var t := s[1..];
      assert forall i :: 0 <= i < |t| ==> t[i] == s[i + 1];
      SomesAll(f, t);
      assert Somes(f, s) == [f(s[0]).value] + Somes(f, t);
    }
  }

  /** An element that yields nothing makes the result shorter than the input. */
  lemma {:induction false} SomesShorter<T, U>(f: T -> Option<U>, s: seq<T>, i: nat)
    requires i < |s| && f(s[i]).None?
    ensures |Somes(f, s)| < |s|
  {
    if i > 0 {
      assert s[1..][i - 1] == s[i];
      SomesShorter(f, s[1..], i - 1);
    }
  }

  /** The index of the first element that yields a value, which is the first value kept. */
  lemma {:induction false} SomesFirst<T, U>(f: T -> Option<U>, s: seq<T>) returns (i: nat)
    requires Somes(f, s) != []
    ensures i < |s| && f(s[i]) == Some(Somes(f, s)[0])
    ensures forall j :: 0 <= j < i ==> f(s[j]).None?
  {
    if f(s[0]).None? {
      assert Somes(f, s) == Somes(f, s[1..]);
      var k := SomesFirst(f, s[1..]);
      i := k + 1;
      assert s[1..][k] == s[i];
      forall j | 0 < j < i
        ensures f(s[j]).None?
      {
        assert s[j] == s[1..][j - 1];
      }
    } else {
      i := 0;
    }
  }

  /** Trailing-space index: the end of `s[..j]` once trailing spaces are dropped. */
  function TrimEnd(s: string, j: nat): (e: nat)
    requires j <= |s|
    ensures e <= j
    ensures forall k :: e <= k < j ==> IsSpace(s[k])
    ensures e > 0 ==> !IsSpace(s[e - 1])
  {
    if j > 0 && IsSpace(s[j - 1]) then TrimEnd(s, j - 1) else j
  }

  /** `s.trim()` */
  function Trim(s: string): (r: string)
    ensures |r| <= |s|
    ensures r != [] ==> !IsSpace(r[0]) && !IsSpace(r[|r| - 1])
  {
    var b := SkipSpaces(s, 0);
    var e := TrimEnd(s, |s|);
    if e <= b then "" else s[b..e]
  }

  /** Text before the first occurrence of `sep` (the whole text when it does not occur): `s.split(sep)[0]`. */
  function Before(s: string, sep: string): (r: string)
    requires |sep| >= 1
    ensures StartsWith(s, r)
    decreases |s|
  {
    if |s| < |sep| then s
    else if s[..|sep|] == sep then ""
    else [s[0]] + Before(s[1..], sep)
  }

  /** Text after the first occurrence of `sep`, or "" when it does not occur. */
  function After(s: string, sep: string): (r: string)
    requires |sep| >= 1
    ensures |r| <= |s|
    decreases |s|
  {
    if |s| < |sep| then ""
    else if s[..|sep|] == sep then s[|sep|..]
    else After(s[1..], sep)
  }

  /** `s.split(sep)[1] || ''`: the text between the first and the second occurrence of `sep`. */
  function SecondPiece(s: string, sep: string): string
    requires |sep| >= 1
  {
    Before(After(s, sep), sep)
  }

  /** `s.replace(/c/g, '')` for a single character `c`. */
  function RemoveChar(s: string, c: char): (r: string)
    ensures forall k :: 0 <= k < |r| ==> r[k] != c
    ensures |r| <= |s|
  {
    if s == [] then [] else (if s[0] == c then [] else [s[0]]) + RemoveChar(s[1..], c)
  }

  lemma {:induction false} RemoveCharAppend(a: string, b: string, c: char)
    ensures RemoveChar(a + b, c) == RemoveChar(a, c) + RemoveChar(b, c)
  {
    if a != [] {
      assert (a + b)[1..] == a[1..] + b;
      RemoveCharAppend(a[1..], b, c);
    } else {
      assert a + b == b;
    }
  }

  lemma {:induction false} RemoveCharAbsent(s: string, c: char)
    requires forall k :: 0 <= k < |s| ==> s[k] != c
    ensures RemoveChar(s, c) == s
  {
    if s != [] {
      RemoveCharAbsent(s[1..], c);
    }
  }

  /** `s.substring(0, n)` */
  function Prefix(s: string, n: nat): (r: string)
    ensures |r| == if |s| < n then |s| else n
    ensures StartsWith(s, r)
  {
    if |s| < n then s else s[..n]
  }

  /** The digit run starting at `i` ends where `d` ends when `d` sits at `i` and is followed by no digit. */
  lemma {:induction false} DigitRunEndAt(s: string, d: string, i: nat)
    requires i + |d| <= |s| && s[i..i + |d|] == d && AllDigits(d)
    requires i + |d| == |s| || !IsDigit(s[i + |d|])
    ensures DigitRunEnd(s, i) == i + |d|
    decreases |d|
  {
    if d != [] {
      assert s[i] == d[0];
      assert s[i + 1..i + |d|] == d[1..];
      DigitRunEndAt(s, d[1..], i + 1);
    }
  }

  /** Splitting `a + sep + b` at its first `sep` gives back `a` and `b` when `a` never holds `sep`'s first character. */
  lemma {:induction false} BeforeAfterFirst(a: string, b: string, sep: string)
    requires |sep| >= 1
    requires forall k :: 0 <= k < |a| ==> a[k] != sep[0]
    ensures Before(a + sep + b, sep) == a
    ensures After(a + sep + b, sep) == b
    decreases |a|
  {
    var s := a + sep + b;
    if a == [] {
      assert s[..|sep|] == sep;
      assert s[|sep|..] == b;
    } else {
      assert s[0] == a[0];
      assert s[..|sep|] != sep by {
        assert s[..|sep|][0] == a[0];
      }
      assert s[1..] == a[1..] + sep + b;
      BeforeAfterFirst(a[1..], b, sep);
    }
  }

  /** Text without `sep`'s first character is all "before" `sep`. */
  lemma {:induction false} BeforeAbsent(s: string, sep: string)
    requires |sep| >= 1
    requires forall k :: 0 <= k < |s| ==> s[k] != sep[0]
    ensures Before(s, sep) == s
    decreases |s|
  {
    if |s| >= |sep| {
      assert s[..|sep|][0] == s[0];
      BeforeAbsent(s[1..], sep);
    }
  }

  /** Text with no white space at either end is its own trim. */
  lemma TrimUnchanged(s: string)
    requires s != [] ==> !IsSpace(s[0]) && !IsSpace(s[|s| - 1])
    ensures Trim(s) == s
  {
  }

  /** A subsequence of the tail is a subsequence of the whole. */
  lemma {:induction false} SubsequenceOfTail<T>(a: seq<T>, b: seq<T>)
    requires b != [] && IsSubsequence(a, b[1..])
    ensures IsSubsequence(a, b)
    decreases |b|, 0
  {
    if a != [] && a[0] == b[0] {
      SubsequenceDropFirst(a, b[1..]);
    }
  }

  /** Dropping the first element keeps a subsequence a subsequence. */
  lemma {:induction false} SubsequenceDropFirst<T>(a: seq<T>, b: seq<T>)
    requires a != [] && IsSubsequence(a, b)
    ensures IsSubsequence(a[1..], b)
    decreases |b|, 1
  {
    if a[0] == b[0] {
      SubsequenceOfTail(a[1..], b);
    } else {
      SubsequenceDropFirst(a, b[1..]);
      SubsequenceOfTail(a[1..], b);
    }
  }

  /** `a` is `b` with some elements dropped. */
  predicate IsSubsequence<T(==)>(a: seq<T>, b: seq<T>)
    decreases |b|
  {
    if a == [] then true
    else if b == [] then false
    else if a[0] == b[0] then IsSubsequence(a[1..], b[1..])
    else IsSubsequence(a, b[1..])
  }
}

=== FILE: daily_log.dfy ===
/**
 The calorie ledger of app/api/daily-log/route.ts: per signed-in user and
 day, the list of meals eaten and their running total. The `daily_logs`
 table is a map from (user, date) to the record; the session is the user
 id, "" when signed out. A JSON body field is a string ("" when missing),
 and `calories` is `None` when it is not a number.
 */
module DailyLog {
  import opened Core
  import opened DateUtils

  datatype ConsumedMeal = ConsumedMeal(mealName: string, calories: int)

  datatype LogRecord = LogRecord(totalCalories: int, consumedMeals: seq<ConsumedMeal>)

  datatype LogKey = LogKey(userId: string, date: string)

  type LogTable = map<LogKey, LogRecord>

  datatype LogRequest = LogRequest(date: string, mealName: string, calories: Option<int>, action: string)

  datatype LogResponse =
    | Unauthorized                                          // 401
    | BadRequest                                            // 400
    | Conflict                                              // 409: already added
    | NotFound                                              // 404: not in the log
    | Updated(action: string, mealName: string, totalCalories: int, consumedMeals: seq<ConsumedMeal>)

  predicate HasMeal(meals: seq<ConsumedMeal>, name: string) {
    exists i :: 0 <= i < |meals| && meals[i].mealName == name
  }

  /** `meals.findIndex(m => m.mealName === name)`, with `None` for -1. */
  function FindMeal(meals: seq<ConsumedMeal>, name: string): (r: Option<nat>)
    ensures r.None? <==> !HasMeal(meals, name)
    ensures r.Some? ==> r.value < |meals| && meals[r.value].mealName == name
    ensures r.Some? ==> forall j :: 0 <= j < r.value ==> meals[j].mealName != name
  {
    if meals == [] then None
    else if meals[0].mealName == name then Some(0)
    else match FindMeal(meals[1..], name)
      case None =>
        assert forall i :: 1 <= i < |meals| ==> meals[i] == meals[1..][i - 1];
        None
      case Some(i) =>
        assert forall j :: 1 <= j < i + 1 ==> meals[j] == meals[1..][j - 1];
        Some(i + 1)
  }

  function RemoveAt(meals: seq<ConsumedMeal>, i: nat): (r: seq<ConsumedMeal>)
    requires i < |meals|
    ensures |r| == |meals| - 1
  {
    meals[..i] + meals[i + 1..]
  }

  function Max0(n: int): nat {
    if n > 0 then n else 0
  }

  /** The meals and total a day has, or none yet. */
  function Current(table: LogTable, key: LogKey): LogRecord {
    if key in table then table[key] else LogRecord(0, [])
  }

  /** The checks before any change, in the route's order; true when the request gets past them. */
  predicate ValidRequest(req: LogRequest) {
    && req.date != "" && IsoDateShape(req.date)
    && req.mealName != "" && req.calories.Some?
    && (req.action == "add" || req.action == "remove")
  }

  /** `POST /api/daily-log`: the new table and the response. */
  function Post(table: LogTable, userId: string, req: LogRequest): (r: (LogTable, LogResponse))
    ensures r.1.Unauthorized? <==> userId == ""
    ensures r.1.BadRequest? <==> userId != "" && !ValidRequest(req)
    ensures r.1.Conflict? <==> (userId != "" && ValidRequest(req) && req.action == "add"
      && HasMeal(Current(table, LogKey(userId, req.date)).consumedMeals, req.mealName))
    ensures r.1.NotFound? <==> (userId != "" && ValidRequest(req) && req.action == "remove"
      && !HasMeal(Current(table, LogKey(userId, req.date)).consumedMeals, req.mealName))
    ensures !r.1.Updated? ==> r.0 == table
    ensures r.1.Updated? ==> forall k :: k != LogKey(userId, req.date) ==> (k in r.0 <==> k in table) && (k in r.0 ==> r.0[k] == table[k])
    ensures r.1.Updated? ==> r.1.action == req.action && r.1.mealName == req.mealName
    ensures r.1.Updated? && req.action == "add" ==>
      var cur := Current(table, LogKey(userId, req.date));
      && r.1.consumedMeals == cur.consumedMeals + [ConsumedMeal(req.mealName, req.calories.value)]
      && r.1.totalCalories == cur.totalCalories + req.calories.value
    ensures r.1.Updated? && req.action == "remove" ==>
      var cur := Current(table, LogKey(userId, req.date));
      var i := FindMeal(cur.consumedMeals, req.mealName).value;
      && (|cur.consumedMeals| == 1 ==> r.1.consumedMeals == [] && r.1.totalCalories == 0)
      && (|cur.consumedMeals| > 1 ==>
            r.1.consumedMeals == RemoveAt(cur.consumedMeals, i)
            && r.1.totalCalories == Max0(cur.totalCalories - cur.consumedMeals[i].calories))
    ensures r.1.Updated? && r.1.consumedMeals == [] ==> LogKey(userId, req.date) !in r.0
    ensures r.1.Updated? && r.1.consumedMeals != [] ==>
      LogKey(userId, req.date) in r.0 && r.0[LogKey(userId, req.date)] == LogRecord(r.1.totalCalories, r.1.consumedMeals)
  {
    if userId == "" then (table, Unauthorized)
    else if req.date == "" || !IsoDateShape(req.date) then (table, BadRequest)
    else if req.mealName == "" || req.calories.None? then (table, BadRequest)
    else if req.action != "add" && req.action != "remove" then (table, BadRequest)
    else
      var key := LogKey(userId, req.date);
      var existing := key in table;
      var cur := Current(table, key);
      if req.action == "add" then
        if FindMeal(cur.consumedMeals, req.mealName).Some? then (table, Conflict)
        else
          var meals := cur.consumedMeals + [ConsumedMeal(req.mealName, req.calories.value)];
          var total := cur.totalCalories + req.calories.value;
          // an existing record is updated, a missing one inserted
          (table[key := LogRecord(total, meals)], Updated(req.action, req.mealName, total, meals))
      else
        match FindMeal(cur.consumedMeals, req.mealName)
        case None => (table, NotFound)
        case Some(i) =>
          var total := Max0(cur.totalCalories - cur.consumedMeals[i].calories);
          var meals := RemoveAt(cur.consumedMeals, i);
          if existing && meals == [] then
            // the emptied record is deleted
            (table - {key}, Updated(req.action, req.mealName, 0, []))
          else (table[key := LogRecord(total, meals)], Updated(req.action, req.mealName, total, meals))
  }

  datatype GetResponse = GetBadDate | Log(totalCalories: int, consumedMeals: seq<ConsumedMeal>)

  /** `GET /api/daily-log?date=`: an empty log when signed out or when the day has no record. */
  function Get(table: LogTable, userId: string, date: string): (r: GetResponse)
    ensures userId == "" ==> r == Log(0, [])
    ensures r.GetBadDate? <==> userId != "" && !IsoDateShape(date)
    ensures r.Log? && userId != "" && LogKey(userId, date) !in table ==> r == Log(0, [])
    ensures userId != "" && LogKey(userId, date) in table && IsoDateShape(date) ==>
      r == Log(table[LogKey(userId, date)].totalCalories, table[LogKey(userId, date)].consumedMeals)
  {
    if userId == "" then Log(0, [])
    else if date == "" || !IsoDateShape(date) then GetBadDate
    else
      var cur := Current(table, LogKey(userId, date));
      Log(cur.totalCalories, cur.consumedMeals)
  }

  /** A successful POST answers what a GET of the same day then reads. */
  lemma PostThenGet(table: LogTable, userId: string, req: LogRequest)
    requires Post(table, userId, req).1.Updated?
    ensures var (t, resp) := Post(table, userId, req);
      Get(t, userId, req.date) == Log(resp.totalCalories, resp.consumedMeals)
  {
  }

  // ---------------------------------------------------------------- the ledger invariant

  function Sum(meals: seq<ConsumedMeal>): int {
    if meals == [] then 0 else meals[0].calories + Sum(meals[1..])
  }

  lemma {:induction false} SumAppend(a: seq<ConsumedMeal>, b: seq<ConsumedMeal>)
    ensures Sum(a + b) == Sum(a) + Sum(b)
    decreases |a|
  {
    if a == [] {
      assert a + b == b;
    } else {
      assert (a + b)[1..] == a[1..] + b;
      SumAppend(a[1..], b);
    }
  }

  lemma {:induction false} SumRemoveAt(meals: seq<ConsumedMeal>, i: nat)
    requires i < |meals|
    ensures Sum(RemoveAt(meals, i)) == Sum(meals) - meals[i].calories
    decreases i
  {
    var r := RemoveAt(meals, i);
    if i == 0 {
      assert r == meals[1..];
    } else {
      var tail := RemoveAt(meals[1..], i - 1);
      SumRemoveAt(meals[1..], i - 1);
      assert r == [meals[0]] + tail by {
        assert meals[..i] == [meals[0]] + meals[1..][..i - 1];
        assert meals[i + 1..] == meals[1..][i..];
      }
      assert r[0] == meals[0] && r[1..] == tail;
    }
  }

  predicate UniqueNames(meals: seq<ConsumedMeal>) {
    forall i, j :: 0 <= i < j < |meals| ==> meals[i].mealName != meals[j].mealName
  }

  predicate NonNegative(meals: seq<ConsumedMeal>) {
    forall i :: 0 <= i < |meals| ==> meals[i].calories >= 0
  }

  lemma {:induction false} SumNonNegative(meals: seq<ConsumedMeal>, i: nat)
    requires NonNegative(meals) && i < |meals|
    ensures Sum(meals) >= meals[i].calories
    decreases |meals|
  {
    if i > 0 {
      SumNonNegative(meals[1..], i - 1);
    } else if |meals| > 1 {
      SumNonNegative(meals[1..], 0);
    }
  }

  /** A stored record: some meals, each named once with non-negative calories, and the total their sum. */
  predicate ValidRecord(rec: LogRecord) {
    && rec.consumedMeals != []
    && UniqueNames(rec.consumedMeals)
    && NonNegative(rec.consumedMeals)
    && rec.totalCalories == Sum(rec.consumedMeals)
  }

  predicate ValidTable(table: LogTable) {
    forall k :: k in table ==> ValidRecord(table[k])
  }

  /** With non-negative calories, every POST keeps the ledger valid: no meal is listed twice, every total is
      its meals' sum and no record is left empty. */
  lemma PostKeepsValid(table: LogTable, userId: string, req: LogRequest)
    requires ValidTable(table)
    requires req.calories.Some? ==> req.calories.value >= 0
    ensures ValidTable(Post(table, userId, req).0)
  {
    var (t, resp) := Post(table, userId, req);
    if resp.Updated? {
      var key := LogKey(userId, req.date);
      var cur := Current(table, key);
      if req.action == "add" {
        AddKeepsValid(cur, ConsumedMeal(req.mealName, req.calories.value));
      } else if |cur.consumedMeals| > 1 {
        RemoveKeepsValid(cur, FindMeal(cur.consumedMeals, req.mealName).value);
      }
    }
  }

  /** Appending a meal the record does not list keeps it valid; a missing record counts as the empty one. */
  lemma AddKeepsValid(cur: LogRecord, m: ConsumedMeal)
    requires cur.consumedMeals == [] ==> cur.totalCalories == 0
    requires cur.consumedMeals != [] ==> ValidRecord(cur)
    requires !HasMeal(cur.consumedMeals, m.mealName) && m.calories >= 0
    ensures ValidRecord(LogRecord(cur.totalCalories + m.calories, cur.consumedMeals + [m]))
  {
    SumAppend(cur.consumedMeals, [m]);
    assert Sum([m]) == m.calories by { assert [m][1..] == []; }
  }

  /** Removing one of several meals keeps the record valid: the clamp at 0 never bites. */
  lemma RemoveKeepsValid(cur: LogRecord, i: nat)
    requires ValidRecord(cur) && i < |cur.consumedMeals| && |cur.consumedMeals| > 1
    ensures ValidRecord(LogRecord(Max0(cur.totalCalories - cur.consumedMeals[i].calories), RemoveAt(cur.consumedMeals, i)))
  {
    var meals := cur.consumedMeals;
    SumRemoveAt(meals, i);
    SumNonNegative(meals, i);
    var rest := RemoveAt(meals, i);
    assert forall j :: 0 <= j < |rest| ==> rest[j] == (if j < i then meals[j] else meals[j + 1]);
  }

  /** On a valid ledger, a successful remove drops the one entry with the name and takes its calories off
      the total; the clamp at 0 and the deletion of an emptied record agree with that. */
  lemma RemoveAnswer(table: LogTable, userId: string, req: LogRequest)
    requires ValidTable(table)
    requires req.action == "remove" && Post(table, userId, req).1.Updated?
    ensures var cur := Current(table, LogKey(userId, req.date));
      var resp := Post(table, userId, req).1;
      var k := FindMeal(cur.consumedMeals, req.mealName).value;
      && UniqueNames(cur.consumedMeals)
      && resp.consumedMeals == RemoveAt(cur.consumedMeals, k)
      && resp.totalCalories == Max0(cur.totalCalories - cur.consumedMeals[k].calories)
  {
    var cur := Current(table, LogKey(userId, req.date));
    assert ValidRecord(cur);
    if |cur.consumedMeals| == 1 {
      assert Sum(cur.consumedMeals) == cur.consumedMeals[0].calories by {
        assert cur.consumedMeals[1..] == [];
      }
    }
  }

  /** Adding a meal the day does not list yet and then removing it gives the ledger back as it was; a day
      without a record is without one again. */
  lemma AddThenRemove(table: LogTable, userId: string, date: string, name: string, calories: int)
    requires ValidTable(table)
    requires Post(table, userId, LogRequest(date, name, Some(calories), "add")).1.Updated?
    ensures var t1 := Post(table, userId, LogRequest(date, name, Some(calories), "add")).0;
      Post(t1, userId, LogRequest(date, name, Some(calories), "remove")).0 == table
  {
    var key := LogKey(userId, date);
    var cur := Current(table, key);
    var t1 := Post(table, userId, LogRequest(date, name, Some(calories), "add")).0;
    var m := ConsumedMeal(name, calories);
    var meals := cur.consumedMeals + [m];
    assert t1[key] == LogRecord(cur.totalCalories + calories, meals);
    var i := FindMeal(meals, name);
    assert !HasMeal(cur.consumedMeals, name);
    assert meals[|meals| - 1] == m;
    assert forall j :: 0 <= j < |cur.consumedMeals| ==> meals[j].mealName != name;
    assert i == Some(|meals| - 1);
    assert RemoveAt(meals, |meals| - 1) == cur.consumedMeals;
    var t2 := Post(t1, userId, LogRequest(date, name, Some(calories), "remove")).0;
    if key in table {
      SumNonNegativeTotal(cur.consumedMeals);
      assert t2 == table[key := cur];
    } else {
      assert t2 == table;
    }
  }

  lemma {:induction false} SumNonNegativeTotal(meals: seq<ConsumedMeal>)
    requires NonNegative(meals)
    ensures Sum(meals) >= 0
    decreases |meals|
  {
    if meals != [] {
      SumNonNegativeTotal(meals[1..]);
    }
  }
}

=== FILE: daily_log_hook.dfy ===
/**
 The client copy of a day's calorie ledger, hooks/use-daily-log.ts: the
 meals shown and their total, updated optimistically before the POST to
 the ledger route and rolled back when it fails. Whether the POST answered
 `ok` is a parameter (`false` also stands for a thrown fetch); the
 session is a flag.
 */
module DailyLogHook {
  import opened Core
  import DailyLog

  datatype HookMeal = HookMeal(mealName: string, calories: int, mealId: string)

  datatype HookState = HookState(totalCalories: int, consumedMeals: seq<HookMeal>)

  /** `meals.filter(m => m.mealName !== name)` */
  function WithoutMeal(meals: seq<HookMeal>, name: string): (r: seq<HookMeal>)
    ensures forall m :: m in r <==> m in meals && m.mealName != name
    ensures |r| <= |meals|
  {
    if meals == [] then []
    else (if meals[0].mealName == name then [] else [meals[0]]) + WithoutMeal(meals[1..], name)
  }

  lemma {:induction false} WithoutMealAppend(a: seq<HookMeal>, b: seq<HookMeal>, name: string)
    ensures WithoutMeal(a + b, name) == WithoutMeal(a, name) + WithoutMeal(b, name)
    decreases |a|
  {
    if a == [] {
      assert a + b == b;
    } else {
      assert (a + b)[1..] == a[1..] + b;
      WithoutMealAppend(a[1..], b, name);
    }
  }

  /** A list that does not name the meal is left as it is. */
  lemma {:induction false} WithoutMealAbsent(meals: seq<HookMeal>, name: string)
    requires forall i :: 0 <= i < |meals| ==> meals[i].mealName != name
    ensures WithoutMeal(meals, name) == meals
    decreases |meals|
  {
    if meals != [] {
      WithoutMealAbsent(meals[1..], name);
    }
  }

  /** `isConsumed(name)` */
  predicate IsConsumed(s: HookState, name: string) {
    exists i :: 0 <= i < |s.consumedMeals| && s.consumedMeals[i].mealName == name
  }

  /** `consumedMeals.find(m => m.mealName === name)` */
  function FindMeal(meals: seq<HookMeal>, name: string): (r: Option<HookMeal>)
    ensures r.None? <==> forall i :: 0 <= i < |meals| ==> meals[i].mealName != name
    ensures r.Some? ==> r.value in meals && r.value.mealName == name
    ensures r.Some? ==> exists i :: 0 <= i < |meals| && meals[i] == r.value
                          && forall j :: 0 <= j < i ==> meals[j].mealName != name
  {
    if meals == [] then None
    else if meals[0].mealName == name then Some(meals[0])
    else
      var r := FindMeal(meals[1..], name);
      assert forall i :: 1 <= i < |meals| ==> meals[i] == meals[1..][i - 1];
      assert r.Some? ==> exists i :: 0 <= i < |meals| && meals[i] == r.value
                                     && forall j :: 0 <= j < i ==> meals[j].mealName != name by {
        if r.Some? {
          var i :| 0 <= i < |meals[1..]| && meals[1..][i] == r.value
                   && forall j :: 0 <= j < i ==> meals[1..][j].mealName != name;
          assert meals[i + 1] == r.value;
        }
      }
      r
  }

  function Max0(n: int): int {
    if n > 0 then n else 0
  }

  /** `addMeal(name, calories, id)`: the state after the request and its boolean answer. */
  function AddMeal(s: HookState, signedIn: bool, name: string, calories: int, id: string, ok: bool): (r: (HookState, bool))
    ensures !signedIn ==> r == (s, false)
    ensures r.1 <==> signedIn && ok
    ensures r.1 ==> r.0.consumedMeals == s.consumedMeals + [HookMeal(name, calories, id)]
                    && r.0.totalCalories == s.totalCalories + calories
    ensures signedIn && !ok ==>
      r.0.consumedMeals == WithoutMeal(s.consumedMeals, name) && r.0.totalCalories == s.totalCalories
  {
    if !signedIn then (s, false)
    else
      var optimistic := HookState(s.totalCalories + calories, s.consumedMeals + [HookMeal(name, calories, id)]);
      if ok then (optimistic, true)
      else
        WithoutMealAppend(s.consumedMeals, [HookMeal(name, calories, id)], name);
        assert WithoutMeal([HookMeal(name, calories, id)], name) == [];
        // the rollback drops every entry with the name
        (HookState(optimistic.totalCalories - calories, WithoutMeal(optimistic.consumedMeals, name)), false)
  }

  /** A failed add of a meal that was not yet listed gives the state back exactly; a successful one lists it. */
  lemma AddMealRollback(s: HookState, name: string, calories: int, id: string)
    requires !IsConsumed(s, name)
    ensures AddMeal(s, true, name, calories, id, false).0 == s
    ensures IsConsumed(AddMeal(s, true, name, calories, id, true).0, name)
  {
    WithoutMealAbsent(s.consumedMeals, name);
    var r := AddMeal(s, true, name, calories, id, true).0;
    assert r.consumedMeals[|s.consumedMeals|].mealName == name;
  }

  /** `removeMeal(name)`: the state after the request and its boolean answer. */
  function RemoveMeal(s: HookState, signedIn: bool, name: string, ok: bool): (r: (HookState, bool))
    ensures !signedIn || !IsConsumed(s, name) ==> r == (s, false)
    ensures r.1 <==> signedIn && IsConsumed(s, name) && ok
    ensures r.1 ==> !IsConsumed(r.0, name)
    ensures r.1 ==> r.0.consumedMeals == WithoutMeal(s.consumedMeals, name)
    ensures r.1 ==> r.0.totalCalories == Max0(s.totalCalories - FindMeal(s.consumedMeals, name).value.calories)
    ensures signedIn && IsConsumed(s, name) && !ok ==>
      var meal := FindMeal(s.consumedMeals, name).value;
      && r.0.consumedMeals == WithoutMeal(s.consumedMeals, name) + [meal]
      && r.0.totalCalories == Max0(s.totalCalories - meal.calories) + meal.calories
  {
    if !signedIn then (s, false)
    else match FindMeal(s.consumedMeals, name)
      case None => (s, false)
      case Some(meal) =>
        var optimistic := HookState(Max0(s.totalCalories - meal.calories), WithoutMeal(s.consumedMeals, name));
        if ok then
          assert !IsConsumed(optimistic, name) by {
            forall i | 0 <= i < |optimistic.consumedMeals| ensures optimistic.consumedMeals[i].mealName != name {
              assert optimistic.consumedMeals[i] in optimistic.consumedMeals;
            }
          }
          (optimistic, true)
        else
          // the rollback appends the meal again, at the end
          (HookState(optimistic.totalCalories + meal.calories, optimistic.consumedMeals + [meal]), false)
  }

  predicate UniqueNames(meals: seq<HookMeal>) {
    forall i, j :: 0 <= i < j < |meals| ==> meals[i].mealName != meals[j].mealName
  }

  /** A failed remove of a meal listed once brings back the same meals (the meal moves to the end) and, when
      the total covered it, the same total. */
  lemma RemoveMealRollback(s: HookState, name: string)
    requires IsConsumed(s, name) && UniqueNames(s.consumedMeals)
    requires s.totalCalories >= FindMeal(s.consumedMeals, name).value.calories
    ensures var r := RemoveMeal(s, true, name, false).0;
      multiset(r.consumedMeals) == multiset(s.consumedMeals) && r.totalCalories == s.totalCalories
  {
    var meals := s.consumedMeals;
    var meal := FindMeal(meals, name).value;
    var i :| 0 <= i < |meals| && meals[i] == meal && forall j :: 0 <= j < i ==> meals[j].mealName != name;
    AppendBackPermutes(meals, i);
  }

  /** Dropping a meal named once and appending it again permutes the list. */
  lemma AppendBackPermutes(meals: seq<HookMeal>, i: nat)
    requires UniqueNames(meals) && i < |meals|
    ensures multiset(WithoutMeal(meals, meals[i].mealName) + [meals[i]]) == multiset(meals)
  {
    WithoutUniqueAt(meals, meals[i].mealName, i);
    MoveToEnd(meals, i);
  }

  /** Taking the element at `i` out and appending it permutes the sequence. */
  lemma MoveToEnd<T>(s: seq<T>, i: nat)
    requires i < |s|
    ensures multiset(s[..i] + s[i + 1..] + [s[i]]) == multiset(s)
  {
    var a, x, b := s[..i], s[i], s[i + 1..];
    assert s == a + [x] + b;
    assert multiset(a + b + [x]) == multiset(a) + multiset(b) + multiset([x]);
    assert multiset(a + [x] + b) == multiset(a) + multiset([x]) + multiset(b);
  }

  /** In a list that names each meal once, dropping a name drops just its one entry. */
  lemma {:induction false} WithoutUniqueAt(meals: seq<HookMeal>, name: string, i: nat)
    requires UniqueNames(meals) && i < |meals| && meals[i].mealName == name
    ensures WithoutMeal(meals, name) == meals[..i] + meals[i + 1..]
    decreases i
  {
    var tail := meals[1..];
    assert UniqueNames(tail) by {
      forall x, y | 0 <= x < y < |tail| ensures tail[x].mealName != tail[y].mealName {
        assert tail[x] == meals[x + 1] && tail[y] == meals[y + 1];
      }
    }
    if i == 0 {
      assert forall j :: 0 <= j < |tail| ==> tail[j] == meals[j + 1];
      WithoutMealAbsent(tail, name);
    } else {
      assert tail[i - 1] == meals[i];
      WithoutUniqueAt(tail, name, i - 1);
      assert meals[..i] == [meals[0]] + tail[..i - 1];
      assert meals[i + 1..] == tail[i..];
    }
  }

  // ---------------------------------------------------------------- agreement with the ledger route

  /** The hook's meals as the route stores them (the meal id is not stored). */
  function Stored(meals: seq<HookMeal>): (r: seq<DailyLog.ConsumedMeal>)
    ensures |r| == |meals|
    ensures forall i :: 0 <= i < |meals| ==> r[i] == DailyLog.ConsumedMeal(meals[i].mealName, meals[i].calories)
  {
    if meals == [] then [] else [DailyLog.ConsumedMeal(meals[0].mealName, meals[0].calories)] + Stored(meals[1..])
  }

  /** The hook shows the day's record as the route holds it. */
  predicate Mirrors(s: HookState, rec: DailyLog.LogRecord) {
    Stored(s.consumedMeals) == rec.consumedMeals && s.totalCalories == rec.totalCalories
  }

  /** When the hook showed the record the route holds and the route accepts an add, the hook then shows what
      the route answered. */
  lemma AddAgreesWithRoute(s: HookState, table: DailyLog.LogTable, userId: string, date: string, name: string, calories: int, id: string)
    requires Mirrors(s, DailyLog.Current(table, DailyLog.LogKey(userId, date)))
    requires DailyLog.Post(table, userId, DailyLog.LogRequest(date, name, Some(calories), "add")).1.Updated?
    ensures var resp := DailyLog.Post(table, userId, DailyLog.LogRequest(date, name, Some(calories), "add")).1;
      Mirrors(AddMeal(s, true, name, calories, id, true).0, DailyLog.LogRecord(resp.totalCalories, resp.consumedMeals))
  {
    var r := AddMeal(s, true, name, calories, id, true).0;
    assert Stored(r.consumedMeals) == Stored(s.consumedMeals) + [DailyLog.ConsumedMeal(name, calories)];
  }

  /** The same for a remove, when the route's ledger is valid: the hook's filter and clamp give the route's
      answer, which removes the one entry and deletes an emptied record. */
  lemma RemoveAgreesWithRoute(s: HookState, table: DailyLog.LogTable, userId: string, date: string, name: string, calories: int)
    requires DailyLog.ValidTable(table)
    requires Mirrors(s, DailyLog.Current(table, DailyLog.LogKey(userId, date)))
    requires DailyLog.Post(table, userId, DailyLog.LogRequest(date, name, Some(calories), "remove")).1.Updated?
    ensures var resp := DailyLog.Post(table, userId, DailyLog.LogRequest(date, name, Some(calories), "remove")).1;
      Mirrors(RemoveMeal(s, true, name, true).0, DailyLog.LogRecord(resp.totalCalories, resp.consumedMeals))
  {
    var req := DailyLog.LogRequest(date, name, Some(calories), "remove");
    var cur := DailyLog.Current(table, DailyLog.LogKey(userId, date));
    DailyLog.RemoveAnswer(table, userId, req);
    var k := DailyLog.FindMeal(cur.consumedMeals, name).value;
    StoredUnique(s.consumedMeals);
    HookRemoveAt(s, name, k);
    StoredRemoveAt(s.consumedMeals, k);
  }

  /** A successful remove of a name listed once, at index `k`. */
  lemma HookRemoveAt(s: HookState, name: string, k: nat)
    requires UniqueNames(s.consumedMeals) && k < |s.consumedMeals| && s.consumedMeals[k].mealName == name
    ensures RemoveMeal(s, true, name, true).0 ==
      HookState(Max0(s.totalCalories - s.consumedMeals[k].calories), s.consumedMeals[..k] + s.consumedMeals[k + 1..])
  {
    FindUniqueAt(s.consumedMeals, name, k);
    assert IsConsumed(s, name);
  }

  lemma StoredUnique(meals: seq<HookMeal>)
    requires DailyLog.UniqueNames(Stored(meals))
    ensures UniqueNames(meals)
  {
    var st := Stored(meals);
    forall i, j | 0 <= i < j < |meals| ensures meals[i].mealName != meals[j].mealName {
      assert st[i].mealName == meals[i].mealName && st[j].mealName == meals[j].mealName;
    }
  }

  /** In a list that names each meal once, the entry found for a name is the one at its index, and
      filtering the name out removes just that index. */
  lemma FindUniqueAt(meals: seq<HookMeal>, name: string, k: nat)
    requires UniqueNames(meals) && k < |meals| && meals[k].mealName == name
    ensures FindMeal(meals, name) == Some(meals[k])
    ensures WithoutMeal(meals, name) == meals[..k] + meals[k + 1..]
  {
    WithoutUniqueAt(meals, name, k);
    var meal := FindMeal(meals, name).value;
    var i :| 0 <= i < |meals| && meals[i] == meal && forall j :: 0 <= j < i ==> meals[j].mealName != name;
    assert i == k;
  }

  lemma StoredRemoveAt(meals: seq<HookMeal>, k: nat)
    requires k < |meals|
    ensures Stored(meals[..k] + meals[k + 1..]) == DailyLog.RemoveAt(Stored(meals), k)
  {
    var a := meals[..k] + meals[k + 1..];
    var b := DailyLog.RemoveAt(Stored(meals), k);
    assert |Stored(a)| == |b|;
    forall j | 0 <= j < |b| ensures Stored(a)[j] == b[j] {
      if j < k {
        assert a[j] == meals[j];
      } else {
        assert a[j] == meals[j + 1];
      }
    }
  }

  datatype FetchResult = FetchOk(totalCalories: Option<int>, consumedMeals: seq<HookMeal>) | FetchNotOk | FetchThrows

  /** `fetchLog()`: nothing when signed out or without a date, the answer when `ok` (a missing or zero total
      reads as 0), and otherwise the state as it was. */
  function FetchLog(s: HookState, signedIn: bool, date: string, fetched: FetchResult): (r: HookState)
    ensures !signedIn || date == "" || !fetched.FetchOk? ==> r == s
    ensures signedIn && date != "" && fetched.FetchOk? ==>
      r.consumedMeals == fetched.consumedMeals
      && (fetched.totalCalories.Some? ==> r.totalCalories == fetched.totalCalories.value)
      && (fetched.totalCalories.None? ==> r.totalCalories == 0)
  {
    if !signedIn || date == "" then s
    else match fetched
      case FetchOk(total, meals) => HookState(if total.Some? then total.value else 0, meals)
      case _ => s
  }
}

=== FILE: date_utils.dfy ===
/**
 Calendar dates and the date strings of lib/date-utils.ts. The clock is
 not modelled: "today" is a `CalendarDate` passed in by the caller.
 */
module DateUtils {
  import opened Core

  /** A local calendar date as a JavaScript `Date` reports it (`getMonth() + 1` is `month`). */
  datatype CalendarDate = CalendarDate(year: nat, month: nat, day: nat)

  predicate IsLeapYear(y: nat) {
    (y % 4 == 0 && y % 100 != 0) || y % 400 == 0
  }

  /** Days in `month` of year `y` in the proleptic Gregorian calendar. */
  function DaysInMonth(y: nat, month: nat): nat
    requires 1 <= month <= 12
  {
    if month == 2 then (if IsLeapYear(y) then 29 else 28)
    else if month == 4 || month == 6 || month == 9 || month == 11 then 30
    else 31
  }

  predicate ValidCalendarDate(d: CalendarDate) {
    1 <= d.month <= 12 && 1 <= d.day <= DaysInMonth(d.year, d.month)
  }

  /** Four digits, a dash, two digits, a dash, two digits: `^\d{4}-\d{2}-\d{2}$`. */
  predicate IsoDateShape(s: string) {
    && |s| == 10
    && AllDigits(s[..4]) && s[4] == '-' && AllDigits(s[5..7]) && s[7] == '-' && AllDigits(s[8..])
  }

  /** `^\d{4}-\d{2}$` */
  predicate IsoMonthShape(s: string) {
    |s| == 7 && AllDigits(s[..4]) && s[4] == '-' && AllDigits(s[5..])
  }

  /** The numbers an ISO-shaped date string spells (`split('-').map(Number)`). */
  function ParseIsoDate(s: string): CalendarDate
    requires IsoDateShape(s)
  {
    CalendarDate(DigitsValue(s[..4]), DigitsValue(s[5..7]), DigitsValue(s[8..]))
  }

  /** `getTodayDate()` for an injected date: year, then month and day padded to two digits. */
  function GetTodayDate(today: CalendarDate): (r: string)
    requires ValidCalendarDate(today)
    ensures 1000 <= today.year <= 9999 ==> IsoDateShape(r) && ParseIsoDate(r) == today
  {
    var r := ShowNat(today.year) + "-" + Pad2(today.month) + "-" + Pad2(today.day);
    if 1000 <= today.year <= 9999 then
      FormatParsesBack(today);
      r
    else r
  }

  /** `getCurrentMonth()` for an injected date. */
  function GetCurrentMonth(today: CalendarDate): (r: string)
    requires ValidCalendarDate(today)
    ensures StartsWith(GetTodayDate(today), r)
    ensures 1000 <= today.year <= 9999 ==> r == GetTodayDate(today)[..7] && IsoMonthShape(r)
  {
    var r := ShowNat(today.year) + "-" + Pad2(today.month);
    assert GetTodayDate(today) == r + "-" + Pad2(today.day);
    r
  }

  /** `isToday(date)` for an injected date. */
  predicate IsToday(date: string, today: CalendarDate)
    requires ValidCalendarDate(today)
  {
    date == GetTodayDate(today)
  }

  lemma FormatParsesBack(d: CalendarDate)
    requires ValidCalendarDate(d) && 1000 <= d.year <= 9999
    ensures var r := ShowNat(d.year) + "-" + Pad2(d.month) + "-" + Pad2(d.day);
      IsoDateShape(r) && ParseIsoDate(r) == d
  {
    var r := ShowNat(d.year) + "-" + Pad2(d.month) + "-" + Pad2(d.day);
    assert r[..4] == ShowNat(d.year);
    assert r[5..7] == Pad2(d.month);
    assert r[8..] == Pad2(d.day);
    ShowNatRoundTrip(d.year);
    Pad2RoundTrip(d.month);
    Pad2RoundTrip(d.day);
  }

  /** Digits with no leading zero are exactly what `ShowNat` writes for their value. */
  lemma {:induction false} ShowNatOfDigits(s: string)
    requires |s| >= 1 && AllDigits(s) && s[0] != '0'
    ensures DigitsValue(s) >= 1
    ensures ShowNat(DigitsValue(s)) == s
    decreases |s|
  {
    if |s| == 1 {
      assert s[..0] == [];
    } else {
      var p := s[..|s| - 1];
      ShowNatOfDigits(p);
      var v := DigitsValue(s);
      assert v == DigitsValue(p) * 10 + DigitValue(s[|s| - 1]);
      assert v / 10 == DigitsValue(p) && v % 10 == DigitValue(s[|s| - 1]);
      assert v >= 10;
      assert s == p + [s[|s| - 1]];
    }
  }

  /** Two digits are exactly what `Pad2` writes for their value. */
  lemma Pad2OfDigits(s: string)
    requires |s| == 2 && AllDigits(s)
    ensures Pad2(DigitsValue(s)) == s
  {
    assert s[..1][..0] == [];
    assert s[..1][0] == s[0];
    assert DigitsValue(s[..1]) == DigitValue(s[0]);
    var v := DigitsValue(s);
    assert v == DigitValue(s[0]) * 10 + DigitValue(s[1]);
    if s[0] == '0' {
      assert v == DigitValue(s[1]) && v < 10;
      assert ShowNat(v) == [s[1]];
      assert s == ['0'] + [s[1]];
    } else {
      ShowNatOfDigits(s);
    }
  }

  /** For ISO-shaped text with a four-digit year that does not start with 0,
      `isToday` holds exactly when the text spells today's date. */
  lemma IsTodayIffParsesToToday(date: string, today: CalendarDate)
    requires ValidCalendarDate(today) && IsoDateShape(date) && date[0] != '0'
    ensures IsToday(date, today) <==> ParseIsoDate(date) == today
  {
    if ParseIsoDate(date) == today {
      ShowNatOfDigits(date[..4]);
      Pad2OfDigits(date[5..7]);
      Pad2OfDigits(date[8..]);
      assert date == date[..4] + "-" + date[5..7] + "-" + date[8..];
    }
    if IsToday(date, today) {
      assert |ShowNat(today.year)| == 4;
    }
  }

  /** `menu-\d{4}-\d{2}-(\d{8})\.json` matches at `i`. */
  predicate ScrapeNameAt(s: string, i: nat) {
    && i + 26 <= |s|
    && s[i..i + 5] == "menu-"
    && AllDigits(s[i + 5..i + 9]) && s[i + 9] == '-'
    && AllDigits(s[i + 10..i + 12]) && s[i + 12] == '-'
    && AllDigits(s[i + 13..i + 21])
    && s[i + 21..i + 26] == ".json"
  }

  function ParseScrapeDateFrom(name: string, i: nat): (r: Option<string>)
    decreases |name| - i
  {
    if i + 26 > |name| then None
    else if ScrapeNameAt(name, i) then Some(name[i + 13..i + 21])
    else ParseScrapeDateFrom(name, i + 1)
  }

  /** `parseScrapeDate(filename)`: the eight digits of the leftmost match, if any (the pattern is not anchored). */
  function ParseScrapeDate(name: string): Option<string> {
    ParseScrapeDateFrom(name, 0)
  }

  lemma {:induction false} ParseScrapeDateFromSpec(name: string, i: nat)
    ensures ParseScrapeDateFrom(name, i).None? <==> forall j: nat :: i <= j ==> !ScrapeNameAt(name, j)
    ensures ParseScrapeDateFrom(name, i).Some? ==>
      exists j: nat :: i <= j && ScrapeNameAt(name, j)
        && (forall m: nat :: i <= m < j ==> !ScrapeNameAt(name, m))
        && ParseScrapeDateFrom(name, i).value == name[j + 13..j + 21]
    decreases |name| - i
  {
    if i + 26 > |name| {
    } else if ScrapeNameAt(name, i) {
    } else {
      ParseScrapeDateFromSpec(name, i + 1);
      assert forall j: nat :: i <= j && ScrapeNameAt(name, j) ==> i + 1 <= j;
    }
  }

  /** A parsed scrape date is eight digits found between `menu-YYYY-MM-` and `.json`, at the leftmost
      such place; none is found exactly when no such place exists. */
  lemma ParseScrapeDateSpec(name: string)
    ensures ParseScrapeDate(name).None? <==> forall j: nat :: !ScrapeNameAt(name, j)
    ensures ParseScrapeDate(name).Some? ==>
      |ParseScrapeDate(name).value| == 8 && AllDigits(ParseScrapeDate(name).value)
      && (exists j: nat :: ScrapeNameAt(name, j)
           && (forall m: nat :: m < j ==> !ScrapeNameAt(name, m))
           && ParseScrapeDate(name).value == name[j + 13..j + 21])
  {
    ParseScrapeDateFromSpec(name, 0);
  }

  lemma ParseScrapeDateExamples()
    ensures ParseScrapeDate("menu-2025-12-20251213.json") == Some("20251213")
    ensures ParseScrapeDate("menu-20251213.json") == None
  {
    var flat := "menu-2025-12-20251213.json";
    ScrapeNameExample();
    assert flat[13..21] == "20251213";
    var nested := "menu-20251213.json";
    assert |nested| < 26;
  }

  lemma ScrapeNameExample()
    ensures ScrapeNameAt("menu-2025-12-20251213.json", 0)
  {
    var flat := "menu-2025-12-20251213.json";
    assert flat[0..5] == "menu-";
    assert flat[21..26] == ".json";
    assert flat[9] == '-' && flat[12] == '-';
    DigitsExample(flat[5..9], "2025");
    DigitsExample(flat[10..12], "12");
    DigitsExample(flat[13..21], "20251213");
  }

  lemma DigitsExample(s: string, t: string)
    requires s == t && forall k :: 0 <= k < |t| ==> '0' <= t[k] <= '9'
    ensures AllDigits(s)
  {
  }
}

=== FILE: favorites_hook.dfy ===
/**
 The client list of favourite meal names, hooks/use-favorites.ts: a toggle
 applied optimistically before the POST and rolled back when it fails.
 Whether the POST answered `ok` is a parameter (`false` also stands for a
 thrown fetch); the session is a flag.
 */
module FavoritesHook {
  import opened Core

  /** `favorites.filter(f => f !== name)` */
  function Without(favorites: seq<string>, name: string): (r: seq<string>)
    ensures forall f :: f in r <==> f in favorites && f != name
    ensures |r| <= |favorites|
  {
    if favorites == [] then []
    else (if favorites[0] == name then [] else [favorites[0]]) + Without(favorites[1..], name)
  }

  /** `isFavorited(name)` */
  predicate IsFavorited(favorites: seq<string>, name: string) {
    name in favorites
  }

  /** `toggleFavorite(name)`: the list after the request and its boolean answer. */
  function ToggleFavorite(favorites: seq<string>, signedIn: bool, name: string, ok: bool): (r: (seq<string>, bool))
    ensures !signedIn ==> r == (favorites, false)
    ensures r.1 <==> signedIn && ok
    ensures r.1 ==> (IsFavorited(r.0, name) <==> !IsFavorited(favorites, name))
    ensures signedIn ==> forall f :: f != name ==> (f in r.0 <==> f in favorites)
    ensures signedIn && !ok ==> (IsFavorited(r.0, name) <==> IsFavorited(favorites, name))
  {
    if !signedIn then (favorites, false)
    else
      var wasFavorited := name in favorites;
      var optimistic := if wasFavorited then Without(favorites, name) else favorites + [name];
      if ok then (optimistic, true)
      else
        // the rollback re-adds the name at the end, or drops it again
        (if wasFavorited then optimistic + [name] else Without(optimistic, name), false)
  }

  /** Toggling twice, both times accepted, gives back the same set of favourites. */
  lemma ToggleTwice(favorites: seq<string>, name: string)
    ensures var once := ToggleFavorite(favorites, true, name, true).0;
      forall f :: f in ToggleFavorite(once, true, name, true).0 <==> f in favorites
  {
  }

  /** A failed toggle of a name that was not a favourite gives the list back exactly; one that was listed
      once comes back with the name moved to the end. */
  lemma {:induction false} ToggleRollback(favorites: seq<string>, name: string)
    ensures name !in favorites ==> ToggleFavorite(favorites, true, name, false).0 == favorites
    ensures multiset(favorites)[name] == 1 ==>
      ToggleFavorite(favorites, true, name, false).0 == Without(favorites, name) + [name]
      && multiset(ToggleFavorite(favorites, true, name, false).0) == multiset(favorites)
  {
    if name !in favorites {
      WithoutAbsent(favorites + [name], name, |favorites|);
    }
    if multiset(favorites)[name] == 1 {
      WithoutCount(favorites, name);
    }
  }

  /** Dropping a name removes exactly its copies and keeps the rest. */
  lemma {:induction false} WithoutCount(favorites: seq<string>, name: string)
    ensures multiset(Without(favorites, name)) == multiset(favorites)[name := 0]
    decreases |favorites|
  {
    if favorites != [] {
      WithoutCount(favorites[1..], name);
      assert favorites == [favorites[0]] + favorites[1..];
    }
  }

  /** Appending a name and then dropping it gives the list back, when it held no copy. */
  lemma {:induction false} WithoutAbsent(s: seq<string>, name: string, n: nat)
    requires n == |s| - 1 && |s| >= 1 && s[n] == name && name !in s[..n]
    ensures Without(s, name) == s[..n]
    decreases |s|
  {
    if n > 0 {
      assert s[1..][..n - 1] == s[..n][1..];
      WithoutAbsent(s[1..], name, n - 1);
      assert s[..n] == [s[0]] + s[1..][..n - 1];
    } else {
      assert s[1..] == [];
    }
  }

  datatype FavoriteRow = FavoriteRow(mealName: string, mealId: string)

  /** `fetchFavorites()`: the names of the returned favourites, in order; nothing when signed out or when
      the request fails. */
  function FetchFavorites(favorites: seq<string>, signedIn: bool, fetched: Option<seq<FavoriteRow>>): (r: seq<string>)
    ensures !signedIn || fetched.None? ==> r == favorites
    ensures signedIn && fetched.Some? ==>
      |r| == |fetched.value| && forall i :: 0 <= i < |r| ==> r[i] == fetched.value[i].mealName
  {
    if !signedIn || fetched.None? then favorites
    else seq(|fetched.value|, i requires 0 <= i < |fetched.value| => fetched.value[i].mealName)
  }
}

=== FILE: menu_loader.dfy ===
/**
 The reader side of lib/menu-loader.ts: choosing the newest flat snapshot
 `menu-<month>-<YYYYMMDD>.json` of a month in the data directory, and
 loading it.

 The directory is its listing (in the file system's order) plus a map from
 file name to the `MenuData` the file holds; whether the directory exists
 is a flag. JSON parsing is not modelled.
 */
module MenuLoader {
  import opened Core
  import opened MenuTypes
  import opened DateUtils

  /** `file.startsWith(`menu-${month}-`) && file.endsWith('.json')` */
  predicate IsMonthFile(name: string, month: string) {
    StartsWith(name, "menu-" + month + "-") && EndsWith(name, ".json")
  }

  function MonthFiles(listing: seq<string>, month: string): (r: seq<string>)
    ensures forall n :: n in r <==> n in listing && IsMonthFile(n, month)
    ensures forall k :: 0 <= k < |r| ==> IsMonthFile(r[k], month)
  {
    if listing == [] then []
    else (if IsMonthFile(listing[0], month) then [listing[0]] else []) + MonthFiles(listing[1..], month)
  }

  /** `parseInt(parseScrapeDate(file) || '00000000')` */
  function ScrapeDateValue(name: string): nat {
    match ParseScrapeDate(name)
    case Some(d) =>
      ParseScrapeDateSpec(name);
      DigitsValue(d)
    case None => 0
  }

  /** Index of the element the source's `reduce((prev, current) => current.date > prev.date ? current : prev)`
      ends with: a maximum, and the first one because later equal values do not replace it. */
  function LatestIndex(files: seq<string>): (i: nat)
    requires |files| >= 1
    ensures i < |files|
    ensures forall j :: 0 <= j < |files| ==> ScrapeDateValue(files[j]) <= ScrapeDateValue(files[i])
    ensures forall j :: 0 <= j < i ==> ScrapeDateValue(files[j]) < ScrapeDateValue(files[i])
  {
    if |files| == 1 then 0
    else
      var p := LatestIndex(files[..|files| - 1]);
      assert files[..|files| - 1][p] == files[p];
      if ScrapeDateValue(files[|files| - 1]) > ScrapeDateValue(files[p]) then |files| - 1 else p
  }

  /** `getLatestMenuFile(month)` */
  function GetLatestMenuFile(dirExists: bool, listing: seq<string>, month: string): (r: Option<string>)
    ensures r.None? <==> !dirExists || forall n :: n in listing ==> !IsMonthFile(n, month)
    ensures r.Some? ==> r.value in listing && IsMonthFile(r.value, month)
    ensures r.Some? ==> forall n :: n in listing && IsMonthFile(n, month) ==> ScrapeDateValue(n) <= ScrapeDateValue(r.value)
  {
    var files := MonthFiles(listing, month);
    if !dirExists then None
    else if files == [] then
      assert forall n :: n in listing ==> !IsMonthFile(n, month) by {
        forall n | n in listing ensures !IsMonthFile(n, month) {
          assert n !in files;
        }
      }
      None
    else
      var i := LatestIndex(files);
      assert files[i] in files;
      assert forall n :: n in files ==> exists j :: 0 <= j < |files| && files[j] == n;
      Some(files[i])
  }

  /** Among the month's files in listing order, the chosen one comes before every other file with the
      same scrape date: ties go to the earliest. */
  lemma LatestIsFirstMaximum(dirExists: bool, listing: seq<string>, month: string)
    requires GetLatestMenuFile(dirExists, listing, month).Some?
    ensures exists i :: (0 <= i < |MonthFiles(listing, month)|
      && MonthFiles(listing, month)[i] == GetLatestMenuFile(dirExists, listing, month).value
      && (forall j :: 0 <= j < i ==> ScrapeDateValue(MonthFiles(listing, month)[j]) < ScrapeDateValue(MonthFiles(listing, month)[i])))
  {
    var files := MonthFiles(listing, month);
    assert dirExists && files != [];
    var i := LatestIndex(files);
    assert GetLatestMenuFile(dirExists, listing, month) == Some(files[i]);
  }

  datatype LoadResult = Loaded(data: MenuData) | NoMenuData(month: string)

  /** `loadMenuData(month)`: the chosen file's contents, or the "no menu data" error. */
  function LoadMenuData(dirExists: bool, listing: seq<string>, contents: map<string, MenuData>, month: string): (r: LoadResult)
    requires forall n :: n in listing ==> n in contents
    ensures r.NoMenuData? <==> GetLatestMenuFile(dirExists, listing, month).None?
    ensures r.NoMenuData? ==> r.month == month
    ensures r.Loaded? ==> exists n :: n in listing && IsMonthFile(n, month) && contents[n] == r.data
    ensures r.Loaded? ==> r.data == contents[GetLatestMenuFile(dirExists, listing, month).value]
  {
    match GetLatestMenuFile(dirExists, listing, month)
    case None => NoMenuData(month)
    case Some(f) => Loaded(contents[f])
  }

  /** The scrape date of `menu-2025-12-<d>.json` for eight digits `d`. */
  lemma FlatNameValue(d: string)
    requires |d| == 8 && AllDigits(d)
    ensures IsMonthFile("menu-2025-12-" + d + ".json", "2025-12")
    ensures ScrapeDateValue("menu-2025-12-" + d + ".json") == DigitsValue(d)
  {
    var a := "menu-2025-12-" + d + ".json";
    assert a[..13] == "menu-2025-12-" && a[|a| - 5..] == ".json";
    assert a[0..5] == "menu-" && a[21..26] == ".json";
    assert a[5..9] == "2025" && a[10..12] == "12" && a[13..21] == d;
    assert ScrapeNameAt(a, 0);
  }

  /** Of two files of the month, the one with the later scrape date is chosen in either listing order. */
  lemma LatestOfTwo(a: string, b: string, month: string)
    requires IsMonthFile(a, month) && IsMonthFile(b, month)
    requires ScrapeDateValue(a) < ScrapeDateValue(b)
    ensures GetLatestMenuFile(true, [a, b], month) == Some(b)
    ensures GetLatestMenuFile(true, [b, a], month) == Some(b)
  {
    LatestOfPair(a, b, [a, b], month);
    LatestOfPair(a, b, [b, a], month);
  }

  /** The later of two month files, listed in either order, is the only one that can be the maximum. */
  lemma LatestOfPair(a: string, b: string, listing: seq<string>, month: string)
    requires IsMonthFile(a, month) && IsMonthFile(b, month)
    requires ScrapeDateValue(a) < ScrapeDateValue(b)
    requires listing == [a, b] || listing == [b, a]
    ensures GetLatestMenuFile(true, listing, month) == Some(b)
  {
    assert b in listing;
    var r := GetLatestMenuFile(true, listing, month);
    assert r.Some? && ScrapeDateValue(b) <= ScrapeDateValue(r.value);
    assert r.value == a || r.value == b;
  }

  /** With two flat snapshots of December 2025, the later scrape is chosen whatever the listing order. */
  lemma LatestMenuFileExample()
    ensures GetLatestMenuFile(true, ["menu-2025-12-20251213.json", "menu-2025-12-20251220.json"], "2025-12")
         == Some("menu-2025-12-20251220.json")
    ensures GetLatestMenuFile(true, ["menu-2025-12-20251220.json", "menu-2025-12-20251213.json"], "2025-12")
         == Some("menu-2025-12-20251220.json")
  {
    var x, y := "20251213", "20251220";
    assert AllDigits(x) && AllDigits(y);
    FlatNameValue(x);
    FlatNameValue(y);
    assert x[..6] == y[..6];
    assert DigitValue(x[6]) < DigitValue(y[6]);
    DigitsPrefixOrder(x, y, 6);
    var a, b := "menu-2025-12-" + x + ".json", "menu-2025-12-" + y + ".json";
    assert a == "menu-2025-12-20251213.json";
    assert b == "menu-2025-12-20251220.json";
    LatestOfTwo(a, b, "2025-12");
  }

  /** Two digit strings that agree up to position `k` and differ there in `x`'s favour compare the same way
      as numbers. */
  lemma {:induction false} DigitsPrefixOrder(x: string, y: string, k: nat)
    requires |x| == |y| && k < |x| && AllDigits(x) && AllDigits(y)
    requires x[..k] == y[..k] && DigitValue(x[k]) < DigitValue(y[k])
    ensures DigitsValue(x) < DigitsValue(y)
    decreases |x|
  {
    if k == |x| - 1 {
      assert x[..|x| - 1] == y[..|y| - 1];
    } else {
      var x', y' := x[..|x| - 1], y[..|y| - 1];
      assert x'[..k] == x[..k] && y'[..k] == y[..k];
      DigitsPrefixOrder(x', y', k);
    }
  }
}

=== FILE: menu_page.dfy ===
/**
 The pure parts of the menu page, app/menu-page.tsx: the day shown first
 on a phone, the date-range filter, and the previous/next arrows. Dates
 are compared as strings, as the page does; the range picker's `Date`
 values are calendar dates formatted the same way as `getTodayDate`.
 */
module MenuPage {
  import opened Core
  import opened MenuTypes
  import opened DateUtils
  import opened Order

  /** `findInitialDateIndex()`: the first day that is today, else the first day after today, else the last
      day (-1 when there are none). */
  function InitialDateIndex(days: seq<DayMenu>, today: string): (r: int)
    ensures -1 <= r < |days|
    ensures r == -1 <==> days == []
    ensures (exists i :: 0 <= i < |days| && days[i].date == today) ==>
      days[r].date == today && forall j :: 0 <= j < r ==> days[j].date != today
    ensures (forall i :: 0 <= i < |days| ==> days[i].date != today) && (exists i :: 0 <= i < |days| && !StrLe(days[i].date, today)) ==>
      !StrLe(days[r].date, today) && forall j :: 0 <= j < r ==> StrLe(days[j].date, today)
    ensures (forall i :: 0 <= i < |days| ==> days[i].date != today && StrLe(days[i].date, today)) ==> r == |days| - 1
  {
    match FirstIndex(days, (d: DayMenu) => d.date == today)
    case Some(i) => i
    case None =>
      match FirstIndex(days, (d: DayMenu) => !StrLe(d.date, today))
      case Some(i) => i
      case None => |days| - 1
  }

  /** `days.findIndex(p)` */
  function FirstIndex(days: seq<DayMenu>, p: DayMenu -> bool): (r: Option<nat>)
    ensures r.None? <==> forall i :: 0 <= i < |days| ==> !p(days[i])
    ensures r.Some? ==> r.value < |days| && p(days[r.value]) && forall j :: 0 <= j < r.value ==> !p(days[j])
  {
    if days == [] then None
    else if p(days[0]) then Some(0)
    else match FirstIndex(days[1..], p)
      case None =>
        assert forall i :: 1 <= i < |days| ==> days[i] == days[1..][i - 1];
        None
      case Some(i) =>
        assert forall j :: 1 <= j < i + 1 ==> days[j] == days[1..][j - 1];
        Some(i + 1)
  }

  /** The days in date order, as the scraper leaves them when `ymk` follows the calendar. */
  predicate DatesAscending(days: seq<DayMenu>) {
    forall i, j :: 0 <= i < j < |days| ==> StrLe(days[i].date, days[j].date)
  }

  /** On days in date order, the first day shown is the first one on or after today, or the last day when
      every day is before today. */
  lemma InitialIsFirstNotBefore(days: seq<DayMenu>, today: string)
    requires DatesAscending(days) && days != []
    ensures var r := InitialDateIndex(days, today);
      && 0 <= r < |days|
      && ((exists i :: 0 <= i < |days| && StrLe(today, days[i].date)) ==>
            StrLe(today, days[r].date) && forall j :: 0 <= j < r ==> !StrLe(today, days[j].date))
  {
    var r := InitialDateIndex(days, today);
    forall j | 0 <= j < |days| && days[j].date != today ensures StrLe(today, days[j].date) <==> !StrLe(days[j].date, today) {
      StrLeStrict(today, days[j].date);
    }
    if exists i :: 0 <= i < |days| && days[i].date == today {
      StrLeReflexive(today);
      assert forall j :: 0 <= j < r ==> StrLe(days[j].date, days[r].date);
    }
  }

  /** The range picker's selection: a start day, and an end day that may be missing. */
  datatype DateRange = DateRange(from: Option<CalendarDate>, to: Option<CalendarDate>)

  predicate ValidRange(range: DateRange) {
    && (range.from.Some? ==> ValidCalendarDate(range.from.value))
    && (range.to.Some? ==> ValidCalendarDate(range.to.value))
  }

  /** The days whose date lies between the two strings, in their order. */
  function Between(days: seq<DayMenu>, lo: string, hi: string): (r: seq<DayMenu>)
    ensures forall d :: d in r <==> d in days && StrLe(lo, d.date) && StrLe(d.date, hi)
  {
    if days == [] then []
    else (if StrLe(lo, days[0].date) && StrLe(days[0].date, hi) then [days[0]] else []) + Between(days[1..], lo, hi)
  }

  /** `selectedDateMenus`: nothing without a start day; otherwise the days from the start day to the end
      day, the end defaulting to the start. */
  function SelectedDateMenus(days: seq<DayMenu>, range: Option<DateRange>): (r: seq<DayMenu>)
    requires range.Some? ==> ValidRange(range.value)
    ensures range.None? || range.value.from.None? ==> r == []
    ensures range.Some? && range.value.from.Some? ==>
      var lo := GetTodayDate(range.value.from.value);
      var hi := GetTodayDate(if range.value.to.Some? then range.value.to.value else range.value.from.value);
      forall d :: d in r <==> d in days && StrLe(lo, d.date) && StrLe(d.date, hi)
  {
    if range.None? || range.value.from.None? then []
    else
      var from := range.value.from.value;
      var to := if range.value.to.Some? then range.value.to.value else from;
      Between(days, GetTodayDate(from), GetTodayDate(to))
  }

  /** The filter keeps the days' order. */
  lemma {:induction false} BetweenIsSubsequence(days: seq<DayMenu>, lo: string, hi: string)
    ensures IsSubsequence(Between(days, lo, hi), days)
    decreases |days|
  {
    if days != [] {
      var rest := Between(days[1..], lo, hi);
      BetweenIsSubsequence(days[1..], lo, hi);
      if StrLe(lo, days[0].date) && StrLe(days[0].date, hi) {
        assert Between(days, lo, hi) == [days[0]] + rest;
        assert ([days[0]] + rest)[1..] == rest;
      } else {
        assert Between(days, lo, hi) == rest;
        SubsequenceOfTail(rest, days);
      }
    }
  }

  /** A range of one day, or a start day without an end, shows exactly the days with that date, in order. */
  lemma SingleDaySelection(days: seq<DayMenu>, day: CalendarDate)
    requires ValidCalendarDate(day)
    ensures var r := SelectedDateMenus(days, Some(DateRange(Some(day), None)));
      && IsSubsequence(r, days)
      && forall d :: d in r <==> d in days && d.date == GetTodayDate(day)
  {
    var s := GetTodayDate(day);
    BetweenIsSubsequence(days, s, s);
    StrLeReflexive(s);
    forall d | d in days && StrLe(s, d.date) && StrLe(d.date, s) ensures d.date == s {
      StrLeAntisymmetric(s, d.date);
    }
  }

  /** `canGoPrevious` and `canGoNext` of the bottom bar. */
  predicate CanGoPrevious(index: int) {
    index > 0
  }

  predicate CanGoNext(index: int, count: nat) {
    index < count - 1
  }

  /** `handleMobilePrevious` and `handleMobileNext`: a step while the arrow is enabled, else nothing. */
  function Previous(index: int): (r: int)
    ensures CanGoPrevious(index) ==> r == index - 1
    ensures !CanGoPrevious(index) ==> r == index
  {
    if index > 0 then index - 1 else index
  }

  function Next(index: int, count: nat): (r: int)
    ensures CanGoNext(index, count) ==> r == index + 1
    ensures !CanGoNext(index, count) ==> r == index
  {
    if index < count - 1 then index + 1 else index
  }

  /** Starting from the first day shown, any sequence of arrow presses stays on a day that exists. */
  lemma {:induction false} ArrowsStayInRange(days: seq<DayMenu>, today: string, presses: seq<bool>)
    requires days != []
    ensures 0 <= Press(InitialDateIndex(days, today), |days|, presses) < |days|
  {
    PressKeepsRange(InitialDateIndex(days, today), |days|, presses);
  }

  /** The index after a sequence of presses, `true` for next and `false` for previous. */
  function Press(index: int, count: nat, presses: seq<bool>): int
    decreases |presses|
  {
    if presses == [] then index
    else Press(if presses[0] then Next(index, count) else Previous(index), count, presses[1..])
  }

  lemma {:induction false} PressKeepsRange(index: int, count: nat, presses: seq<bool>)
    requires 0 <= index < count
    ensures 0 <= Press(index, count, presses) < count
    decreases |presses|
  {
    if presses != [] {
      PressKeepsRange(if presses[0] then Next(index, count) else Previous(index), count, presses[1..]);
    }
  }

  /** A step forward followed by a step back returns to the same day. */
  lemma NextThenPrevious(index: int, count: nat)
    requires 0 <= index && CanGoNext(index, count)
    ensures Previous(Next(index, count)) == index
    ensures CanGoPrevious(Next(index, count))
  {
  }
}

=== FILE: menu_types.dfy ===
/**
 The menu data model of lib/types.ts: a month's snapshot, its days and
 their meals. Numbers the scraper reads out of digit runs are `nat`.
 */
module MenuTypes {

  datatype MealCategory = AnaYemek | YanYemek | Corba | YanUrun | Tatli | Icecek

  datatype Meal = Meal(id: string, name: string, calories: nat, category: MealCategory)

  /** One calendar day of a month's menu; `ymk` is the site's own day number. */
  datatype DayMenu = DayMenu(
    ymk: nat,
    date: string,
    dayName: string,
    hasData: bool,
    meals: seq<Meal>,
    totalCalories: nat)

  /** One scrape run's result for a month. */
  datatype MenuData = MenuData(
    month: string,
    lastUpdated: string,
    scrapeDate: string,
    totalDays: nat,
    days: seq<DayMenu>)

  /** A day without a menu carries no meals and no calories. */
  predicate WellFormedDay(d: DayMenu) {
    !d.hasData ==> d.meals == [] && d.totalCalories == 0
  }

  predicate WellFormedMenu(m: MenuData) {
    && m.totalDays == |m.days|
    && forall i :: 0 <= i < |m.days| ==> WellFormedDay(m.days[i])
  }

  function YmkOf(d: DayMenu): int {
    d.ymk
  }
}

=== FILE: monthly_reactions.dfy ===
/**
 The monthly ranking of app/api/reactions/monthly/route.ts: the five most
 liked and the five most disliked days of a month. The query result (rows
 of the month, newest date first) is the input; JavaScript's stable sort
 is `Order.SortBy`.
 */
module MonthlyReactions {
  import opened Core
  import opened DateUtils
  import opened Order

  datatype ReactionRow = ReactionRow(date: string, likes: int, dislikes: int)

  datatype MonthlyResponse = InvalidMonth | Ranking(topLiked: seq<ReactionRow>, topDisliked: seq<ReactionRow>, month: string)

  const TopCount: nat := 5

  function LikesOf(r: ReactionRow): int {
    r.likes
  }

  function DislikesOf(r: ReactionRow): int {
    r.dislikes
  }

  /** `rows.filter(r => key(r) > 0)` */
  function Positive(rows: seq<ReactionRow>, key: ReactionRow -> int): (r: seq<ReactionRow>)
    ensures forall k :: 0 <= k < |r| ==> key(r[k]) > 0
    ensures forall x :: x in r <==> x in rows && key(x) > 0
    ensures |r| <= |rows|
  {
    if rows == [] then []
    else (if key(rows[0]) > 0 then [rows[0]] else []) + Positive(rows[1..], key)
  }

  /** `.filter(key > 0).sort((a, b) => key(b) - key(a)).slice(0, 5)` */
  function Top(rows: seq<ReactionRow>, key: ReactionRow -> int): seq<ReactionRow> {
    var sorted := SortBy(Positive(rows, key), key, IntGe);
    if |sorted| > TopCount then sorted[..TopCount] else sorted
  }

  /** The rows the ranking leaves out of the sorted positive rows. */
  function Rest(rows: seq<ReactionRow>, key: ReactionRow -> int): (r: seq<ReactionRow>)
    ensures SortBy(Positive(rows, key), key, IntGe) == Top(rows, key) + r
    ensures r != [] ==> |Top(rows, key)| == TopCount
  {
    var sorted := SortBy(Positive(rows, key), key, IntGe);
    if |sorted| > TopCount then sorted[TopCount..] else []
  }

  /** The ranking holds at most five rows, each with a positive count, in non-increasing order, and it
      draws its rows from the positive ones: all of them when there are fewer than five. */
  lemma TopSpec(rows: seq<ReactionRow>, key: ReactionRow -> int)
    ensures |Top(rows, key)| == if |Positive(rows, key)| < TopCount then |Positive(rows, key)| else TopCount
    ensures forall k :: 0 <= k < |Top(rows, key)| ==> key(Top(rows, key)[k]) > 0
    ensures forall i, j :: 0 <= i < j < |Top(rows, key)| ==> key(Top(rows, key)[i]) >= key(Top(rows, key)[j])
    ensures multiset(Top(rows, key)) + multiset(Rest(rows, key)) == multiset(Positive(rows, key))
  {
    var p := Positive(rows, key);
    var sorted := SortBy(p, key, IntGe);
    var top, rest := Top(rows, key), Rest(rows, key);
    SortByPermutes(p, key, IntGe);
    assert multiset(top) + multiset(rest) == multiset(sorted) by {
      assert sorted == top + rest;
    }
    TopPositive(rows, key);
    TopOrdered(rows, key);
  }

  lemma TopPositive(rows: seq<ReactionRow>, key: ReactionRow -> int)
    ensures forall k :: 0 <= k < |Top(rows, key)| ==> key(Top(rows, key)[k]) > 0
  {
    var p := Positive(rows, key);
    var sorted := SortBy(p, key, IntGe);
    var top := Top(rows, key);
    SortByPermutes(p, key, IntGe);
    forall k | 0 <= k < |top| ensures key(top[k]) > 0 {
      assert top[k] == sorted[k];
      assert sorted[k] in multiset(sorted);
      assert sorted[k] in p;
    }
  }

  lemma TopOrdered(rows: seq<ReactionRow>, key: ReactionRow -> int)
    ensures forall i, j :: 0 <= i < j < |Top(rows, key)| ==> key(Top(rows, key)[i]) >= key(Top(rows, key)[j])
  {
    var p := Positive(rows, key);
    var sorted := SortBy(p, key, IntGe);
    var top := Top(rows, key);
    IntOrdersAreTotalPreorders();
    SortBySorted(p, key, IntGe);
    forall i, j | 0 <= i < j < |top| ensures key(top[i]) >= key(top[j]) {
      assert top[i] == sorted[i] && top[j] == sorted[j];
      assert IntGe(key(sorted[i]), key(sorted[j]));
    }
  }

  /** Every positive row the ranking leaves out counts no more than the last row in it. */
  lemma TopLeftOut(rows: seq<ReactionRow>, key: ReactionRow -> int)
    ensures forall x :: x in Rest(rows, key) ==> key(x) <= key(Top(rows, key)[|Top(rows, key)| - 1])
  {
    var p := Positive(rows, key);
    var sorted := SortBy(p, key, IntGe);
    var top, rest := Top(rows, key), Rest(rows, key);
    IntOrdersAreTotalPreorders();
    SortBySpec(p, key, IntGe);
    forall x | x in rest ensures key(x) <= key(top[|top| - 1]) {
      var m :| 0 <= m < |rest| && rest[m] == x;
      assert sorted[|top| + m] == x && sorted[|top| - 1] == top[|top| - 1];
    }
  }

  /** Rows tied on the count keep the query's order: for each count, the ranking's rows with it are the
      first ones of the positive rows with it. */
  lemma TopStable(rows: seq<ReactionRow>, key: ReactionRow -> int)
    ensures forall v :: TiedWith(Top(rows, key), key, IntGe, v) <= TiedWith(Positive(rows, key), key, IntGe, v)
  {
    var p := Positive(rows, key);
    var top, rest := Top(rows, key), Rest(rows, key);
    IntOrdersAreTotalPreorders();
    SortBySpec(p, key, IntGe);
    forall v ensures TiedWith(top, key, IntGe, v) <= TiedWith(p, key, IntGe, v) {
      TiedWithAppend(top, rest, key, IntGe, v);
    }
  }

  /** `GET /api/reactions/monthly?month=`: 400 unless the month is `YYYY-MM`; otherwise both rankings. */
  function Monthly(month: string, rows: seq<ReactionRow>): (r: MonthlyResponse)
    ensures r.InvalidMonth? <==> !IsoMonthShape(month)
    ensures r.Ranking? ==> r.month == month && r.topLiked == Top(rows, LikesOf) && r.topDisliked == Top(rows, DislikesOf)
    ensures r.Ranking? && rows == [] ==> r.topLiked == [] && r.topDisliked == []
  {
    if month == "" || !IsoMonthShape(month) then InvalidMonth
    else if rows == [] then Ranking([], [], month)
    else Ranking(Top(rows, LikesOf), Top(rows, DislikesOf), month)
  }
}

=== FILE: notifications.dfy ===
/**
 The matching logic of scripts/send-favorite-notifications.ts: find today's
 menu in the newest snapshot of the month folder, intersect it with each
 subscribed user's favourite meal ids, and count who gets an e-mail.

 The database rows a user contributes (the user record, the favourites
 with a meal id) and whether sending the mail throws are inputs; the
 snapshot folders are the `DataTree` the snapshot writer produces, and the
 folder's directory listing is a parameter. The mail text is not modelled;
 the meal names in it are title-cased with `Utils.TitleCase`, which is the
 script's own `toTitleCase` (the two definitions are the same).
 */
module Notifications {
  import opened Core
  import opened MenuTypes
  import opened Order
  import opened SnapshotStore

  /** The index of the first day dated `date`: `days.find(d => d.date === date)`. */
  function FindDay(days: seq<DayMenu>, date: string): (r: Option<nat>)
    ensures r.Some? ==> (r.value < |days| && days[r.value].date == date
      && forall j :: 0 <= j < r.value ==> days[j].date != date)
    ensures r.None? <==> forall j :: 0 <= j < |days| ==> days[j].date != date
  {
    if days == [] then None
    else if days[0].date == date then Some(0)
    else match FindDay(days[1..], date)
      case None => None
      case Some(i) => Some(i + 1)
  }

  /** The greatest candidate name: `.filter(menu-*.json).sort().reverse()[0]`. */
  function NewestName(listing: seq<string>): (r: Option<string>)
    ensures r.None? <==> forall n :: n in listing ==> !IsCandidate(n)
    ensures r.Some? ==> r.value in listing && IsCandidate(r.value)
    ensures r.Some? ==> forall n :: n in listing && IsCandidate(n) ==> StrLe(n, r.value)
  {
    var c := Candidates(listing);
    var asc := SortBy(c, Name, StrLe);
    if asc == [] then
      assert forall n :: n in listing ==> !IsCandidate(n) by {
        forall n | n in listing ensures !IsCandidate(n) { assert n !in c; }
      }
      None
    else
      StrLeIsTotalPreorder();
      SortBySpec(c, Name, StrLe);
      assert asc[|asc| - 1] in multiset(c);
      assert forall n :: n in c ==> StrLe(n, asc[|asc| - 1]) by {
        forall n | n in c ensures StrLe(n, asc[|asc| - 1]) {
          assert n in multiset(asc);
          var k :| 0 <= k < |asc| && asc[k] == n;
          if k < |asc| - 1 {
            assert StrLe(Name(asc[k]), Name(asc[|asc| - 1]));
          } else {
            StrLeTotal(n, n);
          }
        }
      }
      Some(asc[|asc| - 1])
  }

  /** `findTodayMenu(today)`: the folder is `today.substring(0, 7)`; the snapshot read is the newest one;
      the day is the first dated today, and only if it has data. */
  function FindTodayMenu(today: string, tree: DataTree, listing: seq<string>): (r: Option<DayMenu>)
    requires Prefix(today, 7) in tree ==> forall n :: n in listing ==> n in tree[Prefix(today, 7)]
    ensures r.Some? ==> r.value.date == today && r.value.hasData
    ensures Prefix(today, 7) !in tree ==> r.None?
    ensures (forall n :: n in listing ==> !IsCandidate(n)) ==> r.None?
    ensures r.Some? ==> (NewestName(listing).Some?
      && r.value in tree[Prefix(today, 7)][NewestName(listing).value].days)
  {
    var month := Prefix(today, 7);
    if month !in tree then None
    else match NewestName(listing)
      case None => None
      case Some(name) =>
        var data := tree[month][name];
        match FindDay(data.days, today)
        case None => None
        case Some(i) => if data.days[i].hasData then Some(data.days[i]) else None
  }

  /** When the newest snapshot has a day dated today with data, that day is found, and it is the first such. */
  lemma FindTodayMenuFound(today: string, tree: DataTree, listing: seq<string>, i: nat)
    requires Prefix(today, 7) in tree && forall n :: n in listing ==> n in tree[Prefix(today, 7)]
    requires NewestName(listing).Some?
    requires var days := tree[Prefix(today, 7)][NewestName(listing).value].days;
      i < |days| && days[i].date == today && days[i].hasData && forall j :: 0 <= j < i ==> days[j].date != today
    ensures FindTodayMenu(today, tree, listing) == Some(tree[Prefix(today, 7)][NewestName(listing).value].days[i])
  {
    var days := tree[Prefix(today, 7)][NewestName(listing).value].days;
    assert FindDay(days, today) == Some(i);
  }

  // ---------------------------------------------------------------- matching

  /** A favourite row; the script only reads rows whose `meal_id` is not null. */
  datatype Favorite = Favorite(mealId: Option<string>, mealName: string)

  function MealIds(meals: seq<Meal>): (r: seq<string>)
    ensures |r| == |meals| && forall k :: 0 <= k < |r| ==> r[k] == meals[k].id
  {
    if meals == [] then [] else [meals[0].id] + MealIds(meals[1..])
  }

  /** `f.mealId && todayMealIds.includes(f.mealId)`: an empty id is falsy. */
  predicate Matches(f: Favorite, todayIds: seq<string>) {
    f.mealId.Some? && f.mealId.value != "" && f.mealId.value in todayIds
  }

  /** `matchedFavIds` */
  function MatchedFavIds(favs: seq<Favorite>, todayIds: seq<string>): (r: seq<string>)
    ensures |r| <= |favs|
  {
    if favs == [] then []
    else (if Matches(favs[0], todayIds) then [favs[0].mealId.value] else []) + MatchedFavIds(favs[1..], todayIds)
  }

  /** An id is matched exactly when some favourite carries it, it is not empty, and today's menu has it. */
  lemma {:induction false} MatchedFavIdsSpec(favs: seq<Favorite>, todayIds: seq<string>)
    ensures forall id :: id in MatchedFavIds(favs, todayIds) <==>
      id != "" && id in todayIds && exists f :: f in favs && f.mealId == Some(id)
  {
    if favs != [] {
      MatchedFavIdsSpec(favs[1..], todayIds);
      assert forall f :: f in favs <==> f == favs[0] || f in favs[1..] by {
        assert favs == [favs[0]] + favs[1..];
      }
    }
  }

  /** `todayMenu.meals.filter(m => matchedFavIds.includes(m.id))` */
  function MatchedMeals(meals: seq<Meal>, ids: seq<string>): (r: seq<Meal>)
    ensures |r| <= |meals|
  {
    if meals == [] then []
    else (if meals[0].id in ids then [meals[0]] else []) + MatchedMeals(meals[1..], ids)
  }

  /** The matched meals are the menu's meals with a matched id, in menu order. */
  lemma {:induction false} MatchedMealsSpec(meals: seq<Meal>, ids: seq<string>)
    ensures forall m :: m in MatchedMeals(meals, ids) <==> m in meals && m.id in ids
    ensures IsSubsequence(MatchedMeals(meals, ids), meals)
  {
    if meals != [] {
      MatchedMealsSpec(meals[1..], ids);
      assert forall m :: m in meals <==> m == meals[0] || m in meals[1..] by {
        assert meals == [meals[0]] + meals[1..];
      }
      var rest := MatchedMeals(meals[1..], ids);
      if meals[0].id in ids {
        assert ([meals[0]] + rest)[1..] == rest;
      } else {
        assert MatchedMeals(meals, ids) == rest;
        SubsequenceOfTail(rest, meals);
      }
    }
  }

  /** Some meal is matched exactly when some favourite id, not empty, is on today's menu. */
  lemma MatchedMealsNonEmpty(meals: seq<Meal>, favs: seq<Favorite>)
    ensures MatchedMeals(meals, MatchedFavIds(favs, MealIds(meals))) != []
        <==> exists f :: f in favs && Matches(f, MealIds(meals))
  {
    var ids := MealIds(meals);
    var matched := MatchedFavIds(favs, ids);
    MatchedFavIdsSpec(favs, ids);
    MatchedMealsSpec(meals, matched);
    if exists f :: f in favs && Matches(f, ids) {
      var f :| f in favs && Matches(f, ids);
      var id := f.mealId.value;
      assert id in matched;
      var k :| 0 <= k < |ids| && ids[k] == id;
      assert meals[k] in MatchedMeals(meals, matched);
    }
    if MatchedMeals(meals, matched) != [] {
      var m := MatchedMeals(meals, matched)[0];
      assert m in MatchedMeals(meals, matched);
      assert m.id in matched;
      var f :| f in favs && f.mealId == Some(m.id);
      assert Matches(f, ids);
    }
  }

  // ---------------------------------------------------------------- per user

  /** A `users` row; an empty `email` stands for a missing one. */
  datatype User = User(name: string, email: string)

  /** What the database holds for one subscribed user, and whether sending the mail throws. */
  datatype Subscriber = Subscriber(user: Option<User>, favorites: seq<Favorite>, sendFails: bool)

  datatype Outcome = Sent(to: string, meals: seq<Meal>) | Skipped | Failed

  /** One pass of the loop body for a subscriber. */
  function UserOutcome(s: Subscriber, todayMeals: seq<Meal>): (o: Outcome)
    ensures o.Sent? ==> s.user.Some? && o.to == s.user.value.email != ""
    ensures o.Sent? ==> o.meals != [] && forall m :: m in o.meals ==> m in todayMeals
    // the mail lists exactly today's meals that some favourite names
    ensures o.Sent? ==> forall m :: m in o.meals <==>
      (m in todayMeals && m.id != "" && exists f :: f in s.favorites && f.mealId == Some(m.id))
    // a user who is not skipped fails exactly when sending throws
    ensures !o.Skipped? ==> (o.Failed? <==> s.sendFails)
    ensures o.Skipped? <==> (s.user.None? || s.user.value.email == ""
      || forall f :: f in s.favorites ==> !Matches(f, MealIds(todayMeals)))
  {
    var favs := WithMealId(s.favorites);
    if s.user.None? || s.user.value.email == "" then Skipped
    else if favs == [] then Skipped
    else
      var ids := MatchedFavIds(favs, MealIds(todayMeals));
      MatchedFavIdsSpec(favs, MealIds(todayMeals));
      MatchedMealsSpec(todayMeals, ids);
      MatchedMealsNonEmpty(todayMeals, favs);
      if ids == [] then Skipped
      else
        assert ids[0] in ids;
        var f :| f in favs && f.mealId == Some(ids[0]);
        assert Matches(f, MealIds(todayMeals));
        if s.sendFails then Failed
      else Sent(s.user.value.email, MatchedMeals(todayMeals, ids))
  }

  /** The rows the query returns: those whose `meal_id` is not null (`isNotNull(favorites.mealId)`). */
  function WithMealId(favs: seq<Favorite>): (r: seq<Favorite>)
    ensures forall f :: f in r <==> f in favs && f.mealId.Some?
  {
    if favs == [] then []
    else (if favs[0].mealId.Some? then [favs[0]] else []) + WithMealId(favs[1..])
  }

  /** `sentCount` and `skipCount` after the loop. */
  function Tally(subs: seq<Subscriber>, todayMeals: seq<Meal>): (r: (nat, nat)) {
    if subs == [] then (0, 0)
    else
      var rest := Tally(subs[1..], todayMeals);
      match UserOutcome(subs[0], todayMeals)
      case Sent(_, _) => (rest.0 + 1, rest.1)
      case Skipped => (rest.0, rest.1 + 1)
      case Failed => rest
  }

  /** How many subscribers end in a thrown error. */
  function Failures(subs: seq<Subscriber>, todayMeals: seq<Meal>): nat {
    if subs == [] then 0
    else (if UserOutcome(subs[0], todayMeals).Failed? then 1 else 0) + Failures(subs[1..], todayMeals)
  }

  /** Every subscriber is counted once at most: sent, skipped and failed add up to the subscribers. */
  lemma {:induction false} TallyAccounts(subs: seq<Subscriber>, todayMeals: seq<Meal>)
    ensures Tally(subs, todayMeals).0 + Tally(subs, todayMeals).1 + Failures(subs, todayMeals) == |subs|
    ensures Tally(subs, todayMeals).0 + Tally(subs, todayMeals).1 <= |subs|
  {
    if subs != [] {
      TallyAccounts(subs[1..], todayMeals);
    }
  }
}

=== FILE: order.dfy ===
/**
 Orderings and the stable sort the source relies on. JavaScript's
 `Array.prototype.sort` is stable; it is modelled as an insertion sort
 by a key and a total preorder on keys, which is stable too.
 */
module Order {

  /** Code-point lexicographic order on strings; a prefix comes first. */
  predicate StrLe(a: string, b: string)
    decreases |a|
  {
    if a == [] then true
    else if b == [] then false
    else if a[0] != b[0] then a[0] < b[0]
    else StrLe(a[1..], b[1..])
  }

  predicate StrGe(a: string, b: string) {
    StrLe(b, a)
  }

  predicate IntLe(a: int, b: int) {
    a <= b
  }

  predicate IntGe(a: int, b: int) {
    a >= b
  }

  lemma {:induction false} StrLeTotal(a: string, b: string)
    ensures StrLe(a, b) || StrLe(b, a)
    decreases |a|
  {
    if a != [] && b != [] && a[0] == b[0] {
      StrLeTotal(a[1..], b[1..]);
    }
  }

  lemma {:induction false} StrLeTransitive(a: string, b: string, c: string)
    requires StrLe(a, b) && StrLe(b, c)
    ensures StrLe(a, c)
    decreases |a|
  {
    if a != [] && b != [] && c != [] && a[0] == b[0] && b[0] == c[0] {
      StrLeTransitive(a[1..], b[1..], c[1..]);
    }
  }

  lemma {:induction false} StrLeAntisymmetric(a: string, b: string)
    requires StrLe(a, b) && StrLe(b, a)
    ensures a == b
    decreases |a|
  {
    if a != [] && b != [] {
      StrLeAntisymmetric(a[1..], b[1..]);
      assert a == [a[0]] + a[1..] && b == [b[0]] + b[1..];
    }
  }

  lemma {:induction false} StrLeReflexive(a: string)
    ensures StrLe(a, a)
    decreases |a|
  {
    if a != [] {
      StrLeReflexive(a[1..]);
    }
  }

  /** Between two different strings exactly one comes first. */
  lemma StrLeStrict(a: string, b: string)
    requires a != b
    ensures StrLe(a, b) <==> !StrLe(b, a)
  {
    StrLeTotal(a, b);
    if StrLe(a, b) && StrLe(b, a) {
      StrLeAntisymmetric(a, b);
      assert false;
    }
  }

  /** `le` orders every pair of keys and is transitive. */
  ghost predicate TotalPreorder<K(!new)>(le: (K, K) -> bool) {
    && (forall a, b :: le(a, b) || le(b, a))
    && (forall a, b, c :: le(a, b) && le(b, c) ==> le(a, c))
  }

  lemma StrLeIsTotalPreorder()
    ensures TotalPreorder(StrLe)
  {
    forall a, b ensures StrLe(a, b) || StrLe(b, a) {
      StrLeTotal(a, b);
    }
    forall a, b, c | StrLe(a, b) && StrLe(b, c) ensures StrLe(a, c) {
      StrLeTransitive(a, b, c);
    }
  }

  lemma StrGeIsTotalPreorder()
    ensures TotalPreorder(StrGe)
  {
    StrLeIsTotalPreorder();
  }

  lemma IntOrdersAreTotalPreorders()
    ensures TotalPreorder(IntLe) && TotalPreorder(IntGe)
  {
  }

  ghost predicate SortedBy<T, K>(s: seq<T>, key: T -> K, le: (K, K) -> bool) {
    forall i, j :: 0 <= i < j < |s| ==> le(key(s[i]), key(s[j]))
  }

  /** `le` in both directions: the sort may not separate these two keys. */
  predicate Tied<K>(le: (K, K) -> bool, a: K, b: K) {
    le(a, b) && le(b, a)
  }

  /** The elements of `s` whose key is tied with `k`, in order. */
  function TiedWith<T, K>(s: seq<T>, key: T -> K, le: (K, K) -> bool, k: K): (r: seq<T>)
    ensures |r| <= |s|
  {
    if s == [] then []
    else (if Tied(le, key(s[0]), k) then [s[0]] else []) + TiedWith(s[1..], key, le, k)
  }

  /** Puts `x` in front of the first element whose key is not below `x`'s. */
  function InsertBy<T, K>(x: T, s: seq<T>, key: T -> K, le: (K, K) -> bool): (r: seq<T>)
    ensures |r| == |s| + 1
  {
    if s == [] then [x]
    else if le(key(x), key(s[0])) then [x] + s
    else [s[0]] + InsertBy(x, s[1..], key, le)
  }

  /** Stable insertion sort by `key` under `le`. */
  function SortBy<T, K>(s: seq<T>, key: T -> K, le: (K, K) -> bool): (r: seq<T>)
    ensures |r| == |s|
  {
    if s == [] then [] else InsertBy(s[0], SortBy(s[1..], key, le), key, le)
  }

  lemma {:induction false} InsertByPermutes<T, K>(x: T, s: seq<T>, key: T -> K, le: (K, K) -> bool)
    ensures multiset(InsertBy(x, s, key, le)) == multiset(s) + multiset{x}
  {
    if s != [] && !le(key(x), key(s[0])) {
      InsertByPermutes(x, s[1..], key, le);
      assert s == [s[0]] + s[1..];
    }
  }

  lemma {:induction false} SortByPermutes<T, K>(s: seq<T>, key: T -> K, le: (K, K) -> bool)
    ensures multiset(SortBy(s, key, le)) == multiset(s)
  {
    if s != [] {
      SortByPermutes(s[1..], key, le);
      InsertByPermutes(s[0], SortBy(s[1..], key, le), key, le);
      assert s == [s[0]] + s[1..];
    }
  }

  lemma {:induction false} InsertBySorted<T, K(!new)>(x: T, s: seq<T>, key: T -> K, le: (K, K) -> bool)
    requires TotalPreorder(le)
    requires SortedBy(s, key, le)
    ensures SortedBy(InsertBy(x, s, key, le), key, le)
  {
    if s != [] && !le(key(x), key(s[0])) {
      var t := InsertBy(x, s[1..], key, le);
      InsertBySorted(x, s[1..], key, le);
      InsertByPermutes(x, s[1..], key, le);
      forall j | 0 <= j < |t| ensures le(key(s[0]), key(t[j])) {
        assert t[j] in multiset(t);
        if t[j] != x {
          assert t[j] in multiset(s[1..]);
          var m :| 0 <= m < |s[1..]| && s[1..][m] == t[j];
          assert s[m + 1] == t[j];
        }
      }
      ConsSorted(s[0], t, key, le);
    } else if s != [] {
      forall j | 0 <= j < |s| ensures le(key(x), key(s[j])) {
        if j > 0 {
          assert le(key(s[0]), key(s[j]));
        }
      }
      ConsSorted(x, s, key, le);
    }
  }

  /** Putting in front of a sorted sequence an element at or below all of it keeps it sorted. */
  lemma ConsSorted<T, K>(h: T, t: seq<T>, key: T -> K, le: (K, K) -> bool)
    requires SortedBy(t, key, le)
    requires forall j :: 0 <= j < |t| ==> le(key(h), key(t[j]))
    ensures SortedBy([h] + t, key, le)
  {
    var r := [h] + t;
    forall i, j | 0 <= i < j < |r| ensures le(key(r[i]), key(r[j])) {
      assert r[j] == t[j - 1];
      if i > 0 {
        assert r[i] == t[i - 1];
      }
    }
  }

  lemma {:induction false} SortBySorted<T, K(!new)>(s: seq<T>, key: T -> K, le: (K, K) -> bool)
    requires TotalPreorder(le)
    ensures SortedBy(SortBy(s, key, le), key, le)
  {
    if s != [] {
      SortBySorted(s[1..], key, le);
      InsertBySorted(s[0], SortBy(s[1..], key, le), key, le);
    }
  }

  lemma {:induction false} TiedWithAppend<T, K>(a: seq<T>, b: seq<T>, key: T -> K, le: (K, K) -> bool, k: K)
    ensures TiedWith(a + b, key, le, k) == TiedWith(a, key, le, k) + TiedWith(b, key, le, k)
    decreases |a|
  {
    if a == [] {
      assert a + b == b;
    } else {
      var ab := a + b;
      assert ab[0] == a[0];
      assert ab[1..] == a[1..] + b;
      var head := if Tied(le, key(a[0]), k) then [a[0]] else [];
      assert TiedWith(ab, key, le, k) == head + TiedWith(a[1..] + b, key, le, k);
      TiedWithAppend(a[1..], b, key, le, k);
      assert TiedWith(a, key, le, k) == head + TiedWith(a[1..], key, le, k);
    }
  }

  /** Inserting `x` in front of its ties keeps every tie group in input order with `x` first. */
  lemma {:induction false} InsertByStable<T, K(!new)>(x: T, s: seq<T>, key: T -> K, le: (K, K) -> bool, k: K)
    requires TotalPreorder(le)
    ensures TiedWith(InsertBy(x, s, key, le), key, le, k)
         == TiedWith([x], key, le, k) + TiedWith(s, key, le, k)
  {
    if s == [] {
    } else if le(key(x), key(s[0])) {
      TiedWithAppend([x], s, key, le, k);
    } else {
      InsertByStable(x, s[1..], key, le, k);
      assert InsertBy(x, s, key, le) == [s[0]] + InsertBy(x, s[1..], key, le);
      TiedWithAppend([s[0]], InsertBy(x, s[1..], key, le), key, le, k);
      TiedWithAppend([s[0]], s[1..], key, le, k);
      assert s == [s[0]] + s[1..];
    }
  }

  /** The sort is stable: the elements tied with any key keep their input order. */
  lemma {:induction false} SortByStable<T, K(!new)>(s: seq<T>, key: T -> K, le: (K, K) -> bool, k: K)
    requires TotalPreorder(le)
    ensures TiedWith(SortBy(s, key, le), key, le, k) == TiedWith(s, key, le, k)
  {
    if s != [] {
      SortByStable(s[1..], key, le, k);
      InsertByStable(s[0], SortBy(s[1..], key, le), key, le, k);
      TiedWithAppend([s[0]], s[1..], key, le, k);
      assert s == [s[0]] + s[1..];
    }
  }

  /** Everything the sort promises, in one place. */
  lemma SortBySpec<T, K(!new)>(s: seq<T>, key: T -> K, le: (K, K) -> bool)
    requires TotalPreorder(le)
    ensures multiset(SortBy(s, key, le)) == multiset(s)
    ensures SortedBy(SortBy(s, key, le), key, le)
    ensures forall k :: TiedWith(SortBy(s, key, le), key, le, k) == TiedWith(s, key, le, k)
  {
    SortByPermutes(s, key, le);
    SortBySorted(s, key, le);
    forall k ensures TiedWith(SortBy(s, key, le), key, le, k) == TiedWith(s, key, le, k) {
      SortByStable(s, key, le, k);
    }
  }
}

=== FILE: rate_limiter.dfy ===
/**
 lib/rate-limiter.ts: a fixed-window limiter per IP address (10 requests
 per 60 s window) and the calendar check used on incoming dates.

 The in-memory store is a map value threaded through the calls, and the
 clock (`Date.now()`, in milliseconds) is a parameter. The date check
 models the JavaScript `Date` constructor's roll-over: years 0 to 99 mean
 1900 to 1999, a month index outside 0..11 moves into a neighbouring year,
 day 0 is the last day of the previous month, and surplus days spill into
 the following months.
 */
module RateLimiter {
  import opened Core
  import opened DateUtils

  const WindowMs: int := 60 * 1000
  const MaxRequests: nat := 10
  /** Above this many stored addresses, expired records are swept. */
  const CleanupThreshold: nat := 1000

  datatype Record = Record(count: nat, resetTime: int)

  type Store = map<string, Record>

  datatype Decision = Decision(allowed: bool, remaining: int, resetIn: int)

  /** A record is expired once the clock is strictly past its reset time. */
  predicate Expired(r: Record, now: int) {
    now > r.resetTime
  }

  /** The sweep over the store when it holds more than 1000 addresses. */
  function Cleanup(store: Store, now: int): (r: Store)
    ensures r.Keys <= store.Keys
    ensures forall k :: k in r ==> r[k] == store[k]
    ensures forall k :: k in store && !Expired(store[k], now) ==> k in r
    ensures |store| <= CleanupThreshold ==> r == store
    ensures |store| > CleanupThreshold ==> forall k :: k in r ==> !Expired(r[k], now)
  {
    if |store| > CleanupThreshold then map k | k in store && !Expired(store[k], now) :: store[k]
    else store
  }

  /** Every stored count lies between 1 and 10. */
  predicate ValidStore(store: Store) {
    forall k :: k in store ==> 1 <= store[k].count <= MaxRequests
  }

  /** `checkRateLimit(ip)` at time `now`: the new store and the answer. The record is read before the sweep.
      The window rules: a new window for an unseen or expired address; otherwise a refusal at 10 that leaves
      the record alone, or one more counted request. `now == resetTime` is still inside the window. */
  function CheckRateLimit(store: Store, ip: string, now: int): (r: (Store, Decision))
    ensures var (s, d) := r;
      && ip in s
      && (forall k :: k in s && k != ip ==> k in store && s[k] == store[k])
      && (ValidStore(store) ==> ValidStore(s))
      && (ip !in store || Expired(store[ip], now) ==>
            d == Decision(true, 9, 60000) && s[ip] == Record(1, now + 60000))
      && (ip in store && !Expired(store[ip], now) ==>
            s[ip].resetTime == store[ip].resetTime && d.resetIn == store[ip].resetTime - now >= 0)
      && (ip in store && !Expired(store[ip], now) && store[ip].count >= 10 ==>
            !d.allowed && d.remaining == 0 && s[ip] == store[ip])
      && (ip in store && !Expired(store[ip], now) && store[ip].count < 10 ==>
            d.allowed && s[ip].count == store[ip].count + 1)
      && (d.allowed ==> d.remaining == 10 - s[ip].count >= 0)
  {
    var record := if ip in store then Some(store[ip]) else None;
    var swept := Cleanup(store, now);
    match record
    case None =>
      (swept[ip := Record(1, now + WindowMs)], Decision(true, MaxRequests - 1, WindowMs))
    case Some(rec) =>
      if Expired(rec, now) then
        (swept[ip := Record(1, now + WindowMs)], Decision(true, MaxRequests - 1, WindowMs))
      else if rec.count >= MaxRequests then
        (swept, Decision(false, 0, rec.resetTime - now))
      else
        (swept[ip := Record(rec.count + 1, rec.resetTime)],
         Decision(true, MaxRequests - (rec.count + 1), rec.resetTime - now))
  }

  /** The answer and the caller's new record depend only on the caller's old record, whatever the sweep does;
      the sweep drops only expired records of other addresses. */
  lemma CleanupKeepsCurrentResult(store: Store, ip: string, now: int)
    ensures var (s, d) := CheckRateLimit(store, ip, now);
      var (s2, d2) := CheckRateLimit(map k | k in store && k == ip :: store[k], ip, now);
      && d == d2 && s[ip] == s2[ip]
      && (forall k :: k in store && k !in s ==> k != ip && Expired(store[k], now))
  {
  }

  /** Requests from one address at the given times, in order: the final store and how many were allowed. */
  function Requests(store: Store, ip: string, times: seq<int>): (Store, nat)
    decreases |times|
  {
    if times == [] then (store, 0)
    else
      var (s, d) := CheckRateLimit(store, ip, times[0]);
      var (s2, n) := Requests(s, ip, times[1..]);
      (s2, n + if d.allowed then 1 else 0)
  }

  /** Inside an open window, no more requests are allowed than the window has left. */
  lemma {:induction false} WindowBound(store: Store, ip: string, times: seq<int>)
    requires ip in store && store[ip].count <= MaxRequests
    requires forall k :: 0 <= k < |times| ==> times[k] <= store[ip].resetTime
    ensures Requests(store, ip, times).1 <= MaxRequests - store[ip].count
  {
    if times != [] {
      var (s, d) := CheckRateLimit(store, ip, times[0]);
      assert s[ip].resetTime == store[ip].resetTime;
      assert d.allowed ==> s[ip].count == store[ip].count + 1;
      assert !d.allowed ==> s[ip].count == store[ip].count;
      WindowBound(s, ip, times[1..]);
    }
  }

  /** A window opened at `t0` allows at most 10 requests up to and including `t0 + 60000`. */
  lemma AtMostTenPerWindow(store: Store, ip: string, times: seq<int>)
    requires |times| >= 1
    requires ip !in store || Expired(store[ip], times[0])
    requires forall k :: 0 <= k < |times| ==> times[k] <= times[0] + WindowMs
    ensures Requests(store, ip, times).1 <= MaxRequests
  {
    var (s, d) := CheckRateLimit(store, ip, times[0]);
    assert s[ip] == Record(1, times[0] + WindowMs);
    WindowBound(s, ip, times[1..]);
  }

  // ---------------------------------------------------------------- isValidDateFormat

  /** Days in the month with ordinal `ord` (year times 12 plus the 0-based month). */
  function DaysInOrdinal(ord: nat): nat {
    DaysInMonth(ord / 12, ord % 12 + 1)
  }

  /** Surplus days spill into the following months. */
  function Roll(ord: nat, d: nat): (r: (nat, nat))
    requires d >= 1
    ensures r.0 >= ord && 1 <= r.1 <= DaysInOrdinal(r.0)
    ensures d <= DaysInOrdinal(ord) ==> r == (ord, d)
    ensures d > DaysInOrdinal(ord) ==> r.0 > ord
    decreases d
  {
    if d <= DaysInOrdinal(ord) then (ord, d) else Roll(ord + 1, d - DaysInOrdinal(ord))
  }

  /** `new Date(year, monthIndex, day)` for the numbers a `\d{4}-\d{2}-\d{2}` string can spell, as a month
      ordinal and a day of that month. */
  function MakeDate(year: nat, monthIndex: int, day: nat): (nat, nat)
    requires -1 <= monthIndex <= 98
  {
    var fullYear := if year <= 99 then 1900 + year else year;
    var ord: nat := fullYear * 12 + monthIndex;
    if day == 0 then (ord - 1, DaysInOrdinal(ord - 1))
    else Roll(ord, day)
  }

  /** `isValidDateFormat(dateStr)` */
  predicate IsValidDateFormat(s: string) {
    && IsoDateShape(s)
    && var c := ParseIsoDate(s);
       DigitsBelow100(s[5..7]);
       var (ord, day) := MakeDate(c.year, c.month - 1, c.day);
       && ord / 12 == c.year           // getFullYear() === year
       && ord % 12 == c.month - 1      // getMonth() === month - 1
       && day == c.day                 // getDate() === day
  }

  lemma DigitsBelow100(s: string)
    requires |s| == 2 && AllDigits(s)
    ensures DigitsValue(s) <= 99
  {
    assert s[..1][..0] == [];
    assert DigitsValue(s[..1]) == DigitValue(s[0]);
  }

  /** The check accepts exactly the `YYYY-MM-DD` strings that name a real Gregorian date with a year of
      at least 100 (smaller years are read as 19xx by `Date` and so never match). */
  lemma IsValidDateFormatSpec(s: string)
    ensures IsValidDateFormat(s) <==>
      IsoDateShape(s) && ParseIsoDate(s).year >= 100 && ValidCalendarDate(ParseIsoDate(s))
  {
    if IsoDateShape(s) {
      var c := ParseIsoDate(s);
      DigitsBelow100(s[5..7]);
      var fullYear := if c.year <= 99 then 1900 + c.year else c.year;
      var ord := fullYear * 12 + (c.month - 1);
      assert ord >= 1199;
      var (o2, d2) := MakeDate(c.year, c.month - 1, c.day);
      if c.year <= 99 {
        assert o2 >= ord - 1;
        assert o2 / 12 >= 1899;
      } else if 1 <= c.month <= 12 {
        assert ord / 12 == c.year && ord % 12 == c.month - 1;
        assert DaysInOrdinal(ord) == DaysInMonth(c.year, c.month);
        if o2 / 12 == c.year && o2 % 12 == c.month - 1 {
          assert o2 == ord;
        }
      }
    }
  }

  /** 29 February 2024 exists. */
  lemma LeapDayExample()
    ensures IsValidDateFormat("2024-02-29")
  {
    var a := "2024-02-29";
    ParsedExample(a, 2024, 2, 29);
    IsValidDateFormatSpec(a);
  }

  /** 29 February 2023 does not. */
  lemma NonLeapDayExample()
    ensures !IsValidDateFormat("2023-02-29")
  {
    var b := "2023-02-29";
    ParsedExample(b, 2023, 2, 29);
    IsValidDateFormatSpec(b);
  }

  /** A two-digit year is read as 19xx by `Date`, so it never passes. */
  lemma SmallYearExample()
    ensures !IsValidDateFormat("0099-01-01")
  {
    var c := "0099-01-01";
    ParsedExample(c, 99, 1, 1);
    IsValidDateFormatSpec(c);
  }

  /** A date string read character by character: its shape and the three numbers it spells. */
  lemma ParsedExample(s: string, y: nat, m: nat, d: nat)
    requires |s| == 10 && s[4] == '-' && s[7] == '-'
    requires forall k :: 0 <= k < 10 && k != 4 && k != 7 ==> IsDigit(s[k])
    requires y == 1000 * DigitValue(s[0]) + 100 * DigitValue(s[1]) + 10 * DigitValue(s[2]) + DigitValue(s[3])
    requires m == 10 * DigitValue(s[5]) + DigitValue(s[6])
    requires d == 10 * DigitValue(s[8]) + DigitValue(s[9])
    ensures IsoDateShape(s) && ParseIsoDate(s) == CalendarDate(y, m, d)
  {
    var ys, ms, ds := s[..4], s[5..7], s[8..];
    assert ys[0] == s[0] && ys[1] == s[1] && ys[2] == s[2] && ys[3] == s[3];
    assert ms[0] == s[5] && ms[1] == s[6];
    assert ds[0] == s[8] && ds[1] == s[9];
    assert AllDigits(ys) && AllDigits(ms) && AllDigits(ds);
    DigitsValueFour(ys);
    DigitsValueTwo(ms);
    DigitsValueTwo(ds);
  }
}

=== FILE: reaction_buttons.dfy ===
/**
 The client side of the like/dislike counters, components/like-dislike-buttons.tsx:
 the reaction a visitor has given a day's menu, the two counters as last
 seen, the loading flag, the debounce clock and the `localStorage` entries
 (a map from key to value). Clicks are transitions of that state; the
 answers the server gives to the POSTs a click sends are a parameter, one
 per request, as is the clock.
 */
module ReactionButtons {
  import opened Core
  import opened Reactions

  /** Clicks closer together than this are ignored. */
  const DebounceMs: int := 300

  /** The two buttons, and the user's reaction when set. */
  datatype Vote = Liked | Disliked

  function VoteName(v: Vote): string {
    match v
    case Liked => "like"
    case Disliked => "dislike"
  }

  /** The POST action that adds a vote, and the one that takes it back. */
  function AddAction(v: Vote): Action {
    if v == Liked then Like else Dislike
  }

  function RemoveAction(v: Vote): Action {
    if v == Liked then RemoveLike else RemoveDislike
  }

  datatype ButtonState = ButtonState(
    userAction: Option<Vote>,
    likeCount: Option<nat>,
    dislikeCount: Option<nat>,
    isLoading: bool,
    lastClickTime: int,
    storage: map<string, string>)

  function StorageKey(menuDate: string): string {
    "reaction_" + menuDate
  }

  /** The stored entry for a reaction: set to its name, or removed when there is none. */
  function Store(storage: map<string, string>, key: string, v: Option<Vote>): (r: map<string, string>)
    ensures forall k :: k != key ==> (k in r <==> k in storage) && (k in r ==> r[k] == storage[k])
    ensures v.Some? ==> key in r && r[key] == VoteName(v.value)
    ensures v.None? ==> key !in r
  {
    match v
    case Some(a) => storage[key := VoteName(a)]
    case None => storage - {key}
  }

  /** The stored entry agrees with the reaction shown. */
  predicate StorageAgrees(s: ButtonState, menuDate: string) {
    Store(s.storage, StorageKey(menuDate), s.userAction) == s.storage
  }

  /** What a click decides before any request is sent: the POST actions in order, the new reaction and the
      optimistic counters (a counter not yet loaded counts as 0). */
  datatype Plan = Plan(apiActions: seq<Action>, newUserAction: Option<Vote>, optimisticLike: nat, optimisticDislike: nat)

  function Floor(n: nat): nat {
    if n == 0 then 0 else n - 1
  }

  function OrZero(n: Option<nat>): nat {
    if n.Some? then n.value else 0
  }

  /** The decision table of a click on `action`: toggle off, new reaction, or switch. The optimistic
      counters are exactly what the server's counters become when it applies the same actions in order to
      the counters shown; the reaction toggles. */
  function Decide(previous: Option<Vote>, likeCount: Option<nat>, dislikeCount: Option<nat>, action: Vote): (p: Plan)
    ensures Counts(p.optimisticLike, p.optimisticDislike) == ApplyAll(Counts(OrZero(likeCount), OrZero(dislikeCount)), p.apiActions)
    ensures p.newUserAction == if previous == Some(action) then None else Some(action)
    ensures previous == Some(action) ==> p.apiActions == [RemoveAction(action)]
    ensures previous == None ==> p.apiActions == [AddAction(action)]
    ensures previous.Some? && previous != Some(action) ==> p.apiActions == [RemoveAction(previous.value), AddAction(action)]
  {
    var like := OrZero(likeCount);
    var dislike := OrZero(dislikeCount);
    var start := Counts(like, dislike);
    if previous == Some(action) then
      assert ApplyAll(start, [RemoveAction(action)]) == Apply(start, RemoveAction(action)) by {
        ApplyAllSingle(start, RemoveAction(action));
      }
      if action == Liked then Plan([RemoveLike], None, Floor(like), dislike)
      else Plan([RemoveDislike], None, like, Floor(dislike))
    else if previous == None then
      ApplyAllSingle(start, AddAction(action));
      if action == Liked then Plan([Like], Some(action), like + 1, dislike)
      else Plan([Dislike], Some(action), like, dislike + 1)
    else
      var prev := previous.value;
      ApplyAllPair(start, RemoveAction(prev), AddAction(action));
      if prev == Liked then Plan([RemoveLike, AddAction(action)], Some(action), Floor(like), dislike + 1)
      else Plan([RemoveDislike, AddAction(action)], Some(action), like + 1, Floor(dislike))
  }

  lemma ApplyAllSingle(c: Counts, a: Action)
    ensures ApplyAll(c, [a]) == Apply(c, a)
  {
    assert [a][1..] == [];
  }

  lemma ApplyAllPair(c: Counts, a: Action, b: Action)
    ensures ApplyAll(c, [a, b]) == Apply(Apply(c, a), b)
  {
    assert [a, b][1..] == [b];
    ApplyAllSingle(Apply(c, a), b);
  }

  /** What the server answers one POST: 429, another status that is or is not `ok`, or a thrown fetch. */
  datatype Response = TooManyRequests | Ok(counts: Counts) | NotOk | Throws

  predicate Fails(r: Response) {
    r.TooManyRequests? || r.Throws?
  }

  /** The loop over the plan's actions: the counters to show at the end, or none when a request failed
      (429 or a thrown fetch). Each `ok` answer replaces the counters; other answers keep them. */
  function Sync(actions: seq<Action>, answers: seq<Response>, final: Counts): (r: Option<Counts>)
    requires |answers| >= |actions|
    ensures r.None? <==> exists k :: 0 <= k < |actions| && Fails(answers[k])
    ensures r.Some? && (forall k :: 0 <= k < |actions| ==> !answers[k].Ok?) ==> r.value == final
    ensures r.Some? ==> r.value == final || exists k :: 0 <= k < |actions| && answers[k] == Ok(r.value)
    ensures r.Some? ==> forall k :: LastOk(answers, |actions|, k) ==> r.value == answers[k].counts
    decreases |actions|
  {
    if actions == [] then Some(final)
    else
      var tail := Sync(actions[1..], answers[1..], if answers[0].Ok? then answers[0].counts else final);
      assert forall k :: 1 <= k < |actions| ==> answers[1..][k - 1] == answers[k];
      assert tail.None? ==> exists k :: 0 <= k < |actions| && Fails(answers[k]) by {
        if tail.None? {
          var k :| 0 <= k < |actions| - 1 && Fails(answers[1..][k]);
          assert Fails(answers[k + 1]);
        }
      }
      assert tail.Some? && tail.value != final && tail.value != (if answers[0].Ok? then answers[0].counts else final) ==>
        exists k :: 0 <= k < |actions| && answers[k] == Ok(tail.value) by {
        if tail.Some? && tail.value != final && tail.value != (if answers[0].Ok? then answers[0].counts else final) {
          var k :| 0 <= k < |actions| - 1 && answers[1..][k] == Ok(tail.value);
          assert answers[k + 1] == Ok(tail.value);
        }
      }
      assert tail.Some? ==> forall k :: LastOk(answers, |actions|, k) ==> tail.value == answers[k].counts by {
        if tail.Some? {
          forall k | LastOk(answers, |actions|, k) ensures tail.value == answers[k].counts {
            if k == 0 {
              assert forall j :: 0 <= j < |actions| - 1 ==> !answers[1..][j].Ok? by {
                forall j | 0 <= j < |actions| - 1 ensures !answers[1..][j].Ok? {
                  assert answers[1..][j] == answers[j + 1];
                }
              }
            } else {
              assert LastOk(answers[1..], |actions| - 1, k - 1) by {
                forall j | k - 1 < j < |actions| - 1 ensures !answers[1..][j].Ok? {
                  assert answers[1..][j] == answers[j + 1];
                }
              }
            }
          }
        }
      }
      if Fails(answers[0]) then None else tail
  }

  /** Answer `k` of the first `n` is `ok` and no later one of them is. */
  predicate LastOk(answers: seq<Response>, n: nat, k: int) {
    0 <= k < n <= |answers| && answers[k].Ok? && forall j :: k < j < n ==> !answers[j].Ok?
  }

  /** `handleReaction(action)` at time `now`, run to its end, with `answers[k]` the answer to the k-th POST. */
  function HandleReaction(s: ButtonState, menuDate: string, action: Vote, now: int, answers: seq<Response>): (r: ButtonState)
    requires |answers| >= 2
    ensures now - s.lastClickTime < DebounceMs ==> r == s
    ensures now - s.lastClickTime >= DebounceMs ==> r.lastClickTime == now
    ensures now - s.lastClickTime >= DebounceMs && !s.isLoading ==> !r.isLoading
    ensures now - s.lastClickTime >= DebounceMs && s.isLoading ==> r == s.(lastClickTime := now)
  {
    if now - s.lastClickTime < DebounceMs then s
    else if s.isLoading then s.(lastClickTime := now)
    else
      var plan := Decide(s.userAction, s.likeCount, s.dislikeCount, action);
      var key := StorageKey(menuDate);
      match Sync(plan.apiActions, answers, Counts(plan.optimisticLike, plan.optimisticDislike))
      case None =>
        // revert the reaction, both counters and the stored entry
        s.(lastClickTime := now, storage := Store(Store(s.storage, key, plan.newUserAction), key, s.userAction))
      case Some(c) =>
        ButtonState(plan.newUserAction, Some(c.likes), Some(c.dislikes), false, now,
          Store(s.storage, key, plan.newUserAction))
  }

  /** An accepted click that every request survives shows the toggled reaction and stores it; the counters
      are the optimistic ones unless the server answered `ok`, and then the last answer's. */
  lemma ClickSucceeds(s: ButtonState, menuDate: string, action: Vote, now: int, answers: seq<Response>)
    requires |answers| >= 2
    requires now - s.lastClickTime >= DebounceMs && !s.isLoading
    requires forall k :: 0 <= k < |Decide(s.userAction, s.likeCount, s.dislikeCount, action).apiActions| ==> !Fails(answers[k])
    ensures var r := HandleReaction(s, menuDate, action, now, answers);
      var p := Decide(s.userAction, s.likeCount, s.dislikeCount, action);
      && r.userAction == (if s.userAction == Some(action) then None else Some(action))
      && StorageAgrees(r, menuDate)
      && (forall k :: k != StorageKey(menuDate) ==> (k in r.storage <==> k in s.storage))
      && ((forall k :: 0 <= k < |p.apiActions| ==> !answers[k].Ok?) ==>
            r.likeCount == Some(p.optimisticLike) && r.dislikeCount == Some(p.optimisticDislike))
      && (forall k :: LastOk(answers, |p.apiActions|, k) ==>
            r.likeCount == Some(answers[k].counts.likes) && r.dislikeCount == Some(answers[k].counts.dislikes))
  {
    var p := Decide(s.userAction, s.likeCount, s.dislikeCount, action);
    var res := Sync(p.apiActions, answers, Counts(p.optimisticLike, p.optimisticDislike));
    assert res.Some?;
  }

  /** On any failure, 429 included, the reaction and both counters are the ones before the click, and a
      stored entry that agreed with the reaction before the click is back as it was. */
  lemma ClickFailsReverts(s: ButtonState, menuDate: string, action: Vote, now: int, answers: seq<Response>)
    requires |answers| >= 2
    requires now - s.lastClickTime >= DebounceMs && !s.isLoading
    requires exists k :: 0 <= k < |Decide(s.userAction, s.likeCount, s.dislikeCount, action).apiActions| && Fails(answers[k])
    ensures var r := HandleReaction(s, menuDate, action, now, answers);
      && r.userAction == s.userAction && r.likeCount == s.likeCount && r.dislikeCount == s.dislikeCount
      && !r.isLoading && r.lastClickTime == now
      && StorageAgrees(r, menuDate)
      && (StorageAgrees(s, menuDate) ==> r.storage == s.storage)
  {
    var key := StorageKey(menuDate);
    var p := Decide(s.userAction, s.likeCount, s.dislikeCount, action);
    var reverted := Store(Store(s.storage, key, p.newUserAction), key, s.userAction);
    assert Store(reverted, key, s.userAction) == reverted;
    if StorageAgrees(s, menuDate) {
      assert reverted == Store(s.storage, key, s.userAction);
    }
  }

  /** A click keeps the stored entry in agreement with the reaction shown. */
  lemma HandleReactionKeepsStorage(s: ButtonState, menuDate: string, action: Vote, now: int, answers: seq<Response>)
    requires |answers| >= 2
    requires StorageAgrees(s, menuDate)
    ensures StorageAgrees(HandleReaction(s, menuDate, action, now, answers), menuDate)
  {
    if now - s.lastClickTime >= DebounceMs && !s.isLoading {
      var p := Decide(s.userAction, s.likeCount, s.dislikeCount, action);
      if exists k :: 0 <= k < |p.apiActions| && Fails(answers[k]) {
        ClickFailsReverts(s, menuDate, action, now, answers);
      } else {
        ClickSucceeds(s, menuDate, action, now, answers);
      }
    }
  }

  /** Starting from no reaction, two accepted clicks on the same button that the server lets through
      leave no reaction and no stored entry. */
  lemma {:induction false} DoubleClickFromNone(s: ButtonState, menuDate: string, action: Vote, t1: int, t2: int,
                                               answers1: seq<Response>, answers2: seq<Response>)
    requires |answers1| >= 2 && |answers2| >= 2
    requires s.userAction == None && !s.isLoading
    requires t1 - s.lastClickTime >= DebounceMs && t2 - t1 >= DebounceMs
    requires !Fails(answers1[0]) && !Fails(answers2[0])
    ensures var s1 := HandleReaction(s, menuDate, action, t1, answers1);
      var s2 := HandleReaction(s1, menuDate, action, t2, answers2);
      && s1.userAction == Some(action)
      && s2.userAction == None
      && StorageKey(menuDate) !in s2.storage
  {
    ClickSucceeds(s, menuDate, action, t1, answers1);
    var s1 := HandleReaction(s, menuDate, action, t1, answers1);
    ClickSucceeds(s1, menuDate, action, t2, answers2);
  }

  /** What the initial `GET /api/reactions` gives: `ok` counters, a non-`ok` status, or a thrown fetch. */
  datatype FetchResult = FetchOk(counts: Counts) | FetchNotOk | FetchThrows

  /** The stored reaction for a date, when it is one of the two names. */
  function StoredVote(storage: map<string, string>, key: string): (r: Option<Vote>)
    ensures r.Some? <==> key in storage && (storage[key] == "like" || storage[key] == "dislike")
    ensures r.Some? ==> storage[key] == VoteName(r.value)
  {
    if key in storage && storage[key] == "like" then Some(Liked)
    else if key in storage && storage[key] == "dislike" then Some(Disliked)
    else None
  }

  /** The effect that runs when the date changes: reset, the stored reaction, then the fetched counters
      (0 and 0 when the fetch throws, still unknown after a non-`ok` status). */
  function LoadInitial(s: ButtonState, menuDate: string, fetched: FetchResult): (r: ButtonState)
    ensures r.userAction == StoredVote(s.storage, StorageKey(menuDate))
    ensures !r.isLoading && r.storage == s.storage && r.lastClickTime == s.lastClickTime
    ensures fetched.FetchOk? ==> r.likeCount == Some(fetched.counts.likes) && r.dislikeCount == Some(fetched.counts.dislikes)
    ensures fetched.FetchNotOk? ==> r.likeCount.None? && r.dislikeCount.None?
    ensures fetched.FetchThrows? ==> r.likeCount == Some(0) && r.dislikeCount == Some(0)
  {
    var reset := s.(userAction := None, likeCount := None, dislikeCount := None, isLoading := false);
    var withStored := reset.(userAction := StoredVote(s.storage, StorageKey(menuDate)));
    match fetched
    case FetchOk(c) => withStored.(likeCount := Some(c.likes), dislikeCount := Some(c.dislikes))
    case FetchNotOk => withStored
    case FetchThrows => withStored.(likeCount := Some(0), dislikeCount := Some(0))
  }

  /** After loading, the reaction agrees with the stored entry exactly when that entry is absent or one of
      the two names. */
  lemma LoadInitialAgrees(s: ButtonState, menuDate: string, fetched: FetchResult)
    ensures StorageAgrees(LoadInitial(s, menuDate, fetched), menuDate) <==>
      (var key := StorageKey(menuDate);
       key !in s.storage || s.storage[key] == "like" || s.storage[key] == "dislike")
  {
    var key := StorageKey(menuDate);
    var r := LoadInitial(s, menuDate, fetched);
    if key in s.storage && s.storage[key] != "like" && s.storage[key] != "dislike" {
      assert key !in Store(r.storage, key, r.userAction);
    } else if key in s.storage {
      assert Store(r.storage, key, r.userAction) == r.storage;
    } else {
      assert Store(r.storage, key, r.userAction) == r.storage;
    }
  }
}

=== FILE: reactions.dfy ===
/**
 The like/dislike counters of app/api/reactions/route.ts. The
 `menu_reactions` table is a map from menu date to its two counters; the
 rate-limiter store and the clock are threaded through, as the route calls
 `checkRateLimit` on every POST. A JSON body field that is missing is the
 empty string here.
 */
module Reactions {
  import opened Core
  import opened DateUtils
  import opened RateLimiter

  datatype Counts = Counts(likes: nat, dislikes: nat)

  type ReactionTable = map<string, Counts>

  datatype Action = Like | Dislike | RemoveLike | RemoveDislike

  /** The action names the route accepts. */
  function ActionName(a: Action): string {
    match a
    case Like => "like"
    case Dislike => "dislike"
    case RemoveLike => "removeLike"
    case RemoveDislike => "removeDislike"
  }

  /** `['like', 'dislike', 'removeLike', 'removeDislike'].includes(action)`, as the action named. */
  function ParseAction(s: string): (r: Option<Action>)
    ensures r.Some? ==> ActionName(r.value) == s
    ensures r.None? ==> forall a: Action :: ActionName(a) != s
  {
    if s == "like" then Some(Like)
    else if s == "dislike" then Some(Dislike)
    else if s == "removeLike" then Some(RemoveLike)
    else if s == "removeDislike" then Some(RemoveDislike)
    else None
  }

  lemma ParseActionName(a: Action)
    ensures ParseAction(ActionName(a)) == Some(a)
  {
  }

  /** The `UPDATE` each action runs; removals stop at 0 (`GREATEST(c - 1, 0)`). */
  function Apply(c: Counts, a: Action): (r: Counts)
    ensures a == Like ==> r.likes == c.likes + 1 && r.dislikes == c.dislikes
    ensures a == Dislike ==> r.dislikes == c.dislikes + 1 && r.likes == c.likes
    ensures a == RemoveLike ==> r.likes == (if c.likes == 0 then 0 else c.likes - 1) && r.dislikes == c.dislikes
    ensures a == RemoveDislike ==> r.dislikes == (if c.dislikes == 0 then 0 else c.dislikes - 1) && r.likes == c.likes
  {
    match a
    case Like => c.(likes := c.likes + 1)
    case Dislike => c.(dislikes := c.dislikes + 1)
    case RemoveLike => c.(likes := if c.likes > 0 then c.likes - 1 else 0)
    case RemoveDislike => c.(dislikes := if c.dislikes > 0 then c.dislikes - 1 else 0)
  }

  /** Adding a reaction and then removing it gives the counters back. */
  lemma ApplyUndo(c: Counts)
    ensures Apply(Apply(c, Like), RemoveLike) == c
    ensures Apply(Apply(c, Dislike), RemoveDislike) == c
  {
  }

  /** The client address: the first `x-forwarded-for` entry, trimmed, or "unknown" without the header. */
  function ClientIp(forwarded: string): string {
    if forwarded == "" then "unknown" else Trim(Before(forwarded, ","))
  }

  datatype PostResponse =
    | TooManyRequests(resetIn: int)                          // 429
    | InvalidDate                                            // 400
    | InvalidAction                                          // 400
    | Updated(counts: Counts, action: Action, remaining: int) // 200

  /** The counters a date has, or none yet. */
  function CountsOf(table: ReactionTable, date: string): Counts {
    if date in table then table[date] else Counts(0, 0)
  }

  /** `POST /api/reactions`: the new table, the new rate-limiter store and the response. */
  function Post(table: ReactionTable, store: Store, now: int, forwarded: string, menuDate: string, action: string)
    : (r: (ReactionTable, Store, PostResponse))
    ensures r.1 == CheckRateLimit(store, ClientIp(forwarded), now).0
    ensures !CheckRateLimit(store, ClientIp(forwarded), now).1.allowed ==>
      r.2 == TooManyRequests(CheckRateLimit(store, ClientIp(forwarded), now).1.resetIn) && r.0 == table
    ensures r.2.InvalidDate? <==> CheckRateLimit(store, ClientIp(forwarded), now).1.allowed && !IsValidDateFormat(menuDate)
    ensures r.2.InvalidAction? <==> (CheckRateLimit(store, ClientIp(forwarded), now).1.allowed && IsValidDateFormat(menuDate)
      && ParseAction(action).None?)
    ensures !r.2.Updated? ==> r.0 == table
    ensures r.2.Updated? ==>
      && Some(r.2.action) == ParseAction(action)
      && r.2.counts == Apply(CountsOf(table, menuDate), r.2.action)
      && r.0 == table[menuDate := r.2.counts]
  {
    var ip := ClientIp(forwarded);
    var (store', limit) := CheckRateLimit(store, ip, now);
    if !limit.allowed then (table, store', TooManyRequests(limit.resetIn))
    else if menuDate == "" || !IsValidDateFormat(menuDate) then (table, store', InvalidDate)
    else match ParseAction(action)
      case None => (table, store', InvalidAction)
      case Some(a) =>
        var row := CountsOf(table, menuDate);   // INSERT ... ON CONFLICT DO NOTHING
        var updated := Apply(row, a);
        (table[menuDate := updated], store', Updated(updated, a, limit.remaining))
  }

  datatype GetResponse = GetInvalidDate | Found(counts: Counts)

  /** `GET /api/reactions?date=`: a date without a row reads as 0 and 0. */
  function Get(table: ReactionTable, date: string): (r: GetResponse)
    ensures r.GetInvalidDate? <==> !IsValidDateFormat(date)
    ensures r.Found? && date !in table ==> r.counts == Counts(0, 0)
    ensures r.Found? && date in table ==> r.counts == table[date]
  {
    if date == "" || !IsValidDateFormat(date) then GetInvalidDate
    else Found(CountsOf(table, date))
  }

  /** What a successful POST answers is what a GET of the same date then reads, and no other date changes. */
  lemma PostThenGet(table: ReactionTable, store: Store, now: int, forwarded: string, menuDate: string, action: string, other: string)
    requires Post(table, store, now, forwarded, menuDate, action).2.Updated?
    ensures var (t, _, resp) := Post(table, store, now, forwarded, menuDate, action);
      && Get(t, menuDate) == Found(resp.counts)
      && (other != menuDate ==> Get(t, other) == Get(table, other))
  {
  }

  /** The counters after a sequence of actions on one date. */
  function ApplyAll(c: Counts, actions: seq<Action>): Counts
    decreases |actions|
  {
    if actions == [] then c else ApplyAll(Apply(c, actions[0]), actions[1..])
  }

  /** The number of likes is at most the number of `like` actions applied on top of the starting count,
      and removals never take it below zero. */
  lemma {:induction false} ApplyAllBounded(c: Counts, actions: seq<Action>)
    ensures ApplyAll(c, actions).likes <= c.likes + Count(actions, Like)
    ensures ApplyAll(c, actions).dislikes <= c.dislikes + Count(actions, Dislike)
    decreases |actions|
  {
    if actions != [] {
      ApplyAllBounded(Apply(c, actions[0]), actions[1..]);
    }
  }

  function Count(actions: seq<Action>, a: Action): nat {
    if actions == [] then 0 else (if actions[0] == a then 1 else 0) + Count(actions[1..], a)
  }
}

=== FILE: scraper.dfy ===
/**
 The monthly menu scraper of lib/scraper.ts, from the decoded page on.

 The page is not parsed here: each day card arrives with the DOM queries
 the scraper makes already evaluated (its text, the date header's link and
 text, the size-5 subtitle, the list links and the red spans). A missing
 `href` attribute is the empty string, as the source's `|| ''` makes it.
 The clock is injected: `today` is the scrape date and `lastUpdated` the
 timestamp text.
 */
module Scraper {
  import opened Core
  import opened MenuTypes
  import opened DateUtils
  import opened Order

  /** The site's "no menu entered" sentence. */
  const NoDataPhrase: string := "Yemekhane yemek bilgileri girilmemi\U{015F}tir"

  /** Marker of the total that includes the main dish. */
  const MainDishMarker: string := "Ana Yemekli"

  const LineBreak: string := "<br>"

  /** An `ul li a` link of a card: its `href` and its inner HTML. */
  datatype Link = Link(href: string, innerHtml: string)

  /** A `.col-md-2` / `.col-md-3` day card with its queries evaluated. */
  datatype Card = Card(
    text: string,          // $card.text()
    headerHref: string,    // href of FONT[size=6] a
    headerText: string,    // text of FONT[size=6], <br> already replaced by a space
    subtitleText: string,  // text of FONT[size=5]
    links: seq<Link>,      // ul li a, in document order
    redSpans: seq<string>) // texts of the red (204, 0, 0) spans, in document order

  datatype ScrapeResult = ScrapeResult(data: MenuData, filename: string)

  // ---------------------------------------------------------------- date header

  /** `(\d{2})\.(\d{2})\.(\d{4})` matches at `i`. */
  predicate DateAt(s: string, i: nat) {
    && i + 10 <= |s|
    && AllDigits(s[i..i + 2]) && s[i + 2] == '.'
    && AllDigits(s[i + 3..i + 5]) && s[i + 5] == '.'
    && AllDigits(s[i + 6..i + 10])
  }

  /** The ISO date `YYYY-MM-DD` spelled by the match at `i`. */
  function IsoAt(s: string, i: nat): (r: string)
    requires DateAt(s, i)
    ensures IsoDateShape(r)
  {
    s[i + 6..i + 10] + "-" + s[i + 3..i + 5] + "-" + s[i..i + 2]
  }

  function FindDateFrom(s: string, i: nat): Option<string>
    decreases |s| - i
  {
    if i + 10 > |s| then None
    else if DateAt(s, i) then Some(IsoAt(s, i))
    else FindDateFrom(s, i + 1)
  }

  /** The leftmost `DD.MM.YYYY` of `s`, rewritten as `YYYY-MM-DD`. */
  function FindDate(s: string): Option<string> {
    FindDateFrom(s, 0)
  }

  lemma {:induction false} FindDateFromSpec(s: string, i: nat)
    ensures FindDateFrom(s, i).None? <==> forall j: nat :: i <= j ==> !DateAt(s, j)
    ensures FindDateFrom(s, i).Some? ==>
      exists j: nat :: i <= j && DateAt(s, j)
        && (forall m: nat :: i <= m < j ==> !DateAt(s, m))
        && FindDateFrom(s, i).value == IsoAt(s, j)
    decreases |s| - i
  {
    if i + 10 > |s| {
    } else if DateAt(s, i) {
    } else {
      FindDateFromSpec(s, i + 1);
      assert forall j: nat :: i <= j && DateAt(s, j) ==> i + 1 <= j;
    }
  }

  /** The date found is the leftmost `DD.MM.YYYY` with day and year swapped around the month;
      nothing is found exactly when no such pattern occurs. */
  lemma FindDateSpec(s: string)
    ensures FindDate(s).None? <==> forall j: nat :: !DateAt(s, j)
    ensures FindDate(s).Some? ==>
      IsoDateShape(FindDate(s).value)
      && (exists j: nat :: DateAt(s, j) && (forall m: nat :: m < j ==> !DateAt(s, m))
           && FindDate(s).value == s[j + 6..j + 10] + "-" + s[j + 3..j + 5] + "-" + s[j..j + 2])
  {
    FindDateFromSpec(s, 0);
  }

  /** The header text as the source reads it: white space collapsed and trimmed. */
  function HeaderDateText(c: Card): string {
    Collapse(c.headerText)
  }

  /** `dateText.split(/\s+/)[1]`, else the subtitle before its first comma, trimmed. */
  function DayName(c: Card): string {
    var ws := Words(HeaderDateText(c));
    if |ws| >= 2 then ws[1] else Trim(Before(c.subtitleText, ","))
  }

  /** A header of a date and a day name gives that name; a header of the date alone falls back to the
      subtitle's text before its first comma, trimmed. */
  lemma DayNameSpec(c: Card, d: string, n: string)
    requires |d| >= 1 && NoSpace(d)
    ensures |n| >= 1 && NoSpace(n) && c.headerText == d + " " + n ==> DayName(c) == n
    ensures c.headerText == d ==> DayName(c) == Trim(Before(c.subtitleText, ","))
  {
    if |n| >= 1 && NoSpace(n) && c.headerText == d + " " + n {
      TwoWords(d, n);
    }
    if c.headerText == d {
      OneWord(d);
    }
  }

  /** The `ymk=` number of the header link; 0 when there is none (the source then drops the card). */
  function Ymk(c: Card): nat {
    match FindKeyDigits(c.headerHref, "ymk=", 0)
    case Some(d) => DigitsValue(d)
    case None => 0
  }

  // ---------------------------------------------------------------- meals

  /** One `ul li a` link: skipped without an `id=<digits>`; otherwise the id, the trimmed text before
      the first `<br>`, and the first number between the first and second `<br>` (0 if none). */
  function ParseMealLink(l: Link): (r: Option<Meal>)
    ensures r.None? <==> forall j: nat :: !KeyDigitsAt(l.href, "id=", j)
    ensures r.Some? ==> |r.value.id| >= 1 && AllDigits(r.value.id) && r.value.category == AnaYemek
  {
    FindKeyDigitsSpec(l.href, "id=", 0);
    match FindKeyDigits(l.href, "id=", 0)
    case None => None
    case Some(id) =>
      Some(Meal(id, Trim(Before(l.innerHtml, LineBreak)), FirstNumberOr(SecondPiece(l.innerHtml, LineBreak), 0), AnaYemek))
  }

  /** The meals of the links that carry an id, in link order. */
  function ParseMeals(links: seq<Link>): (r: seq<Meal>)
    ensures |r| <= |links|
  {
    Somes(ParseMealLink, links)
  }

  /** Every parsed meal comes from a link with an id, and every link with an id gives its meal. */
  lemma {:induction false} ParseMealsSpec(links: seq<Link>)
    ensures forall m :: m in ParseMeals(links) ==> exists l :: l in links && ParseMealLink(l) == Some(m)
    ensures forall l :: l in links && ParseMealLink(l).Some? ==> ParseMealLink(l).value in ParseMeals(links)
  {
    SomesMembers(ParseMealLink, links);
    forall m | m in ParseMeals(links)
      ensures exists l :: l in links && ParseMealLink(l) == Some(m)
    {
      var i :| 0 <= i < |links| && ParseMealLink(links[i]) == Some(m);
      assert links[i] in links;
    }
    forall l | l in links && ParseMealLink(l).Some?
      ensures ParseMealLink(l).value in ParseMeals(links)
    {
      var i :| 0 <= i < |links| && links[i] == l;
    }
  }

  /** No link is dropped exactly when every link carries an id, and then the meals follow the links
      one for one, in link order. */
  lemma {:induction false} ParseMealsInOrder(links: seq<Link>)
    ensures |ParseMeals(links)| == |links| <==> forall l :: l in links ==> ParseMealLink(l).Some?
    ensures (forall l :: l in links ==> ParseMealLink(l).Some?) ==>
      forall i :: 0 <= i < |links| ==> ParseMeals(links)[i] == ParseMealLink(links[i]).value
  {
    if forall l :: l in links ==> ParseMealLink(l).Some? {
      SomesAll(ParseMealLink, links);
    } else {
      var l :| l in links && ParseMealLink(l).None?;
      var i :| 0 <= i < |links| && links[i] == l;
      SomesShorter(ParseMealLink, links, i);
    }
  }

  /** The link the site writes for a meal. */
  function MealLinkFor(m: Meal): Link {
    Link("id=" + m.id, m.name + LineBreak + ShowNat(m.calories) + " Kalori")
  }

  /** A meal whose name is trimmed and free of `<`, and whose id is a digit run, survives being
      written as the site's link and parsed back. */
  lemma MealLinkRoundTrip(m: Meal)
    requires |m.id| >= 1 && AllDigits(m.id) && m.category == AnaYemek
    requires forall k :: 0 <= k < |m.name| ==> m.name[k] != '<'
    requires m.name != [] ==> !IsSpace(m.name[0]) && !IsSpace(m.name[|m.name| - 1])
    ensures ParseMealLink(MealLinkFor(m)) == Some(m)
  {
    var l := MealLinkFor(m);
    MealLinkId(m);
    MealLinkText(m);
    assert ParseMealLink(l) == Some(Meal(m.id, Trim(Before(l.innerHtml, LineBreak)), FirstNumberOr(SecondPiece(l.innerHtml, LineBreak), 0), AnaYemek));
  }

  lemma MealLinkId(m: Meal)
    requires |m.id| >= 1 && AllDigits(m.id)
    ensures FindKeyDigits(MealLinkFor(m).href, "id=", 0) == Some(m.id)
  {
    var h := MealLinkFor(m).href;
    assert h[0..3] == "id=";
    assert h[3] == m.id[0];
    assert KeyDigitsAt(h, "id=", 0);
    assert h[3..3 + |m.id|] == m.id;
    DigitRunEndAt(h, m.id, 3);
  }

  lemma MealLinkText(m: Meal)
    requires forall k :: 0 <= k < |m.name| ==> m.name[k] != '<'
    requires m.name != [] ==> !IsSpace(m.name[0]) && !IsSpace(m.name[|m.name| - 1])
    ensures Trim(Before(MealLinkFor(m).innerHtml, LineBreak)) == m.name
    ensures FirstNumberOr(SecondPiece(MealLinkFor(m).innerHtml, LineBreak), 0) == m.calories
  {
    var tail := ShowNat(m.calories) + " Kalori";
    assert MealLinkFor(m).innerHtml == m.name + LineBreak + tail;
    BeforeAfterFirst(m.name, tail, LineBreak);
    TrimUnchanged(m.name);
    CalorieTail(m.calories);
  }

  lemma CalorieTail(n: nat)
    ensures Before(ShowNat(n) + " Kalori", LineBreak) == ShowNat(n) + " Kalori"
    ensures FirstNumberOr(ShowNat(n) + " Kalori", 0) == n
  {
    var d := ShowNat(n);
    var tail := d + " Kalori";
    assert forall k :: 0 <= k < |tail| ==> tail[k] != '<' by {
      forall k | 0 <= k < |tail| ensures tail[k] != '<' {
        if k < |d| {
          assert tail[k] == d[k];
        }
      }
    }
    BeforeAbsent(tail, LineBreak);
    assert tail[0] == d[0];
    assert KeyDigitsAt(tail, "", 0);
    assert tail[0..|d|] == d;
    assert tail[|d|] == ' ';
    DigitRunEndAt(tail, d, 0);
    ShowNatRoundTrip(n);
  }

  // ---------------------------------------------------------------- total calories

  /** Span `i` carries digits and counts as a total: it is the first span or names the main-dish total. */
  predicate Qualifies(spans: seq<string>, i: nat)
    requires i < |spans|
  {
    FirstDigits(spans[i]).Some? && (Contains(spans[i], MainDishMarker) || i == 0)
  }

  function TotalFrom(spans: seq<string>, i: nat, acc: nat): nat
    requires i <= |spans|
    decreases |spans| - i
  {
    if i == |spans| then acc
    else TotalFrom(spans, i + 1, if Qualifies(spans, i) then DigitsValue(FirstDigits(spans[i]).value) else acc)
  }

  /** The red spans scanned in order, each qualifying span overwriting the total. */
  function TotalCalories(spans: seq<string>): nat {
    TotalFrom(spans, 0, 0)
  }

  lemma {:induction false} TotalFromSpec(spans: seq<string>, i: nat, acc: nat)
    requires i <= |spans|
    ensures (forall j :: i <= j < |spans| ==> !Qualifies(spans, j)) ==> TotalFrom(spans, i, acc) == acc
    ensures forall j :: (i <= j < |spans| && Qualifies(spans, j) && (forall m :: j < m < |spans| ==> !Qualifies(spans, m))
      ==> TotalFrom(spans, i, acc) == DigitsValue(FirstDigits(spans[j]).value))
    decreases |spans| - i
  {
    if i < |spans| {
      TotalFromSpec(spans, i + 1, if Qualifies(spans, i) then DigitsValue(FirstDigits(spans[i]).value) else acc);
    }
  }

  /** The total is the number of the last qualifying span, and 0 when no span qualifies. */
  lemma TotalCaloriesSpec(spans: seq<string>)
    ensures (forall j :: 0 <= j < |spans| ==> !Qualifies(spans, j)) ==> TotalCalories(spans) == 0
    ensures forall j :: (0 <= j < |spans| && Qualifies(spans, j) && (forall m :: j < m < |spans| ==> !Qualifies(spans, m))
      ==> TotalCalories(spans) == DigitsValue(FirstDigits(spans[j]).value))
  {
    TotalFromSpec(spans, 0, 0);
  }

  // ---------------------------------------------------------------- cards

  predicate HasData(c: Card) {
    !Contains(c.text, NoDataPhrase)
  }

  /** One card: dropped when its header link has no non-zero `ymk` or its header no date. */
  function ParseCard(c: Card): (r: Option<DayMenu>)
    ensures r.None? <==> Ymk(c) == 0 || FindDate(HeaderDateText(c)).None?
    ensures r.Some? ==>
      && WellFormedDay(r.value)
      && r.value.dayName == DayName(c)
      && r.value.ymk == Ymk(c) >= 1
      && Some(r.value.date) == FindDate(HeaderDateText(c))
      && IsoDateShape(r.value.date)
      && r.value.hasData == HasData(c)
      && (r.value.hasData ==> |r.value.meals| <= |c.links|)
    ensures r.Some? && r.value.hasData ==>
      r.value.meals == ParseMeals(c.links) && r.value.totalCalories == TotalCalories(c.redSpans)
    ensures r.Some? && !r.value.hasData ==> r.value.meals == [] && r.value.totalCalories == 0
  {
    var hasData := HasData(c);
    var ymk := Ymk(c);
    var date := FindDate(HeaderDateText(c));
    FindDateSpec(HeaderDateText(c));
    if date.None? || ymk == 0 then None
    else
      Some(DayMenu(
        ymk, date.value, DayName(c), hasData,
        if hasData then ParseMeals(c.links) else [],
        if hasData then TotalCalories(c.redSpans) else 0))
  }

  /** The kept days in document order. */
  function KeptDays(cards: seq<Card>): (days: seq<DayMenu>)
    ensures |days| <= |cards|
    ensures forall d :: d in days ==> WellFormedDay(d) && d.ymk >= 1 && IsoDateShape(d.date)
  {
    SomesMembers(ParseCard, cards);
    Somes(ParseCard, cards)
  }

  /** The kept days are exactly the days of the cards that parse, and the first of them is the day of
      the first card that parses. */
  lemma {:induction false} KeptDaysSpec(cards: seq<Card>)
    ensures forall d :: d in KeptDays(cards) <==> exists i :: 0 <= i < |cards| && ParseCard(cards[i]) == Some(d)
    ensures KeptDays(cards) != [] ==>
      exists i :: (0 <= i < |cards| && ParseCard(cards[i]) == Some(KeptDays(cards)[0])
        && forall j :: 0 <= j < i ==> ParseCard(cards[j]).None?)
  {
    SomesMembers(ParseCard, cards);
    if KeptDays(cards) != [] {
      var i := SomesFirst(ParseCard, cards);
    }
  }

  /** `menu-<month>-<YYYYMMDD>.json` */
  function LegacyFilename(month: string, today: CalendarDate): string {
    "menu-" + month + "-" + CompactDate(today)
      + ".json"
  }

  /** `YYYYMMDD` of the scrape date. */
  function CompactDate(today: CalendarDate): string {
    ShowNat(today.year) + Pad2(today.month) + Pad2(today.day)
  }

  lemma SortedDaysWellFormed(days: seq<DayMenu>, sorted: seq<DayMenu>)
    requires forall d :: d in days ==> WellFormedDay(d)
    requires multiset(sorted) == multiset(days)
    ensures forall i :: 0 <= i < |sorted| ==> WellFormedDay(sorted[i])
  {
    forall i | 0 <= i < |sorted| ensures WellFormedDay(sorted[i]) {
      assert sorted[i] in multiset(days);
    }
  }

  /** `scrapeFullMonth()` from the evaluated day cards on. */
  function ScrapeFullMonth(cards: seq<Card>, today: CalendarDate, lastUpdated: string): (r: ScrapeResult)
    requires ValidCalendarDate(today)
    ensures WellFormedMenu(r.data)
    ensures r.data.totalDays == |KeptDays(cards)|
    ensures multiset(r.data.days) == multiset(KeptDays(cards))
    ensures SortedBy(r.data.days, YmkOf, IntLe)
    ensures forall k :: TiedWith(r.data.days, YmkOf, IntLe, k) == TiedWith(KeptDays(cards), YmkOf, IntLe, k)
    ensures r.data.month == (if KeptDays(cards) == [] then "" else KeptDays(cards)[0].date[..7])
    ensures r.data.scrapeDate == GetTodayDate(today)
    ensures r.data.lastUpdated == lastUpdated
    ensures r.filename == LegacyFilename(r.data.month, today)
  {
    var days := KeptDays(cards);
    var month := if days == [] then "" else days[0].date[..7];
    var sorted := SortBy(days, YmkOf, IntLe);
    IntOrdersAreTotalPreorders();
    SortBySpec(days, YmkOf, IntLe);
    SortedDaysWellFormed(days, sorted);
    ScrapeResult(MenuData(month, lastUpdated, GetTodayDate(today), |days|, sorted), LegacyFilename(month, today))
  }

  /** The legacy file name carries the scrape date where the loader's `parseScrapeDate` looks for it. */
  lemma LegacyFilenameParsesBack(month: string, today: CalendarDate)
    requires IsoMonthShape(month) && 1000 <= today.year <= 9999 && 1 <= today.month <= 12 && 1 <= today.day <= 31
    ensures |CompactDate(today)| == 8 && AllDigits(CompactDate(today))
    ensures ParseScrapeDate(LegacyFilename(month, today)) == Some(CompactDate(today))
  {
    var c := CompactDate(today);
    var f := LegacyFilename(month, today);
    assert |ShowNat(today.year)| == 4;
    assert |c| == 8;
    assert AllDigits(c) by {
      assert forall k :: 0 <= k < 4 ==> c[k] == ShowNat(today.year)[k];
      assert forall k :: 4 <= k < 6 ==> c[k] == Pad2(today.month)[k - 4];
      assert forall k :: 6 <= k < 8 ==> c[k] == Pad2(today.day)[k - 6];
    }
    assert f == "menu-" + month + "-" + c + ".json";
    assert f[0..5] == "menu-";
    assert f[5..9] == month[..4] && f[9] == month[4] && f[10..12] == month[5..];
    assert f[12] == '-';
    assert f[13..21] == c;
    assert f[21..26] == ".json";
    assert ScrapeNameAt(f, 0);
  }

  /** A header reading "03.11.2025 Pazartesi" is dated 3 November 2025. */
  lemma FindDateExample()
    ensures FindDate("03.11.2025 Pazartesi") == Some("2025-11-03")
  {
    var s := "03.11.2025 Pazartesi";
    assert AllDigits(s[0..2]) && AllDigits(s[3..5]) && AllDigits(s[6..10]);
    assert DateAt(s, 0);
    assert s[6..10] == "2025" && s[3..5] == "11" && s[0..2] == "03";
    assert IsoAt(s, 0) == "2025-11-03";
  }
}

=== FILE: snapshot_store.dfy ===
/**
 The snapshot writer of scripts/scrape-menu.ts: one scrape result is saved
 as `<month>/menu-<YYYYMMDD>.json` under the data directory, and the month
 folder is then pruned to its five newest `menu-*.json` files.

 The file system is a map from folder name to the folder's files, and a
 folder a map from file name to the `MenuData` it holds; JSON encoding is
 not modelled, so a file holds the scrape's `MenuData` itself (which has no
 `_filename` part: the file name travels beside it in `ScrapeResult`). The
 order in which the directory is listed is the file system's, so it is a
 parameter. The empty month names the data directory itself, as joining an
 empty path segment does.
 */
module SnapshotStore {
  import opened Core
  import opened MenuTypes
  import opened Order
  import opened Scraper

  type Folder = map<string, MenuData>
  type DataTree = map<string, Folder>

  /** How many `menu-*.json` files a month folder keeps. */
  const KeepNewest: nat := 5

  /** `menu-${scrapeDate.replace(/-/g, '')}.json` */
  function SnapshotName(scrapeDate: string): (r: string)
    ensures IsCandidate(r)
    ensures forall k :: 5 <= k < |r| - 5 ==> r[k] != '-'
  {
    var r := "menu-" + RemoveChar(scrapeDate, '-') + ".json";
    assert r[..5] == "menu-" && r[|r| - 5..] == ".json";
    r
  }

  /** The name depends only on the digits of the date: an ISO date gives `menu-YYYYMMDD.json`. */
  lemma SnapshotNameOfIsoDate(d: string)
    requires DateUtils.IsoDateShape(d)
    ensures SnapshotName(d) == "menu-" + d[..4] + d[5..7] + d[8..] + ".json"
    ensures |SnapshotName(d)| == 18
  {
    var a, b, c := d[..4], d[5..7], d[8..];
    assert d == a + ("-" + (b + ("-" + c)));
    forall k | 0 <= k < |a| ensures a[k] != '-' { assert IsDigit(a[k]); }
    forall k | 0 <= k < |b| ensures b[k] != '-' { assert IsDigit(b[k]); }
    forall k | 0 <= k < |c| ensures c[k] != '-' { assert IsDigit(c[k]); }
    RemoveCharAbsent(a, '-');
    RemoveCharAbsent(b, '-');
    RemoveCharAbsent(c, '-');
    assert RemoveChar("-", '-') == "";
    RemoveCharAppend("-", c, '-');
    RemoveCharAppend(b, "-" + c, '-');
    RemoveCharAppend("-", b + ("-" + c), '-');
    RemoveCharAppend(a, "-" + (b + ("-" + c)), '-');
    assert RemoveChar(d, '-') == a + (b + c);
    assert |d[..4] + d[5..7] + d[8..]| == 8;
  }

  /** `fs.mkdirSync` when needed, then `fs.writeFileSync` (which overwrites). */
  function WriteSnapshot(tree: DataTree, month: string, name: string, data: MenuData): (r: DataTree)
    ensures r.Keys == tree.Keys + {month}
    ensures name in r[month] && r[month][name] == data
    ensures forall m :: m in tree && m != month ==> r[m] == tree[m]
    ensures r[month].Keys == (if month in tree then tree[month].Keys else {}) + {name}
    ensures forall n :: month in tree && n in tree[month] && n != name ==> r[month][n] == tree[month][n]
  {
    var folder := if month in tree then tree[month] else map[];
    tree[month := folder[name := data]]
  }

  /** Writing the same snapshot twice leaves the tree as one write does. */
  lemma WriteSnapshotIdempotent(tree: DataTree, month: string, name: string, data: MenuData)
    ensures WriteSnapshot(WriteSnapshot(tree, month, name, data), month, name, data)
         == WriteSnapshot(tree, month, name, data)
  {
    var once := WriteSnapshot(tree, month, name, data);
    var twice := WriteSnapshot(once, month, name, data);
    assert twice[month] == once[month];
    assert twice.Keys == once.Keys;
  }

  // ---------------------------------------------------------------- pruning

  /** The files the prune looks at: `file.endsWith('.json') && file.startsWith('menu-')`. */
  predicate IsCandidate(name: string) {
    EndsWith(name, ".json") && StartsWith(name, "menu-")
  }

  function Candidates(listing: seq<string>): (r: seq<string>)
    ensures forall k :: 0 <= k < |r| ==> IsCandidate(r[k])
    ensures forall n :: n in r <==> n in listing && IsCandidate(n)
    ensures |r| <= |listing|
  {
    if listing == [] then []
    else (if IsCandidate(listing[0]) then [listing[0]] else []) + Candidates(listing[1..])
  }

  function Name(n: string): string {
    n
  }

  /** The candidates sorted newest first: `b.name.localeCompare(a.name)`. */
  function NewestFirst(listing: seq<string>): seq<string> {
    SortBy(Candidates(listing), Name, StrGe)
  }

  /** `files.slice(5)` when there are more than five. */
  function ToDelete(listing: seq<string>): seq<string> {
    var s := NewestFirst(listing);
    if |s| > KeepNewest then s[KeepNewest..] else []
  }

  /** The candidates that survive. */
  function KeptCandidates(listing: seq<string>): seq<string> {
    var s := NewestFirst(listing);
    if |s| > KeepNewest then s[..KeepNewest] else s
  }

  /** The folder once the names to delete are unlinked. */
  function Prune(folder: Folder, listing: seq<string>): (r: Folder)
    ensures r.Keys <= folder.Keys
    ensures forall n :: n in r ==> r[n] == folder[n]
    ensures forall n :: n in folder && !IsCandidate(n) ==> n in r
  {
    PruneSpec(listing);
    folder - set n | n in ToDelete(listing)
  }

  lemma NewestFirstSpec(listing: seq<string>)
    ensures multiset(NewestFirst(listing)) == multiset(Candidates(listing))
    ensures forall i, j :: 0 <= i < j < |NewestFirst(listing)| ==> StrLe(NewestFirst(listing)[j], NewestFirst(listing)[i])
  {
    StrGeIsTotalPreorder();
    SortBySpec(Candidates(listing), Name, StrGe);
  }

  /** Only candidates are deleted; the kept and the deleted candidates together are all the candidates;
      exactly `min(5, n)` are kept; nothing goes with five or fewer; and every deleted name is
      lexicographically at most every kept one. */
  lemma PruneSpec(listing: seq<string>)
    ensures forall n :: n in ToDelete(listing) ==> n in listing && IsCandidate(n)
    ensures multiset(KeptCandidates(listing)) + multiset(ToDelete(listing)) == multiset(Candidates(listing))
    ensures |KeptCandidates(listing)| == if |Candidates(listing)| < KeepNewest then |Candidates(listing)| else KeepNewest
    ensures |Candidates(listing)| <= KeepNewest ==> ToDelete(listing) == []
    ensures forall d, k :: d in ToDelete(listing) && k in KeptCandidates(listing) ==> StrLe(d, k)
  {
    var s := NewestFirst(listing);
    NewestFirstSpec(listing);
    if |s| > KeepNewest {
      assert s == s[..KeepNewest] + s[KeepNewest..];
      forall d, k | d in s[KeepNewest..] && k in s[..KeepNewest] ensures StrLe(d, k) {
        var a :| 0 <= a < |s[KeepNewest..]| && s[KeepNewest..][a] == d;
        var b :| 0 <= b < |s[..KeepNewest]| && s[..KeepNewest][b] == k;
        assert s[b] == k && s[KeepNewest + a] == d;
      }
    }
    forall n | n in ToDelete(listing) ensures n in listing && IsCandidate(n) {
      assert n in multiset(s);
    }
  }

  /** For a listing of the folder's distinct names, a name stays exactly when it is not a candidate
      or is among the kept candidates. */
  lemma PruneFolderSpec(folder: Folder, listing: seq<string>)
    requires forall n :: n in listing <==> n in folder
    requires forall i, j :: 0 <= i < j < |listing| ==> listing[i] != listing[j]
    ensures forall n :: n in Prune(folder, listing) <==> n in folder && (!IsCandidate(n) || n in KeptCandidates(listing))
  {
    PruneSpec(listing);
    var c := Candidates(listing);
    CandidatesDistinct(listing);
    forall n | n in folder && IsCandidate(n)
      ensures n in ToDelete(listing) <==> n !in KeptCandidates(listing)
    {
      assert n in c;
      assert multiset(c)[n] == 1 by { DistinctCount(c, n); }
    }
  }

  lemma {:induction false} CandidatesDistinct(listing: seq<string>)
    requires forall i, j :: 0 <= i < j < |listing| ==> listing[i] != listing[j]
    ensures forall i, j :: 0 <= i < j < |Candidates(listing)| ==> Candidates(listing)[i] != Candidates(listing)[j]
  {
    if listing != [] {
      CandidatesDistinct(listing[1..]);
      assert listing[0] !in listing[1..];
    }
  }

  lemma {:induction false} DistinctCount(s: seq<string>, x: string)
    requires forall i, j :: 0 <= i < j < |s| ==> s[i] != s[j]
    requires x in s
    ensures multiset(s)[x] == 1
  {
    if s[0] == x {
      assert x !in s[1..];
      assert s == [s[0]] + s[1..];
    } else {
      DistinctCount(s[1..], x);
      assert s == [s[0]] + s[1..];
    }
  }

  // ---------------------------------------------------------------- the run

  /** `main()` once the scrape succeeded: save the snapshot, then prune its folder when the month is
      non-empty. `listing` is the folder's directory listing after the write. */
  function SaveAndPrune(tree: DataTree, r: ScrapeResult, listing: seq<string>): (t: DataTree)
    requires forall n :: n in listing <==> n in WriteSnapshot(tree, r.data.month, SnapshotName(r.data.scrapeDate), r.data)[r.data.month]
    ensures t.Keys == tree.Keys + {r.data.month}
    ensures forall m :: m in tree && m != r.data.month ==> t[m] == tree[m]
    ensures r.data.month == "" ==> t == WriteSnapshot(tree, r.data.month, SnapshotName(r.data.scrapeDate), r.data)
    ensures forall n :: n in t[r.data.month] ==> n == SnapshotName(r.data.scrapeDate) || (r.data.month in tree && n in tree[r.data.month])
  {
    var name := SnapshotName(r.data.scrapeDate);
    var written := WriteSnapshot(tree, r.data.month, name, r.data);
    if r.data.month == "" then written
    else written[r.data.month := Prune(written[r.data.month], listing)]
  }

  /** For a non-empty month the folder keeps, of the written files, every non-candidate and exactly the
      five newest candidates of the listing. */
  lemma SaveAndPruneKeepsNewest(tree: DataTree, r: ScrapeResult, listing: seq<string>)
    requires forall n :: n in listing <==> n in WriteSnapshot(tree, r.data.month, SnapshotName(r.data.scrapeDate), r.data)[r.data.month]
    requires forall i, j :: 0 <= i < j < |listing| ==> listing[i] != listing[j]
    requires r.data.month != ""
    ensures var written := WriteSnapshot(tree, r.data.month, SnapshotName(r.data.scrapeDate), r.data);
      forall n :: n in SaveAndPrune(tree, r, listing)[r.data.month] <==>
        n in written[r.data.month] && (!IsCandidate(n) || n in KeptCandidates(listing))
  {
    PruneFolderSpec(WriteSnapshot(tree, r.data.month, SnapshotName(r.data.scrapeDate), r.data)[r.data.month], listing);
  }

  // ---------------------------------------------------------------- summary

  /** `days.filter(d => d.hasData).length` */
  function DaysWithData(days: seq<DayMenu>): nat {
    if days == [] then 0 else (if days[0].hasData then 1 else 0) + DaysWithData(days[1..])
  }

  /** `days.reduce((sum, d) => sum + d.meals.length, 0)` */
  function TotalMeals(days: seq<DayMenu>): nat {
    if days == [] then 0 else |days[0].meals| + TotalMeals(days[1..])
  }

  /** Both counts add up over a split of the days, so they do not depend on how the days are grouped. */
  lemma {:induction false} SummaryAppend(a: seq<DayMenu>, b: seq<DayMenu>)
    ensures DaysWithData(a + b) == DaysWithData(a) + DaysWithData(b)
    ensures TotalMeals(a + b) == TotalMeals(a) + TotalMeals(b)
  {
    if a == [] {
      assert a + b == b;
    } else {
      assert (a + b)[1..] == a[1..] + b;
      SummaryAppend(a[1..], b);
    }
  }

  /** At most every day has data, and well-formed days without data contribute no meals. */
  lemma {:induction false} SummaryBounds(days: seq<DayMenu>)
    ensures DaysWithData(days) <= |days|
    ensures (forall i :: 0 <= i < |days| ==> WellFormedDay(days[i])) && DaysWithData(days) == 0 ==> TotalMeals(days) == 0
  {
    if days != [] {
      SummaryBounds(days[1..]);
      if forall i :: 0 <= i < |days| ==> WellFormedDay(days[i]) {
        assert WellFormedDay(days[0]);
        assert forall i :: 0 <= i < |days[1..]| ==> WellFormedDay(days[1..][i]) by {
          forall i | 0 <= i < |days[1..]| ensures WellFormedDay(days[1..][i]) {
            assert days[1..][i] == days[i + 1];
          }
        }
      }
    }
  }
}

=== FILE: utils.dfy ===
/**
 `toTitleCase` of lib/utils.ts: lower-case the whole text with Turkish
 rules, then upper-case every match of `/(?:^|\s)\S/g`.

 The locale library's case mapping is replaced by an explicit table over
 ASCII and the Turkish alphabet (with the circumflex vowels); every other
 character maps to itself.
 */
module Utils {
  import opened Core

  /** `toLocaleLowerCase('tr-TR')` of one character. */
  function Lower(c: char): char {
    if c == 'I' then '\U{0131}'            // I -> dotless ı
    else if c == '\U{0130}' then 'i'       // İ -> i
    else if 'A' <= c <= 'Z' then ((c as int) + 32) as char
    else if c == '\U{00C7}' then '\U{00E7}'  // Ç ç
    else if c == '\U{011E}' then '\U{011F}'  // Ğ ğ
    else if c == '\U{00D6}' then '\U{00F6}'  // Ö ö
    else if c == '\U{015E}' then '\U{015F}'  // Ş ş
    else if c == '\U{00DC}' then '\U{00FC}'  // Ü ü
    else if c == '\U{00C2}' then '\U{00E2}'  // Â â
    else if c == '\U{00CE}' then '\U{00EE}'  // Î î
    else if c == '\U{00DB}' then '\U{00FB}'  // Û û
    else c
  }

  /** `toLocaleUpperCase('tr-TR')` of one character. */
  function Upper(c: char): char {
    if c == 'i' then '\U{0130}'            // i -> dotted İ
    else if c == '\U{0131}' then 'I'       // ı -> I
    else if 'a' <= c <= 'z' then ((c as int) - 32) as char
    else if c == '\U{00E7}' then '\U{00C7}'
    else if c == '\U{011F}' then '\U{011E}'
    else if c == '\U{00F6}' then '\U{00D6}'
    else if c == '\U{015F}' then '\U{015E}'
    else if c == '\U{00FC}' then '\U{00DC}'
    else if c == '\U{00E2}' then '\U{00C2}'
    else if c == '\U{00EE}' then '\U{00CE}'
    else if c == '\U{00FB}' then '\U{00DB}'
    else c
  }

  function LowerAll(s: string): (r: string)
    ensures |r| == |s|
    ensures forall i :: 0 <= i < |s| ==> r[i] == Lower(s[i])
  {
    if s == [] then [] else [Lower(s[0])] + LowerAll(s[1..])
  }

  /** Replacement of `/(?:^|\s)\S/g` from position `i` on, each match upper-cased.
      A match is `^\S` at position 0 or a space followed by a non-space; the scan
      resumes right after each match, as a global regular expression does. */
  function UpperMatchesFrom(t: string, i: nat): (r: string)
    requires i <= |t|
    ensures |r| == |t| - i
    decreases |t| - i
  {
    if i == |t| then []
    else if i == 0 && !IsSpace(t[0]) then [Upper(t[0])] + UpperMatchesFrom(t, 1)
    else if IsSpace(t[i]) && i + 1 < |t| && !IsSpace(t[i + 1]) then
      [Upper(t[i]), Upper(t[i + 1])] + UpperMatchesFrom(t, i + 2)
    else [t[i]] + UpperMatchesFrom(t, i + 1)
  }

  /** `toTitleCase(str)` */
  function TitleCase(s: string): string {
    UpperMatchesFrom(LowerAll(s), 0)
  }

  /** Position `i` starts a word: a non-space at the front or right after a space. */
  predicate WordStart(s: string, i: nat)
    requires i < |s|
  {
    !IsSpace(s[i]) && (i == 0 || IsSpace(s[i - 1]))
  }

  lemma CaseMappingKeepsSpaces(c: char)
    ensures IsSpace(Lower(c)) <==> IsSpace(c)
    ensures IsSpace(Upper(c)) <==> IsSpace(c)
    ensures IsSpace(c) ==> Upper(c) == c && Lower(c) == c
  {
  }

  lemma CaseMappingStable(c: char)
    ensures Lower(Lower(c)) == Lower(c)
    ensures Lower(Upper(Lower(c))) == Lower(c)
  {
  }

  lemma {:induction false} UpperMatchesAt(t: string, i: nat, k: nat)
    requires i <= k < |t|
    requires i > 0 ==> (IsSpace(t[i - 1]) ==> IsSpace(t[i]))
    ensures UpperMatchesFrom(t, i)[k - i] == (if WordStart(t, k) then Upper(t[k]) else t[k])
    decreases |t| - i
  {
    var r := UpperMatchesFrom(t, i);
    if i == 0 && !IsSpace(t[0]) {
      if k > 0 {
        UpperMatchesAt(t, 1, k);
        assert r[k - i] == UpperMatchesFrom(t, 1)[k - 1];
      }
    } else if IsSpace(t[i]) && i + 1 < |t| && !IsSpace(t[i + 1]) {
      if k == i {
        CaseMappingKeepsSpaces(t[i]);
      } else if k > i + 1 {
        UpperMatchesAt(t, i + 2, k);
        assert r[k - i] == UpperMatchesFrom(t, i + 2)[k - (i + 2)];
      }
    } else {
      if k > i {
        UpperMatchesAt(t, i + 1, k);
        assert r[k - i] == UpperMatchesFrom(t, i + 1)[k - (i + 1)];
      }
    }
  }

  /** Each character of the result is the Turkish upper case of the lower-cased input character
      where a word starts, and the lower-cased input character everywhere else. */
  lemma TitleCaseSpec(s: string)
    ensures |TitleCase(s)| == |s|
    ensures forall k :: 0 <= k < |s| ==>
      TitleCase(s)[k] == (if WordStart(s, k) then Upper(Lower(s[k])) else Lower(s[k]))
  {
    var t := LowerAll(s);
    forall k | 0 <= k < |s|
      ensures WordStart(t, k) <==> WordStart(s, k)
      ensures TitleCase(s)[k] == (if WordStart(t, k) then Upper(t[k]) else t[k])
    {
      UpperMatchesAt(t, 0, k);
      CaseMappingKeepsSpaces(s[k]);
      if k > 0 {
        CaseMappingKeepsSpaces(s[k - 1]);
      }
    }
  }

  /** White space stays where it was and is not changed. */
  lemma TitleCaseKeepsSpaces(s: string)
    ensures |TitleCase(s)| == |s|
    ensures forall k :: 0 <= k < |s| ==> (IsSpace(TitleCase(s)[k]) <==> IsSpace(s[k]))
    ensures forall k :: 0 <= k < |s| && IsSpace(s[k]) ==> TitleCase(s)[k] == s[k]
  {
    TitleCaseSpec(s);
    forall k | 0 <= k < |s|
      ensures IsSpace(TitleCase(s)[k]) <==> IsSpace(s[k])
      ensures IsSpace(s[k]) ==> TitleCase(s)[k] == s[k]
    {
      CaseMappingKeepsSpaces(s[k]);
      CaseMappingKeepsSpaces(Lower(s[k]));
    }
  }

  /** Title-casing twice gives the same text as title-casing once. */
  lemma TitleCaseIdempotent(s: string)
    ensures TitleCase(TitleCase(s)) == TitleCase(s)
  {
    var t := TitleCase(s);
    TitleCaseSpec(s);
    TitleCaseSpec(t);
    TitleCaseKeepsSpaces(s);
    forall k | 0 <= k < |s| ensures TitleCase(t)[k] == t[k] {
      CaseMappingStable(s[k]);
      assert WordStart(t, k) <==> WordStart(s, k);
    }
  }

  lemma TitleCaseExamples()
    ensures TitleCase("") == ""
    ensures TitleCase("iYI \U{0131}LIK") == "\U{0130}y\U{0131} Il\U{0131}k"
  {
    LowerExample();
    UpperExample();
  }

  lemma LowerExample()
    ensures LowerAll("iYI \U{0131}LIK") == "iy\U{0131} \U{0131}l\U{0131}k"
  {
    var s := "iYI \U{0131}LIK";
    var t := LowerAll(s);
    assert Lower(s[0]) == 'i' && Lower(s[1]) == 'y' && Lower(s[2]) == '\U{0131}' && Lower(s[3]) == ' ';
    assert Lower(s[4]) == '\U{0131}' && Lower(s[5]) == 'l' && Lower(s[6]) == '\U{0131}' && Lower(s[7]) == 'k';
  }

  lemma UpperExample()
    ensures UpperMatchesFrom("iy\U{0131} \U{0131}l\U{0131}k", 0) == "\U{0130}y\U{0131} Il\U{0131}k"
  {
    var t := "iy\U{0131} \U{0131}l\U{0131}k";
    UpperExampleTail();
    assert UpperMatchesFrom(t, 2) == "\U{0131} Il\U{0131}k";
    assert UpperMatchesFrom(t, 1) == "y\U{0131} Il\U{0131}k";
  }

  lemma UpperExampleTail()
    ensures UpperMatchesFrom("iy\U{0131} \U{0131}l\U{0131}k", 3) == " Il\U{0131}k"
  {
    var t := "iy\U{0131} \U{0131}l\U{0131}k";
    assert UpperMatchesFrom(t, 8) == "";
    assert UpperMatchesFrom(t, 7) == "k";
    assert UpperMatchesFrom(t, 6) == "\U{0131}k";
    assert UpperMatchesFrom(t, 5) == "l\U{0131}k";
  }
}
